=== FILE: README.md ===
# 77.uz marketplace API — a Dafny model of the store core

77.uz is a classified-ads marketplace API built on Django and Django REST
framework. This project models the rules of its store app as pure functions on
immutable tables, and proves properties of them:

- **Schema rules.** These live on the models:
  - the slug `Ad.save` derives from `name_uz` when the slug is empty;
  - the unique slug;
  - the two conditional uniqueness constraints of the favourites table (one row per user and product, one per device id and product);
  - the foreign keys;
  - the cascades that follow deleting an Ad or a category.
- **Favourites ledger.** Adding goes through `get_or_create` on the actor's own key, which makes it idempotent. An anonymous caller must supply a `device_id`. Deleting and listing only ever see the actor's own rows.
- **Seller's own Ads.**
  - Creating an Ad: validation, the seller's address, the slug, and the photos in order.
  - Updating an Ad: a sent `name` re-derives the slug, a non-empty `new_photos` replaces every photo, and read-only fields are kept.
  - Deleting an Ad, and the owner-scoped list, newest first.
- **Public Ad list.** It applies the `AdFilter` filter set:
  - inclusive price bounds;
  - seller;
  - region and district through the address;
  - `category_ids` parsed into its all-digit pieces, with flat category membership.

  Then the search on `name` (every word, ignoring case), then the ordering on `published_at`, `price` or `view_count`, defaulting to newest first.
- **Read-side helpers.** `is_liked` (the signed-in user first, then the device id), the first or main photo, the icon fallback, and the per-language column with its `_uz` fallback.
- **Categories.** The category list's `product_count` is formatted with thousands separators. A round trip proves that the label reads back as the count.
- **Language middleware.**
  - The request language comes from a priority chain: header, `?lang`, POST `lang`, JSON `lang`, then the default.
  - The result is clamped to the supported languages.
  - The response repeats the language in `Content-Language`.
- **Icon validator.** The extension after the last dot, lower-cased, must be png, jpg, jpeg or svg.
- **User manager.** Each creation path has its defaults, and caller values override them. Creating a superuser or an admin has its own checks.
- **Saved searches.** Created under the requester, listed newest first, and deleted only by their owner.

Each module follows one part of the program:

| module | what it models |
|---|---|
| `StoreModels` | the tables, the schema invariant `Valid`, the save rule and the cascades |
| `Favourites` | the favourites endpoints and serializer |
| `Ads` | the Ad create, detail and owner endpoints, and their serializers |
| `AdFilters` | `AdFilter` |
| `AdList` | the public list, including the ordering and search backends |
| `Mixins` | the serializer mixins |
| `Categories` | the category list with its counts |
| `Searches` | saved searches |
| `LanguageMiddleware` | the language middleware |
| `Validators` | the icon validator |
| `Managers` | the user manager |

`Results`, `Text` and `Ordering` are shared helpers:
- `Results`: `Option`, `Result` and Python truthiness of optional text.
- `Text`: split, join, strip, lower-casing and decimal digits, all on ASCII.
- `Ordering`: order-keeping filters, `.first()`, and a stable sort.

A null column is the empty string. The one place a null reads differently is the slug a create derives: `save` slugifies a null `name_uz` as "None". The database assigns primary keys from one increasing counter. Three things the code delegates are parameters:
- `slugify`;
- the storage backend's file URL (`url`);
- the clock (`now`).

Five fields the code reads are missing from the model declarations in apps/store/models.py:29-54 and apps/accounts/models.py:9-15:
- `Ad.status`, `AdPhoto.is_main` and `AdPhoto.created_at`. The serializers, the views and the tests all use them as fields, so the model takes them as plain fields. A photo's `created_at` is the time its row is stored.
- The region and district of an address. Only the Ad filter reads them. As written, that filter fails (see "## Findings"). The corrected filter takes them as plain fields of the address, so that it has a meaning.

The language columns of `name` and `description` are `uz` plus a map of the other languages. The create serializer writes `name_uz` and `name_ru`.

## Model

| member | source | states |
|---|---|---|
| StoreModels.Column | apps/store/mixins.py:32-35 | the `<field>_<lang>` column exists exactly for `uz` and for the languages the table has, and holds that language's text |
| StoreModels.SlugOnSaveKeepsExisting | apps/store/models.py:43-46 | an empty slug is derived from `name_uz`, a set slug survives every later save whatever the name becomes, and saving twice is saving once |
| StoreModels.SchemaAllowsNullActors | apps/store/models.py:57-81 | two rows with neither user nor device id for the same Ad satisfy both uniqueness constraints, because the constraints only compare non-null keys |
| StoreModels.InvalidPkNamesKey | apps/store/serializers.py:188 | the message refusing an unknown primary key names that key: two keys give the same message exactly when they are equal |
| StoreModels.DeleteAdCascade | apps/store/models.py:52-66 | deleting an Ad removes exactly that Ad, the photos and the favourite rows that point at it, and nothing else |
| StoreModels.DeleteAdCascadeValid | apps/store/models.py:52-81 | the Ad cascade leaves a database that meets every schema constraint |
| StoreModels.ChildrenOfComplete | apps/store/models.py:9-15 | every category whose parent is in the set is found as a child |
| StoreModels.ChildrenOfSound | apps/store/models.py:9-15 | everything found as a child is a category whose parent is in the set |
| StoreModels.Closure | apps/store/models.py:9-15 | the child closure of a set of categories contains the set |
| StoreModels.ClosureClosed | apps/store/models.py:9-15 | with fuel at least the number of categories not yet reached, the closure contains the children of each of its members |
| StoreModels.ClosureLeast | apps/store/models.py:9-15 | the closure stays inside every set that contains its start and is closed under children |
| StoreModels.DescendantsLeastClosed | apps/store/models.py:9-15 | a category's descendants are the least set that holds it and every child of a member |
| StoreModels.DeleteCategoryCascade | apps/store/models.py:8-34 | deleting a category removes exactly its descendants, the Ads filed under any of them, and those Ads' photos and favourite rows |
| StoreModels.DeleteCategoryCascadeValid | apps/store/models.py:8-81 | the category cascade leaves no dangling parent, category, Ad or product reference |
| Favourites.Lookup | apps/store/views.py:124-134 | `.get` on the actor's rows for a product returns the matching row, `NotFound` when there is none, and `MultipleObjectsReturned` exactly when there are two or more |
| Favourites.ValidLookupIsUnique | apps/store/models.py:69-81 | under the two conditional unique constraints an actor has at most one row per product, so `.get` never finds several |
| Favourites.NewRow | apps/store/serializers.py:214-217 | a created row matches its actor and product, and carries only that actor's key |
| Favourites.GetOrCreate | apps/store/serializers.py:207-219 | an existing row is returned and nothing changes; otherwise exactly one matching row is added; no other table changes |
| Favourites.AppendFavouriteUnique | apps/store/models.py:69-81 | appending a fresh row for an actor with no row for the product keeps both uniqueness constraints and the unique ids |
| Favourites.GetOrCreateValid | apps/store/serializers.py:207-219 | on a valid ledger and an existing Ad, adding always succeeds and keeps every schema constraint |
| Favourites.GetOrCreateIdempotent | apps/store/serializers.py:214-217 | a second identical add returns the row the first returned and changes nothing |
| Favourites.Validate | apps/store/serializers.py:187-205 | `product` must be an existing Ad, and an unknown one is refused with a message naming its key. `device_id` is trimmed to at most 255 characters and holds no NUL character. When the product exists and `device_id` fits and holds no NUL, an anonymous requester passes validation exactly when the trimmed `device_id` is non-empty; a signed-in requester always passes. |
| Favourites.CreateForUser | apps/store/views.py:102-109 | the signed-in endpoint fails with the validation error when validation fails; otherwise it is the add keyed on the user, with its ledger and row. A new row has no device id. |
| Favourites.CreateForUserValid | apps/store/views.py:102-109 | the signed-in endpoint keeps the ledger valid, and a row it creates is keyed on the user alone |
| Favourites.CreateByDevice | apps/store/views.py:112-121 | a validation error is passed on, and a body without a non-empty `device_id` is a validation error. Otherwise the result is the add keyed on the user for a signed-in requester, and on the device id as sent for an anonymous one. |
| Favourites.CreateByDeviceIdempotent | apps/store/views.py:112-121 | repeating a successful request on the device endpoint, signed in or not, returns the same row and leaves the ledger as the first request left it |
| Favourites.CreateForUserIdempotent | apps/store/serializers.py:207-219 | repeating a successful favourite request returns the same row and leaves the ledger as the first request left it |
| Favourites.AnonymousWithoutDeviceRejected | apps/store/serializers.py:198-205 | an anonymous request with an absent or blank `device_id` is a validation error |
| Favourites.AuthenticatedIgnoresDeviceId | apps/store/serializers.py:207-217 | for a signed-in requester the result is the same whatever device id is sent, namely the add keyed on the user |
| Favourites.CreateByDeviceValid | apps/store/views.py:112-121 | the device endpoint keeps the ledger valid, and a row it creates carries exactly one actor key |
| Favourites.Remove | apps/store/views.py:124-134 | a delete is `NotFound` exactly when the actor has no row for the product; otherwise only the found row leaves the table |
| Favourites.RemoveTouchesOnlyOwnRow | apps/store/views.py:124-151 | in a valid ledger a delete removes exactly the actor's row for the product, keeps every other row and keeps the ledger valid |
| Favourites.UserCannotDeleteDeviceRow | apps/store/views.py:129-134 | when an Ad has only a device's row, a user's delete of it is `NotFound` |
| Favourites.RemoveForDevice | apps/store/views.py:137-151 | a missing or empty `?device_id=` is a validation error; otherwise the delete looks only at that device's rows |
| Favourites.ListRows | apps/store/views.py:194-218 | a list holds exactly the actor's rows, narrowed to the category when one is given, with the highest id first, and adds no row |
| Favourites.ListForUser | apps/store/views.py:188-203 | a non-empty `?category=` that is not a number raises `ValueError`. Otherwise the list holds exactly the user's rows, narrowed to the Ads of that category when one is given, with the highest id first, and adds no row. |
| Favourites.CategoryQueryNarrows | apps/store/views.py:195-198 | a category id sent in decimal narrows the user's list exactly as that category does |
| Favourites.ListForDevice | apps/store/views.py:206-224 | a missing or empty `device_id` is a validation error; otherwise the list holds exactly the rows with that device id, with the highest id first, and adds no row |
| Favourites.ListsAreIsolated | apps/store/views.py:194-218 | when every row has exactly one key, no row is in both a user's list and a device's list |
| Favourites.DeletedAdLeavesEveryList | apps/store/models.py:66 | after an Ad is deleted, no actor's list mentions it |
| Favourites.Represent | apps/store/serializers.py:221-228 | the response drops `device_id` exactly for a signed-in requester and otherwise carries the row's value, null included |
| Mixins.LikeActor | apps/store/mixins.py:2-13 | the actor the like is checked for exists only with a request, and a device actor's id is never empty |
| Mixins.IsLikedByResolvedActor | apps/store/mixins.py:2-20 | `is_liked` holds exactly when the resolved actor (the user, else the query's device id, else the context's) has a row for the Ad, and so exactly when that actor's lookup finds one |
| Mixins.AuthenticatedLikeIgnoresDevice | apps/store/mixins.py:7-17 | for a signed-in requester the answer does not depend on either device id |
| Mixins.NoActorNothingLiked | apps/store/mixins.py:18-20 | with no request, or anonymous with no device id, nothing is liked |
| Mixins.DeviceLikeScenario | apps/store/mixins.py:8-19 | after a device favourites an Ad, that device sees it liked and a device without a row still does not |
| Mixins.FileUrl | apps/store/mixins.py:29 | a file's URL exists exactly when a file is attached; an empty file field raises |
| Mixins.PhotosOf | apps/store/mixins.py:26-28 | an Ad's photos are exactly the photo rows pointing at it |
| Mixins.First | apps/store/mixins.py:26-28 | `.first()` is empty exactly on no rows, and otherwise returns a row of least primary key |
| Mixins.MainPhotos | apps/store/mixins.py:26 | the main photos are exactly the rows marked main |
| Mixins.Candidates | apps/store/mixins.py:24-28 | the photos `get_photo` picks from are exactly the Ad's photos, only the main ones when `main_only` |
| Mixins.GetPhoto | apps/store/mixins.py:24-29 | the URL of the lowest-key photo of the Ad, restricted to main photos when `main_only`, or `None` when there is no such photo. It fails exactly when that photo has no file. |
| Mixins.MainOnlyHasNoFallback | apps/store/mixins.py:25-26 | with `main_only`, an Ad without main photos has no photo, however many other photos it has |
| Mixins.ChosenPhoto | apps/store/mixins.py:41-42 | the chosen photo is the main photo of least key, else the photo of least key; there is none exactly when the object has no photos |
| Mixins.GetIcon | apps/store/mixins.py:39-48 | the chosen photo's URL when it has a file. Otherwise the icon's URL when there is a non-empty icon. The result is nothing exactly when neither exists. Every result is the URL of a photo or the icon. |
| Mixins.EmptyMainPhotoFallsToIcon | apps/store/mixins.py:40-46 | a main photo without a file skips the other photos and falls to the icon, or to nothing |
| Mixins.Localized | apps/store/mixins.py:32-35 | the request language's column when it exists, even if it is empty; the Uzbek column only when the language has no column |
| Mixins.EmptyColumnIsNotReplaced | apps/store/mixins.py:35 | an empty Russian column is returned as empty, while a missing one falls back to Uzbek |
| AdFilters.DigitTokens | apps/store/filters.py:20 | the parsed ids are exactly the values of the all-digit pieces, and there are none when no piece is all digits |
| AdFilters.DigitTokensOfRendered | apps/store/filters.py:20 | decimal renderings of ids parse back to the same ids in the same order |
| AdFilters.CategoryIdListRoundTrip | apps/store/filters.py:19-21 | a comma-joined list of ids parses back to that list |
| AdFilters.SingleIdParses | apps/store/filters.py:20 | one id in decimal parses to itself |
| AdFilters.Narrow | apps/store/filters.py:6-17 | a filter whose parameter was not sent leaves the query set alone; one that was sent keeps exactly the rows meeting it |
| AdFilters.FilterAds | apps/store/filters.py:6-21 | the filtered list is a sub-multiset of its input |
| AdFilters.FilterAdsMember | apps/store/filters.py:6-21 | an Ad is in the result exactly when it was in the input and meets every sent condition: both price bounds, seller, and region and district of its address. When `category_ids` is not blank after trimming, the Ad's category must also be among its all-digit pieces. |
| AdFilters.FilterAdsMembers | apps/store/filters.py:6-21 | the same membership, for all Ads at once |
| AdFilters.NoFiltersKeepsEverything | apps/store/filters.py:6-17 | without parameters the query set is returned untouched |
| AdFilters.FilterAdsIdempotent | apps/store/filters.py:6-21 | filtering again with the same parameters removes nothing more |
| AdFilters.PriceBoundsInclusive | apps/store/filters.py:7-8 | an Ad priced exactly at both bounds is kept; a lower bound one above its price drops it |
| AdFilters.NoDigitTokensSelectsNothing | apps/store/filters.py:19-21 | a `category_ids` that is not blank after trimming, with no all-digit piece, selects no Ad |
| AdFilters.BlankCategoryIdsKeepsEverything | apps/store/filters.py:13-21 | a `category_ids` that is blank after trimming counts as not sent, so every Ad is kept |
| AdFilters.CategoryIdListTrims | apps/store/filters.py:13-20 | the pieces are cut from the trimmed value, so space around the whole value changes nothing |
| AdFilters.RenderedIdsUnpadded | apps/store/filters.py:13-20 | a comma-joined list of ids is not blank and has nothing to trim |
| AdFilters.SingleCategorySelects | apps/store/filters.py:19-21 | asking for one category keeps exactly the Ads filed directly under it |
| AdFilters.CategoryFilterIsFlat | apps/store/filters.py:19-21 | asking for a parent does not return its child's Ads; asking for the child does |
| AdFilters.CategoryListSelectsAny | apps/store/filters.py:19-21 | a comma-separated list of ids keeps exactly the Ads filed under one of them |
| AdFilters.RegionFollowsAddress | apps/store/filters.py:10-11 | region and district are judged on the address, so two Ads at one address are kept or dropped together |
| AdFilters.FilterAdsAsWritten | apps/store/filters.py:10-11 | as written, the query fails exactly when `region_id` or `district_id` is sent, and otherwise equals the filter set |
| AdFilters.RegionFilterRaises | apps/store/filters.py:10-11 | `?region_id=1` and `?district_id=1` each make the filter fail with a field error |
| Ads.GetAd | apps/store/views.py:178-185 | `.get` returns the one matching Ad, `NotFound` exactly when none matches, `MultipleObjectsReturned` exactly when two or more do |
| Ads.GetAdFinds | apps/store/views.py:57-61 | in a table of distinct Ads, a condition only one Ad meets finds that Ad |
| Ads.GetOwnedScope | apps/store/views.py:184-185 | the seller finds each of their Ads by id, and anybody else gets `NotFound` |
| Ads.AdBySlugFinds | apps/store/views.py:57-61 | every stored Ad is found at its own slug |
| Ads.NameError | apps/store/serializers.py:61-62 | a sent `name_uz` or `name_ru` is refused exactly when it is over 255 characters after trimming or holds a NUL character; an absent or null one passes |
| Ads.DraftError | apps/store/serializers.py:47-93 | the create payload is refused exactly when a name is over 255 characters or holds a NUL, the category is missing or unknown, the price is missing or negative, or the photos are missing. An unknown category is refused with a message naming its key. |
| Ads.PhotoRows | apps/store/serializers.py:101 | one non-main photo per uploaded image, in upload order, each pointing at the new Ad under a fresh key and stamped with the request time |
| Ads.NewAd | apps/store/serializers.py:95-102 | the new Ad has the seller and the seller's address, the trimmed Uzbek and Russian names, the price and category sent, and the slug derived from `name_uz`: `slugify` of the trimmed name, or of "None" when `name_uz` is absent or null. It is unpublished, has no views, and is stamped now. |
| Ads.CreateAd | apps/store/serializers.py:95-102 | validation failures are validation errors; a seller without an address, or a derived slug already taken, is an integrity error. Otherwise the Ad is appended, then its photos in order, and no other table changes. |
| Ads.AppendAdUnique | apps/store/models.py:29-40 | an Ad under a fresh id with a free slug keeps ids and slugs unique |
| Ads.AppendAdReferences | apps/store/models.py:29-54 | an Ad with a stored category and address, and photo rows pointing at it, keeps every reference valid and every key below the counter |
| Ads.AppendAdValid | apps/store/models.py:29-81 | appending such an Ad and its photos keeps every schema constraint |
| Ads.CreateAdValid | apps/store/serializers.py:95-102 | when the seller's address is stored, a successful create keeps every schema constraint |
| Ads.CreatedAdFoundBySlug | apps/store/views.py:57-61 | a newly created Ad is what the detail view returns at its slug |
| Ads.SameNameTwiceConflicts | apps/store/models.py:32-46 | a second Ad whose draft derives the same slug as the first's is refused. That covers an equal trimmed Uzbek name, and also a null name after the name "None". |
| Ads.PatchError | apps/store/serializers.py:297-327 | an update is refused exactly when a full update lacks a required field or a sent field is invalid: a blank, over-long or NUL-holding name, a blank or NUL-holding description, an unknown category or a negative price |
| Ads.Patched | apps/store/serializers.py:332-342 | the sent fields replace the old ones and every read-only field is kept. A sent name sets the slug to its slugified form, or, when that is empty, to the slugified `name_uz`. Without a name a set slug is kept. |
| Ads.PhotosAfter | apps/store/serializers.py:336-340 | a non-empty `new_photos` deletes every photo of the Ad and adds one per URL in order; an absent or empty one leaves the photos alone |
| Ads.UpdateAd | apps/store/serializers.py:297-342 | an Ad the requester does not own is not found, and an invalid payload is a validation error. A slug held by another Ad is an integrity error. Otherwise the Ad is replaced by its patched form with the photos as `new_photos` dictates. |
| Ads.UpdateByOtherIsNotFound | apps/store/views.py:184-185 | anyone but the seller gets `NotFound` from an update |
| Ads.UpdateAdValid | apps/store/serializers.py:332-342 | a successful update keeps every schema constraint |
| Ads.UpdateKeepsAds | apps/store/models.py:29-46 | replacing an Ad under its own id with a slug no other Ad holds keeps ids and slugs unique and every Ad reference valid |
| Ads.UpdateKeepsPhotos | apps/store/models.py:52-81 | after the photo replacement every photo and favourite still points at a stored Ad, under keys below the counter |
| Ads.PatchedAgain | apps/store/serializers.py:332-334 | applying a patch to its own result changes only the modification time |
| Ads.UpdateAdAgain | apps/store/serializers.py:332-342 | resending an update that does not replace photos succeeds, keeps the slug and fields, and moves only the modification time |
| Ads.MyAds | apps/store/views.py:166-175 | the seller's list holds exactly the seller's Ads, newest first |
| Ads.MyAdsAreIsolated | apps/store/views.py:173-175 | two sellers' lists share no Ad |
| Ads.DeleteMyAd | apps/store/views.py:178-185 | a seller's delete fails like the lookup for an Ad they do not own, and otherwise is the Ad cascade |
| Ads.DeleteMyAdOnlyOwn | apps/store/views.py:178-185 | a delete keeps the database valid, keeps every other Ad and every other seller's Ad, and the deleted Ad is no longer found |
| Ads.RepresentCreated | apps/store/serializers.py:104-130 | the created Ad renders its name and description in the request language and the seller's address name. The `description` key is dropped exactly when that text is empty. The `photo` is what `get_photo` gives, and rendering fails exactly when that fails. Id, slug, price and times are the Ad's. |
| Ads.CreatedPhotoAmongDetailPhotos | apps/store/serializers.py:104-184 | the photo the create serializer renders is the image of one of the photos the detail serializer renders for the same Ad |
| Ads.RenderPhoto | apps/store/serializers.py:133-137 | a photo renders its id, Ad, main flag and creation time, with its image URL, or null when no file is attached |
| Ads.RepresentDetail | apps/store/serializers.py:145-184 | the detail renders every photo of the Ad, each with its creation time, in table order, and the name and description in the request language |
| Ads.RepresentationsOnEmptyDescription | apps/store/serializers.py:118-184 | on an empty description the create serializer drops the key while the detail serializer sends the empty text; both send the same name |
| AdList.FieldNamed | apps/store/views.py:162 | a name denotes an ordering field exactly when it is that field's name |
| AdList.ParseTerm | apps/store/views.py:162 | an accepted ordering term is a field name, optionally after `-` |
| AdList.ValidTerms | apps/store/views.py:162 | every kept term comes from a valid piece of the parameter, every valid piece is kept, and no more terms are kept than were sent |
| AdList.ValidTermsConcat | apps/store/views.py:162 | the terms kept from two runs of pieces are those kept from each run, in order |
| AdList.Pieces | apps/store/views.py:159-163 | the ordering parameter is cut at commas and each piece trimmed |
| AdList.ResolveOrdering | apps/store/views.py:159-163 | the valid terms of the parameter, in order. The default `-published_at` applies when the parameter is absent, empty or holds no valid term. |
| AdList.ParseRenderTerm | apps/store/views.py:162 | a written-out term reads back as itself |
| AdList.ValidTermsOfRendered | apps/store/views.py:162 | written-out terms are all kept, in order |
| AdList.OrderingRoundTrip | apps/store/views.py:159-163 | every ordering the view allows can be requested: written as the parameter, it resolves back to itself |
| AdList.OrderKey | apps/store/views.py:162-163 | the sort key holds each ordered field's value, negated for a descending term |
| AdList.OrderAds | apps/store/views.py:162-163 | the ordered list is a permutation of its input, sorted by the key |
| AdList.OrderedOnLeadingField | apps/store/views.py:162-163 | along the ordered list, the leading field is non-increasing when descending and non-decreasing otherwise |
| AdList.SearchTerms | apps/store/views.py:159-161 | the search words are non-empty and hold no space; no parameter gives no words |
| AdList.SearchAds | apps/store/views.py:161 | the search keeps exactly the Ads whose name contains every word, ignoring case; no words keep every Ad |
| AdList.SearchIgnoresCase | apps/store/views.py:161 | a word and its lower-case form select the same Ads |
| AdList.ListAds | apps/store/views.py:154-163 | with the corrected region and district filter, the public list holds exactly the Ads that pass the filter set and the search, each once at most, sorted by the resolved ordering |
| AdList.ListAdsAsWritten | apps/store/views.py:154-163 | as written, the public list fails with a field error exactly when `region_id` or `district_id` is sent, and otherwise is the corrected list |
| AdList.RegionParameterBreaksList | apps/store/views.py:154-163 | an Ad at an address in a region is in the corrected list for that region, while the list as written fails for the same request |
| AdList.DefaultListIsNewestFirst | apps/store/views.py:163 | without an ordering parameter the list is newest first |
| AdList.UnknownOrderingFallsBack | apps/store/views.py:162-163 | an ordering on a field the view does not allow falls back to the default |
| AdList.UnpublishedAdsAreListed | apps/store/views.py:155-156 | with no parameters an unpublished Ad is listed too |
| Categories.GroupedRoundTrip | apps/store/serializers.py:31-32 | dropping the commas of a formatted count and reading the digits gives the count back |
| Categories.GroupedShape | apps/store/serializers.py:32 | the formatted count's first group has one to three digits without a leading zero, and every later group exactly three |
| Categories.ProductCountLabel | apps/store/serializers.py:31-32 | a missing count renders "0"; a present count renders a label that reads back as that count |
| Categories.SmallCountsHaveNoComma | apps/store/serializers.py:32 | below one thousand the label is the plain decimal, without a comma |
| Categories.AdCount | apps/store/views.py:98-99 | a category's count is zero exactly when no Ad is filed directly under it |
| Categories.RenderCategory | apps/store/serializers.py:24-32 | a category renders its id and name, a null icon exactly when no file is attached, and a count label that reads back as its number of Ads |
| Categories.ListCategories | apps/store/views.py:86-99 | every category is listed once, in table order, with its count |
| Categories.ParentCountsOnlyItsOwnAds | apps/store/views.py:98-99 | a parent whose Ads all sit in child categories shows "0": the count is not rolled up |
| Searches.SearchDraftError | apps/store/serializers.py:391-406 | a draft is refused exactly when it names a category or a region that does not exist. The message names the unknown category, or else the unknown region. |
| Searches.CreateSearch | apps/store/views.py:227-234 | an unknown category or region is a validation error. Otherwise the saved search is stored under the requester with the sent fields, a fresh id and the creation time, and nothing else changes. |
| Searches.CreateSearchValid | apps/store/views.py:227-234 | a successful create keeps saved-search ids unique |
| Searches.ListSearches | apps/store/views.py:237-244 | the list holds exactly the requester's saved searches, newest first |
| Searches.CreatedSearchListedForOwnerOnly | apps/store/views.py:233-244 | a new saved search is in its owner's list and in nobody else's |
| Searches.GetOwnSearch | apps/store/views.py:247-253 | the lookup finds only the requester's search with that id, and is `NotFound` exactly when there is none |
| Searches.DeleteSearch | apps/store/views.py:247-253 | a delete fails like the lookup, and otherwise removes exactly the search with that id |
| Searches.DeleteSearchScoped | apps/store/views.py:247-253 | a delete keeps ids unique, never removes another user's search, and takes the search off its owner's list |
| Searches.DeleteByOtherIsNotFound | apps/store/views.py:252-253 | another user's delete of a saved search is `NotFound` |
| LanguageMiddleware.Clamp | config/middleware.py:44-46 | a supported code is kept; anything else becomes the default |
| LanguageMiddleware.ProcessRequestAsWritten | config/middleware.py:18-50 | as written, the request hook raises exactly when no earlier source is set and a JSON request's body is valid JSON but not an object |
| LanguageMiddleware.NonObjectJsonBodyRaises | config/middleware.py:31-37 | a JSON POST whose body is a list, with no other language source, makes the hook raise |
| LanguageMiddleware.ProcessRequest | config/middleware.py:18-50 | the resolved language is a supported code or the default, and a supported code whenever the default is supported |
| LanguageMiddleware.FirstTruthy | config/middleware.py:20-41 | the first non-empty candidate is chosen, else the default |
| LanguageMiddleware.PriorityChain | config/middleware.py:20-41 | the nested fall-through is "first non-empty source wins": header, `?lang`, POST `lang` (POST only), JSON `lang` (JSON only), then the default |
| LanguageMiddleware.UnsupportedHeaderGivesDefault | config/middleware.py:20-46 | a non-empty unsupported header gives the default, and lower-priority sources are not consulted |
| LanguageMiddleware.MalformedBodyFallsBackToDefault | config/middleware.py:31-41 | a malformed JSON body does not raise, and with no other source the default is used |
| LanguageMiddleware.AsWrittenAgreesWhenItSucceeds | config/middleware.py:18-50 | whenever the code as written does not raise, it agrees with the corrected hook |
| LanguageMiddleware.ProcessResponse | config/middleware.py:52-56 | with a language on the request the response carries it in `Content-Language`; every other header is kept, and no other is added |
| LanguageMiddleware.ResponseAnnouncesResolvedLanguage | config/middleware.py:49-56 | the response announces exactly the language the request resolved to, and it is supported |
| Validators.IconExtensions | apps/common/validators.py:4-7 | a rejection is always the validation error with the format message |
| Validators.IconExtensionsByLastDot | apps/common/validators.py:5-6 | the extension is the lower-cased text after the last dot (the whole name when there is none), and the file is accepted exactly when it is png, jpg, jpeg or svg |
| Validators.AcceptedIffAt | apps/common/validators.py:5-6 | given the position after the last dot, acceptance is membership of the lower-cased rest |
| Validators.UpperCaseAccepted | apps/common/validators.py:5 | "A.PNG" is accepted |
| Validators.LastSegmentDecides | apps/common/validators.py:5-7 | whatever precedes the last dot, a name is judged as its extension alone would be |
| Validators.LastSegmentDecidesReject | apps/common/validators.py:5-7 | any name ending in ".png.exe" is rejected |
| Validators.LastSegmentDecidesAccept | apps/common/validators.py:5-7 | any name ending in ".exe.png" is accepted |
| Validators.DotlessNameIsItsExtension | apps/common/validators.py:5 | "png" with no dot is accepted |
| Validators.TrailingDotRejected | apps/common/validators.py:5-7 | "x." has an empty extension and is rejected |
| Managers.SetDefaults | apps/accounts/managers.py:9-13 | each supplied field is kept, and each missing one takes the path's default |
| Managers.PasswordFor | apps/accounts/managers.py:16-19 | a non-empty password is set; a missing or empty one leaves the password unusable |
| Managers.Save | apps/accounts/models.py:31 | the save succeeds exactly when no user has the phone number yet; otherwise it is an integrity error on `phone_number` |
| Managers.CreateUser | apps/accounts/managers.py:5-21 | an empty phone is rejected exactly; a taken one fails at the save. Otherwise the user has that phone, with a usable password exactly when one was given. |
| Managers.CreateSuperuser | apps/accounts/managers.py:23-44 | a created superuser is a staff super admin with the superuser flag, and its phone was free |
| Managers.CreateAdmin | apps/accounts/managers.py:46-63 | a created admin has the admin role, and its phone was free |
| Managers.CreateUserDefaultsAndOverrides | apps/accounts/managers.py:9-15 | each supplied field is kept; each missing one becomes seller, not staff, not superuser, inactive or pending |
| Managers.CreateSuperuserAcceptance | apps/accounts/managers.py:24-44 | a superuser is created exactly when, after defaulting, the role is super admin, both flags are set and the phone is free. The account then defaults to active and approved, and a wrong role is reported first. A request that would pass on a free phone is an integrity error on a taken one. |
| Managers.CreateAdminAcceptance | apps/accounts/managers.py:47-63 | an admin is created exactly when, after defaulting, the role is admin and the phone is free. The defaults are staff, not superuser, active and approved. A request that would pass on a free phone is an integrity error on a taken one. |
| Managers.EmptyPhoneOnlyRejectedByCreateUser | apps/accounts/managers.py:5-63 | an empty phone is refused by `create_user`. `create_superuser` and `create_admin` accept it while no user has it; once one user has it, the next is an integrity error. |

## Left out

- Views, serializers and the ORM are modelled by their effect on immutable tables. The following are not modelled:
  - HTTP
  - permissions (`IsSeller`, whose source is not part of this model)
  - response envelopes
  - pagination
  - the OpenAPI declarations
- The `Ad.likes` many-to-many flag that some serializers report as `is_liked` is a separate mechanism from the favourites ledger and is not modelled. The seller's embedded serializer is not modelled either.
- `slugify`, password hashing, file storage and file URLs are parameters. So is the clock. So is the default of `Ad.status`, a field missing from the model declaration.
- The `MySearch` model, the search counter and the popular searches are not part of this model. Saved searches carry the fields their serializers name. The related keys are checked, but the model's own field checks on the other values are not modelled.
- Searches.CreateSearch: the region table is not part of this model, so its keys are a parameter. `price_min` and `price_max` are whole numbers, and their field checks are not modelled. Nor are the text checks on `search_query` (trimming, width, NUL characters), since its field declaration is not part of this model.
- `MyAdsListAPIView`'s `filterset_fields` (a `status` filter) is not modelled.
- django-modeltranslation is not modelled: the mirroring of `name` into its language columns, and the rewriting of queries on `name`. Search and ordering read the bare `name`. An update writes the bare `name` and `description` only. A create stores the trimmed `name_uz` as `name` and an empty description: `description` is a read-only method field in the create serializer.
- Uploaded images and `new_photos` URLs are file names. Image and URL validation are not modelled.
- The upper bound of `PositiveIntegerField`, and the per-database range of `price`, are not modelled.
- Ads.CreateAd: `Ad.slug` is a `SlugField` with Django's default width of 50 characters (apps/store/models.py:32). A longer slug is not refused; a database that enforces the column width would refuse it. Ads.UpdateAd does the same.
- Favourites.CreateByDevice: the row is keyed on `device_id` as sent, while validation checks the width of the trimmed value only. A raw value longer than the 255-character column (apps/store/models.py:65) is not refused.
- Text handling is ASCII only. The whitespace that trimming and splitting drop is Python's ASCII set: the space, tab through carriage return, and 0x1C through 0x1F. Python's `isdigit`, `strip` and `split`, DRF's whitespace trimming, and the database's case-insensitive `icontains` all work on Unicode. So non-ASCII digits, spaces and letters are not modelled in these places: `AdList.Pieces`, `AdList.SearchTerms`, `AdList.SearchAds` and `AdList.SearchIgnoresCase` (for example Cyrillic names), `Favourites.Validate` (for example a no-break space), and `AdFilters.DigitTokens`. For example, `"²".isdigit()` holds in Python and then `int` raises; the model treats `²` as a non-digit.
- The quoted-phrase splitting of DRF's search is not modelled.
- `translation.activate` is replaced by the returned language. JSON decoding is replaced by its outcome (malformed, an object with its `lang`, or another JSON value).
- Concurrency and the race handling inside `get_or_create` are not modelled.
- `ProductDownloadView`, `ProductImageCreateView` and `CategoriesWithChildrenView` are not modelled: they are plain retrieve, create and list declarations with no rule of their own.
- Ads.RepresentDetail: the photos are rendered in table order. `obj.photos.all()` has no `order_by`, so the database may return them in any order; table order is one of those.
- Ads.PhotoRows: `AdPhoto.is_main` is missing from the model declaration, so its default is not known. The model takes it to be false for every photo the create and update endpoints store, which decides `get_photo(main_only=True)` and the main-photo branch of `get_icon` for those Ads.
- Categories.ListCategories: the categories are listed in table order. The annotated query has no `order_by`, so the database may return them in any order; table order is one of those.
- AdList.OrderAds: rows that tie on every ordering key keep table order, while the database leaves their order unspecified.
- Mixins.First: `.first()` on an unordered query set is taken to return the row of least primary key, which is what Django does by ordering on `pk`.
- Favourites.Validate: reports only the first failing field, where DRF collects the errors of every field. Ads.DraftError and Ads.PatchError do the same.
- Searches.SearchDraftError: reports only the unknown category when both `category` and `region_id` name no row, where DRF reports both fields.
- AdFilters.FilterAds: the price bounds are whole numbers, whereas django-filter's `NumberFilter` accepts decimals. A parameter the filter form rejects is not modelled either. django-filter answers 400 in each of these cases:
  - a `seller` that names no user, since `Meta.fields` makes it a model-choice filter;
  - a non-numeric `price__gte`, `price__lte`, `region_id` or `district_id`.
  The model takes these parameters as already parsed and looks no further.
- Favourites.ListForUser: `?category=` is passed to the integer column as sent. Python's `int` also accepts surrounding space, a sign and underscores, so such values are not errors in the source. The model accepts only plain ASCII digits and treats every other non-empty value as a `ValueError`.
- Ads.Patched: a stored null `name_uz` is "" here. So when a sent name slugifies to "" and the Ad's `name_uz` is null, the fallback slug is `slugify("")`, where the source computes `slugify("None")`.
- Favourites.Validate: a primary key is a whole number here, and the message for an unknown one writes it in decimal. DRF echoes the value as sent (`"05"` stays `"05"`) and refuses a key of the wrong type with a message of its own; neither is modelled. Ads.DraftError, Ads.PatchError and Searches.SearchDraftError do the same.
- Managers.Save: `phone_number` is 20 characters wide (apps/accounts/models.py:31), and `save` does not check the width. Whether a longer number is refused depends on the database, which is not part of this model.
- Ads.UpdateAd: a failed save is taken to leave the database as it was. The source deletes and re-creates photos before the save; whether a failure undoes that depends on the transaction settings, which are not part of this model.
- Ads.CreateAd: a seller without an address fails with an integrity error on `address_id`. The check that only sellers reach the endpoint is not modelled.
- StoreModels.Closure: the descendants of a category are computed with fuel. The fuel is one more than the number of categories, and `DescendantsLeastClosed` proves that this is enough.
- The code departs from the documented behaviour in three places, and the model follows the code in each:
  - An update re-derives the slug when `name` is sent.
  - The public list has no `is_published` condition (`AdList.UnpublishedAdsAreListed`).
  - The favourites schema allows a row with neither a user nor a device id (`StoreModels.SchemaAllowsNullActors`).

## Findings

| source | as written | input that shows it | evidently intended | confidence | as-written member | corrected member |
|---|---|---|---|---|---|---|
| config/middleware.py:35-37 | `data.get("lang")` is called on whatever the body parses to, and only decoding errors are caught | a POST with content type `application/json`, no header, no `?lang`, and the body `[]` (or `5`, `"ru"`, `null`): the hook raises `AttributeError` | a body that is not a JSON object contributes no language and the default applies, like a malformed body | not executed | LanguageMiddleware.ProcessRequestAsWritten | LanguageMiddleware.ProcessRequest |
| apps/store/filters.py:10-11 | `region_id` and `district_id` filter on `address__region_id` and `address__district_id`, but `Address` (apps/accounts/models.py:9-15) has only `name`, `lat` and `long` | `GET` on the public list with `?region_id=1`: the lookup names a field the address does not have, and the query raises a field error | Ads are kept when their address lies in the region or district asked for | not executed | AdFilters.FilterAdsAsWritten | AdFilters.FilterAds |
| apps/store/views.py:154-163 | the public list applies that filter set, so the failure reaches the list endpoint | `GET` on the public list with `?region_id=1` and no other parameter: the list fails instead of listing the Ads in region 1 (`AdList.RegionParameterBreaksList`) | the list holds the Ads whose address lies in the region or district asked for | not executed | AdList.ListAdsAsWritten | AdList.ListAds |

=== FILE: ad_list.dfy ===
/** `AdListView`, the public Ad list: the `AdFilter` filter set, then the search
    on `name`, then the ordering.

    The ordering comes from the `ordering` query parameter, a comma-separated
    list of terms, each a field name or a field name after `-` (descending);
    terms naming anything other than `published_at`, `price` and `view_count`
    are dropped, and when none is left (or the parameter is absent or empty)
    the view's default `-published_at` applies.

    The search splits the `search` parameter into words (a comma separates like
    a blank) and keeps the Ads whose name contains every word, ignoring case.

    The list has no `is_published` condition: unpublished Ads are listed too. */
module AdList {
  import opened Results
  import opened Ordering
  import opened Text
  import opened StoreModels
  import opened AdFilters

  // ---------------------------------------------------------------------------
  // OrderingFilter
  // ---------------------------------------------------------------------------

  /** The view's `ordering_fields`. */
  datatype OrderField = PublishedAt | Price | ViewCount

  datatype OrderTerm = OrderTerm(field: OrderField, descending: bool)

  function FieldName(f: OrderField): string {
    match f
    case PublishedAt => "published_at"
    case Price => "price"
    case ViewCount => "view_count"
  }

  /** The field a name denotes, if it is one of the ordering fields. */
  function FieldNamed(name: string): (r: Option<OrderField>)
    ensures r.Some? ==> FieldName(r.value) == name
    ensures r.None? ==> forall f :: FieldName(f) != name
  {
    if name == "published_at" then Some(PublishedAt)
    else if name == "price" then Some(Price)
    else if name == "view_count" then Some(ViewCount)
    else None
  }

  /** The view's `ordering = ["-published_at"]`. */
  const DefaultOrdering := [OrderTerm(PublishedAt, true)]

  /** One term: a field, or `-` and a field; anything else is dropped. */
  function ParseTerm(term: string): (r: Option<OrderTerm>)
    ensures r.Some? ==> term == RenderTerm(r.value)
  {
    if |term| > 0 && term[0] == '-' then
      match FieldNamed(term[1..])
      case Some(f) =>
        assert term == "-" + term[1..];
        Some(OrderTerm(f, true))
      case None => None
    else
      match FieldNamed(term)
      case Some(f) => Some(OrderTerm(f, false))
      case None => None
  }

  /** What one piece contributes: its term when it is valid, nothing otherwise. */
  function Kept(term: string): (r: seq<OrderTerm>)
    ensures ParseTerm(term).None? ==> r == []
    ensures ParseTerm(term).Some? ==> r == [ParseTerm(term).value]
  {
    match ParseTerm(term)
    case Some(t) => [t]
    case None => []
  }

  /** `remove_invalid_fields`: the valid terms, in order. */
  function ValidTerms(terms: seq<string>): (r: seq<OrderTerm>)
    ensures |r| <= |terms|
    ensures forall t :: t in r ==> exists k :: 0 <= k < |terms| && ParseTerm(terms[k]) == Some(t)
    ensures forall k :: 0 <= k < |terms| && ParseTerm(terms[k]).Some? ==> ParseTerm(terms[k]).value in r
  {
    CollectMembers(terms, Kept);
    CollectShort(terms, Kept);
    Collect(terms, Kept)
  }

  /** The base case of the order: one piece gives its parsed term or nothing.
      With `ValidTermsConcat` this fixes `ValidTerms` of every run of pieces. */
  lemma ValidTermsSingle(term: string)
    ensures ValidTerms([term]) == Kept(term)
  {
    assert [term][1..] == [];
    assert Collect([term], Kept) == Kept(term) + Collect([], Kept);
  }

  /** Terms are kept in the order they were sent: the valid terms of two runs of
      pieces are those of the first followed by those of the second. */
  lemma ValidTermsConcat(a: seq<string>, b: seq<string>)
    ensures ValidTerms(a + b) == ValidTerms(a) + ValidTerms(b)
  {
    CollectConcat(a, b, Kept);
  }

  /** The stripped pieces of the parameter. */
  function Pieces(param: string): (r: seq<string>)
    ensures |r| == |Split(param, ',')|
    ensures forall k :: 0 <= k < |r| ==> r[k] == Strip(Split(param, ',')[k])
  {
    var parts := Split(param, ',');
    seq(|parts|, k requires 0 <= k < |parts| => Strip(parts[k]))
  }

  /** `OrderingFilter.get_ordering` on the `ordering` query parameter. */
  function ResolveOrdering(param: Option<string>): (r: seq<OrderTerm>)
    ensures |r| >= 1
    ensures param.None? || param == Some("") ==> r == DefaultOrdering
    ensures param.Some? && param.value != "" && ValidTerms(Pieces(param.value)) != [] ==>
      r == ValidTerms(Pieces(param.value))
    ensures param.Some? && param.value != "" && ValidTerms(Pieces(param.value)) == [] ==>
      r == DefaultOrdering
  {
    if param.None? || param.value == "" then DefaultOrdering
    else
      var terms := ValidTerms(Pieces(param.value));
      if terms == [] then DefaultOrdering else terms
  }

  /** A term written out: the field name, after `-` when descending. */
  function RenderTerm(t: OrderTerm): string {
    (if t.descending then "-" else "") + FieldName(t.field)
  }

  /** Each term written out. */
  function RenderedTerms(ts: seq<OrderTerm>): (r: seq<string>)
    ensures |r| == |ts|
    ensures forall k :: 0 <= k < |ts| ==> r[k] == RenderTerm(ts[k])
  {
    seq(|ts|, k requires 0 <= k < |ts| => RenderTerm(ts[k]))
  }

  /** An ordering written out as the query parameter. */
  function RenderOrdering(ts: seq<OrderTerm>): string
    requires |ts| >= 1
  {
    Join(RenderedTerms(ts), ',')
  }

  /** Each field name is non-empty, starts with a letter and holds no comma. */
  lemma FieldNameShape(f: OrderField)
    ensures |FieldName(f)| > 0 && FieldName(f)[0] != '-' && ',' !in FieldName(f)
    ensures !IsSpace(FieldName(f)[0]) && !IsSpace(FieldName(f)[|FieldName(f)| - 1])
    ensures FieldNamed(FieldName(f)) == Some(f)
  {
  }

  /** A rendered term reads back as itself. */
  lemma ParseRenderTerm(t: OrderTerm)
    ensures ParseTerm(RenderTerm(t)) == Some(t)
    ensures ',' !in RenderTerm(t)
    ensures Strip(RenderTerm(t)) == RenderTerm(t)
  {
    var s := RenderTerm(t);
    var n := FieldName(t.field);
    FieldNameShape(t.field);
    if t.descending {
      assert s == ['-'] + n;
      assert s[1..] == n;
    } else {
      assert s == n;
    }
    StripUnpadded(s);
  }

  lemma {:induction false} ValidTermsOfRendered(ts: seq<OrderTerm>)
    ensures ValidTerms(RenderedTerms(ts)) == ts
  {
    if |ts| > 0 {
      var t0 := RenderTerm(ts[0]);
      var tail := RenderedTerms(ts[1..]);
      assert RenderedTerms(ts) == [t0] + tail by {
        assert forall k :: 1 <= k < |ts| ==> ts[k] == ts[1..][k - 1];
      }
      assert ValidTerms([t0]) == [ts[0]] by {
        ValidTermsSingle(t0);
        ParseRenderTerm(ts[0]);
      }
      ValidTermsOfRendered(ts[1..]);
      ValidTermsConcat([t0], tail);
      assert [ts[0]] + ts[1..] == ts;
    }
  }

  /** Every ordering the view accepts can be asked for: writing it out as the
      `ordering` parameter resolves back to it. */
  lemma OrderingRoundTrip(ts: seq<OrderTerm>)
    requires |ts| >= 1
    ensures ResolveOrdering(Some(RenderOrdering(ts))) == ts
  {
    var terms := RenderedTerms(ts);
    var param := RenderOrdering(ts);
    assert Pieces(param) == terms by {
      forall k | 0 <= k < |terms| ensures ',' !in terms[k] && Strip(terms[k]) == terms[k] {
        ParseRenderTerm(ts[k]);
      }
      SplitJoin(terms, ',');
    }
    assert param != "" by {
      forall k | 0 <= k < |terms| ensures |terms[k]| > 0 {
        FieldNameShape(ts[k].field);
      }
      JoinEnds(terms, ',');
    }
    ValidTermsOfRendered(ts);
  }

  /** The value an Ad contributes for a field. */
  function FieldValue(a: Ad, f: OrderField): int {
    match f
    case PublishedAt => a.publishedAt
    case Price => a.price
    case ViewCount => a.viewCount
  }

  /** The sort key of an Ad under an ordering; a descending field is negated. */
  function OrderKey(a: Ad, ts: seq<OrderTerm>): (key: seq<int>)
    ensures |key| == |ts|
    ensures forall k :: 0 <= k < |ts| ==>
      key[k] == (if ts[k].descending then -FieldValue(a, ts[k].field) else FieldValue(a, ts[k].field))
  {
    seq(|ts|, k requires 0 <= k < |ts| =>
      if ts[k].descending then -FieldValue(a, ts[k].field) else FieldValue(a, ts[k].field))
  }

  /** `queryset.order_by(*ordering)`. Rows that tie on every key keep their table
      order here; the database leaves their order open. */
  function OrderAds(ads: seq<Ad>, ts: seq<OrderTerm>): (r: seq<Ad>)
    ensures multiset(r) == multiset(ads)
    ensures forall i, j :: 0 <= i < j < |r| ==> LexLe(OrderKey(r[i], ts), OrderKey(r[j], ts))
  {
    SortBy(ads, (a: Ad) => OrderKey(a, ts))
  }

  /** Ordered on one key: the leading field is monotone along the list. */
  lemma OrderedOnLeadingField(ads: seq<Ad>, ts: seq<OrderTerm>, i: int, j: int)
    requires |ts| >= 1 && 0 <= i < j < |OrderAds(ads, ts)|
    ensures var r := OrderAds(ads, ts);
      if ts[0].descending then FieldValue(r[i], ts[0].field) >= FieldValue(r[j], ts[0].field)
      else FieldValue(r[i], ts[0].field) <= FieldValue(r[j], ts[0].field)
  {
    var r := OrderAds(ads, ts);
    assert LexLe(OrderKey(r[i], ts), OrderKey(r[j], ts));
  }

  // ---------------------------------------------------------------------------
  // SearchFilter
  // ---------------------------------------------------------------------------

  /** `get_search_terms`: NUL characters removed, commas turned into blanks, then
      split on whitespace. */
  function SearchTerms(param: Option<string>): (terms: seq<string>)
    ensures forall k :: 0 <= k < |terms| ==> |terms[k]| > 0 && ' ' !in terms[k]
    ensures param.None? ==> terms == []
  {
    if param.None? then []
    else
      var s := param.value;
      var noNul := Filter(s, (c: char) => c != 0 as char);
      Words(seq(|noNul|, k requires 0 <= k < |noNul| => if noNul[k] == ',' then ' ' else noNul[k]))
  }

  /** `name__icontains=term` for every term. */
  predicate MatchesSearch(a: Ad, terms: seq<string>) {
    forall k :: 0 <= k < |terms| ==> Contains(Lower(a.name), Lower(terms[k]))
  }

  /** The search narrows the list to the Ads that match every term. */
  function SearchAds(ads: seq<Ad>, terms: seq<string>): (r: seq<Ad>)
    ensures forall a :: a in r <==> a in ads && MatchesSearch(a, terms)
    ensures terms == [] ==> r == ads
  {
    if terms == [] then ads else Filter(ads, (a: Ad) => MatchesSearch(a, terms))
  }

  /** The search ignores case on both sides. */
  lemma SearchIgnoresCase(a: Ad, term: string)
    ensures MatchesSearch(a, [term]) <==> MatchesSearch(a, [Lower(term)])
  {
    assert Lower(Lower(term)) == Lower(term) by {
      forall k | 0 <= k < |term| ensures Lower(Lower(term))[k] == Lower(term)[k] {
      }
    }
    assert MatchesSearch(a, [term]) <==> Contains(Lower(a.name), Lower(term)) by {
      assert [term][0] == term;
    }
    assert MatchesSearch(a, [Lower(term)]) <==> Contains(Lower(a.name), Lower(Lower(term))) by {
      assert [Lower(term)][0] == Lower(term);
    }
  }

  // ---------------------------------------------------------------------------
  // The list
  // ---------------------------------------------------------------------------

  /** The query parameters of the public list. */
  datatype ListQuery = ListQuery(filters: AdQuery, search: Option<string>, ordering: Option<string>)

  /** `AdListView.get_queryset` through its three filter backends. */
  function ListAds(db: Db, q: ListQuery): (r: seq<Ad>)
    ensures forall a :: a in r <==>
      a in db.ads && Satisfies(db, q.filters, a) && MatchesSearch(a, SearchTerms(q.search))
    ensures multiset(r) <= multiset(db.ads)
    ensures forall i, j :: 0 <= i < j < |r| ==>
      LexLe(OrderKey(r[i], ResolveOrdering(q.ordering)), OrderKey(r[j], ResolveOrdering(q.ordering)))
  {
    var filtered := FilterAds(db, q.filters, db.ads);
    FilterAdsMembers(db, q.filters, db.ads);
    var found := SearchAds(filtered, SearchTerms(q.search));
    var r := OrderAds(found, ResolveOrdering(q.ordering));
    assert forall a :: a in r <==> a in multiset(found);
    assert multiset(found) <= multiset(filtered) by {
      if SearchTerms(q.search) != [] {
        assert found == Filter(filtered, (a: Ad) => MatchesSearch(a, SearchTerms(q.search)));
      }
    }
    r
  }

  /** The public list as written: the filter set's region and district filters
      make the query raise (see `AdFilters.FilterAdsAsWritten`), and otherwise the
      list is the one above. */
  function ListAdsAsWritten(db: Db, q: ListQuery): (r: Result<seq<Ad>>)
    ensures r.Err? <==> q.filters.regionId.Some? || q.filters.districtId.Some?
    ensures r.Err? ==> r.error.FieldError?
    ensures r.Ok? ==> r.value == ListAds(db, q)
  {
    match FilterAdsAsWritten(db, q.filters, db.ads)
    case Err(e) => Err(e)
    case Ok(_) => Ok(ListAds(db, q))
  }

  /** The discrepancy on the list itself: asking for a region fails, even when
      the Ads at an address in that region pass every other condition. */
  lemma RegionParameterBreaksList(db: Db, a: Ad, region: Id)
    requires a in db.ads && InRegion(db.addresses, a, region)
    ensures a in ListAds(db, ListQuery(NoFilters.(regionId := Some(region)), None, None))
    ensures ListAdsAsWritten(db, ListQuery(NoFilters.(regionId := Some(region)), None, None)).Err?
  {
    assert SearchTerms(None) == [];
  }

  /** Without an `ordering` parameter the list is newest first. */
  lemma DefaultListIsNewestFirst(db: Db, q: ListQuery, i: int, j: int)
    requires q.ordering.None? && 0 <= i < j < |ListAds(db, q)|
    ensures ListAds(db, q)[i].publishedAt >= ListAds(db, q)[j].publishedAt
  {
    var r := ListAds(db, q);
    assert LexLe(OrderKey(r[i], DefaultOrdering), OrderKey(r[j], DefaultOrdering));
  }

  /** An ordering on a field the view does not allow falls back to the default. */
  lemma UnknownOrderingFallsBack(name: string)
    requires forall f :: FieldName(f) != name && "-" + FieldName(f) != name
    requires ',' !in name && name != "" && Strip(name) == name
    ensures ResolveOrdering(Some(name)) == DefaultOrdering
  {
    SplitWithoutSeparator(name, ',');
    assert Pieces(name) == [name];
    if ParseTerm(name).Some? {
      assert false;
    }
    ValidTermsSingle(name);
  }

  /** No `is_published` condition: with no parameters every Ad is listed, whether
      published or not. */
  lemma UnpublishedAdsAreListed(db: Db, a: Ad)
    requires a in db.ads && !a.isPublished
    ensures a in ListAds(db, ListQuery(NoFilters, None, None))
  {
  }
}

=== FILE: ads.dfy ===
/** Creating, reading, updating and deleting Ads through the API.

    Creation (`AdCreateSerializer.create` followed by `Ad.save`) stores the Ad
    under the requesting seller and the seller's address and then one photo per
    uploaded image; the slug is derived from `name_uz`. The owner's detail view
    (`MyAdDetailUpdateDeleteView`) only sees the requester's own Ads; its update
    (`MyAdsDetailSerializer.update`) re-derives the slug when `name` is sent,
    replaces every photo when `new_photos` is a non-empty list, and leaves the
    read-only fields alone. Deleting goes through the `CASCADE` of the Ad's
    photos and favourite rows.

    `slugify` and the storage URL of a file are parameters. Languages are `uz`
    and `ru`, the two `name_*` columns the create serializer writes. */
module Ads {
  import opened Results
  import opened Ordering
  import opened Text
  import opened StoreModels
  import Mixins

  // ---------------------------------------------------------------------------
  // Single-row lookups
  // ---------------------------------------------------------------------------

  /** `.get(...)` on a query set of Ads: the one row satisfying `p`. */
  function GetAd(ads: seq<Ad>, p: Ad -> bool): (r: Result<Ad>)
    ensures r.Ok? ==> r.value in ads && p(r.value)
    ensures r == Err(NotFound) <==> forall a :: a in ads ==> !p(a)
    ensures r == Err(MultipleObjectsReturned) <==> Count(ads, p) >= 2
    ensures r.Err? ==> r.error == NotFound || r.error == MultipleObjectsReturned
  {
    var m := Filter(ads, p);
    if |m| == 0 then Err(NotFound)
    else if |m| == 1 then
      assert m[0] in m;
      Ok(m[0])
    else Err(MultipleObjectsReturned)
  }

  /** In a table of distinct rows where `p` singles out at most one row, `.get`
      returns the row that satisfies it. */
  lemma GetAdFinds(ads: seq<Ad>, p: Ad -> bool, a: Ad)
    requires Distinct(ads) && a in ads && p(a)
    requires forall b :: b in ads && p(b) ==> b == a
    ensures GetAd(ads, p) == Ok(a)
  {
    if Count(ads, p) >= 2 {
      TwoInFilter(ads, p);
      assert false;
    }
  }

  /** `Ad.objects.filter(seller=user).get(pk=pk)`: the requester's Ad `pk`. */
  function GetOwned(db: Db, seller: Id, pk: Id): Result<Ad> {
    GetAd(db.ads, (a: Ad) => a.sellerId == seller && a.id == pk)
  }

  /** The owner finds each of their Ads, and nobody else finds it. */
  lemma GetOwnedScope(db: Db, a: Ad, seller: Id)
    requires Valid(db) && a in db.ads
    ensures GetOwned(db, seller, a.id) == (if a.sellerId == seller then Ok(a) else Err(NotFound))
  {
    if a.sellerId == seller {
      GetAdFinds(db.ads, (b: Ad) => b.sellerId == seller && b.id == a.id, a);
    }
  }

  /** `AdDetailView`: the Ad with the slug in the URL. */
  function AdBySlug(db: Db, slug: string): Result<Ad> {
    GetAd(db.ads, (a: Ad) => a.slug == slug)
  }

  /** Each stored Ad is found by its own slug. */
  lemma AdBySlugFinds(db: Db, a: Ad)
    requires Valid(db) && a in db.ads
    ensures AdBySlug(db, a.slug) == Ok(a)
  {
    GetAdFinds(db.ads, (b: Ad) => b.slug == a.slug, a);
  }

  // ---------------------------------------------------------------------------
  // Field validation messages
  // ---------------------------------------------------------------------------

  const NameMaxLength := 255
  const FieldRequired := "This field is required."
  const FieldBlank := "This field may not be blank."
  const NameTooLong := "Ensure this field has no more than 255 characters."
  const PriceNegative := "Ensure this value is greater than or equal to 0."

  /** A slug some Ad other than `except` already has. */
  predicate SlugTaken(ads: seq<Ad>, slug: string, except: Option<Id>) {
    exists a :: a in ads && a.slug == slug && Some(a.id) != except
  }

  // ---------------------------------------------------------------------------
  // AdCreateSerializer.create
  // ---------------------------------------------------------------------------

  /** The writable fields of the create serializer: `name_uz`, `name_ru`
      (both nullable and optional: absent or null is `None`), `category`, `price`
      and the uploaded `photos`. */
  datatype AdDraft = AdDraft(
    nameUz: Option<string>,
    nameRu: Option<string>,
    category: Option<Id>,
    price: Option<int>,
    photos: Option<seq<string>>)

  /** A nullable name field passes: when sent, trimmed it fits the column and it
      holds no NUL character. */
  predicate NameValid(name: Option<string>) {
    name.Some? ==> |Strip(name.value)| <= NameMaxLength && !HoldsNul(name.value)
  }

  /** The draft passes field validation. */
  predicate DraftValid(db: Db, d: AdDraft) {
    && NameValid(d.nameUz)
    && NameValid(d.nameRu)
    && d.category.Some? && HasCategory(db.categories, d.category.value)
    && d.price.Some? && d.price.value >= 0
    && d.photos.Some?
  }

  /** The first error of a nullable name field: too long, then a NUL character. */
  function NameError(name: Option<string>): (r: Option<string>)
    ensures r.None? <==> NameValid(name)
    ensures name.Some? && HoldsNul(name.value) ==> r.Some?
  {
    if name.None? then None
    else if |Strip(name.value)| > NameMaxLength then Some(NameTooLong)
    else if HoldsNul(name.value) then Some(NullCharacters)
    else None
  }

  /** The first failing field, in the serializer's field order. */
  function DraftError(db: Db, d: AdDraft): (r: Option<string>)
    ensures r.None? <==> DraftValid(db, d)
    ensures NameValid(d.nameUz) && NameValid(d.nameRu) && d.category.Some?
      && !HasCategory(db.categories, d.category.value)
      ==> r == Some(InvalidPk(d.category.value))
  {
    if NameError(d.nameUz).Some? then NameError(d.nameUz)
    else if NameError(d.nameRu).Some? then NameError(d.nameRu)
    else if d.category.None? then Some(FieldRequired)
    else if !HasCategory(db.categories, d.category.value) then Some(InvalidPk(d.category.value))
    else if d.price.None? then Some(FieldRequired)
    else if d.price.value < 0 then Some(PriceNegative)
    else if d.photos.None? then Some(FieldRequired)
    else None
  }

  /** `AdPhoto(ad=ad, image=img)` for each image in order, numbered from `firstId`
      and stamped `now`. The rows are not main photos. */
  function PhotoRows(ad: Id, images: seq<string>, firstId: Id, now: int): (rows: seq<AdPhoto>)
    ensures |rows| == |images|
    ensures forall k :: 0 <= k < |rows| ==>
      rows[k].id == firstId + k && rows[k].adId == ad && rows[k].image == images[k] && !rows[k].isMain
    ensures forall k :: 0 <= k < |rows| ==> rows[k].createdAt == now
    ensures forall p :: p in rows ==> p.adId == ad && firstId <= p.id < firstId + |images|
  {
    seq(|images|, k requires 0 <= k < |images| => AdPhoto(firstId + k, ad, images[k], false, now))
  }

  /** The Ad `Ad.objects.create` stores: the seller, the seller's address, the
      Uzbek name in `name` and `name_uz`, an empty description, the slug
      `save` derives, not published, no views. `status` keeps the field's
      default, which is given. A null name is stored as "", but `save` slugifies
      it as "None". */
  function NewAd(db: Db, seller: Id, address: Id, d: AdDraft, slugify: string -> string, now: int, status: string): (ad: Ad)
    requires DraftValid(db, d)
    ensures ad.id == db.nextId && ad.sellerId == seller && ad.addressId == address
    ensures d.nameUz.Some? ==> ad.slug == slugify(Strip(d.nameUz.value))
    ensures d.nameUz.None? ==> ad.slug == slugify("None")
    ensures ad.nameTr.uz == (if d.nameUz.Some? then Strip(d.nameUz.value) else "")
    ensures ad.nameTr.other == map["ru" := if d.nameRu.Some? then Strip(d.nameRu.value) else ""]
    ensures ad.price == d.price.value && ad.categoryId == d.category.value
    ensures ad.publishedAt == now && ad.updatedTime == now
    ensures !ad.isPublished && ad.viewCount == 0 && ad.status == status
  {
    var uz := if d.nameUz.Some? then Some(Strip(d.nameUz.value)) else None;
    var ru := if d.nameRu.Some? then Strip(d.nameRu.value) else "";
    Ad(id := db.nextId,
       name := uz.GetOr(""),
       nameTr := Translations(uz.GetOr(""), map["ru" := ru]),
       description := "",
       descriptionTr := Translations("", map["ru" := ""]),
       slug := SlugOnSave("", NullableText(uz), slugify),
       price := d.price.value,
       categoryId := d.category.value,
       sellerId := seller,
       addressId := address,
       publishedAt := now,
       updatedTime := now,
       isPublished := false,
       viewCount := 0,
       status := status)
  }

  /** The slug `save` derives for the draft's Ad: `slugify` of the trimmed
      `name_uz`, or of "None" when the name is null. */
  function DraftSlug(d: AdDraft, slugify: string -> string): string {
    slugify(NullableText(if d.nameUz.Some? then Some(Strip(d.nameUz.value)) else None))
  }

  /** `AdCreateView`: validate, create the Ad (which fails when the seller has no
      address or the derived slug is taken), then create its photos. */
  function CreateAd(db: Db, seller: Id, sellerAddress: Option<Id>, d: AdDraft,
                    slugify: string -> string, now: int, status: string): (r: Result<(Db, Ad)>)
    ensures (r.Err? && r.error.ValidationError?) <==> !DraftValid(db, d)
    ensures (r.Err? && r.error.IntegrityError?) <==>
      (DraftValid(db, d) && (sellerAddress.None? || SlugTaken(db.ads, DraftSlug(d, slugify), None)))
    ensures r.Ok? ==>
      var (db', ad) := r.value;
      && DraftValid(db, d) && sellerAddress.Some?
      && ad == NewAd(db, seller, sellerAddress.value, d, slugify, now, status)
      && db' == db.(ads := db.ads + [ad],
                    photos := db.photos + PhotoRows(ad.id, d.photos.value, db.nextId + 1, now),
                    nextId := db.nextId + 1 + |d.photos.value|)
  {
    match DraftError(db, d)
    case Some(message) => Err(ValidationError(message))
    case None =>
      if sellerAddress.None? then Err(IntegrityError("address_id"))
      else
        var ad := NewAd(db, seller, sellerAddress.value, d, slugify, now, status);
        if SlugTaken(db.ads, ad.slug, None) then Err(IntegrityError("slug"))
        else
          var images := d.photos.value;
          Ok((db.(ads := db.ads + [ad],
                  photos := db.photos + PhotoRows(ad.id, images, db.nextId + 1, now),
                  nextId := db.nextId + 1 + |images|), ad))
  }

  /** A new Ad row under a fresh key and a free slug keeps the Ad table's
      uniqueness constraints. */
  lemma AppendAdUnique(ads: seq<Ad>, ad: Ad, next: Id)
    requires Distinct(ads) && UniqueAdIds(ads) && UniqueSlugs(ads)
    requires forall a :: a in ads ==> a.id < next
    requires ad.id >= next && !SlugTaken(ads, ad.slug, None)
    ensures Distinct(ads + [ad]) && UniqueAdIds(ads + [ad]) && UniqueSlugs(ads + [ad])
  {
    var ads' := ads + [ad];
    assert forall a :: a in ads' <==> a in ads || a == ad;
    assert ad !in ads;
    forall i, j | 0 <= i < j < |ads'| ensures ads'[i] != ads'[j] {
      if j == |ads| { assert ads'[i] in ads; }
      else { assert ads'[i] == ads[i] && ads'[j] == ads[j]; }
    }
  }

  /** The new Ad and its photo rows point at stored rows and stay below the
      counter. */
  lemma AppendAdReferences(db: Db, ad: Ad, rows: seq<AdPhoto>, next: Id)
    requires References(db) && Fresh(db)
    requires HasCategory(db.categories, ad.categoryId) && HasAddress(db.addresses, ad.addressId)
    requires forall p :: p in rows ==> p.adId == ad.id && p.id < next
    requires db.nextId <= ad.id < next
    ensures var db' := db.(ads := db.ads + [ad], photos := db.photos + rows, nextId := next);
      References(db') && Fresh(db')
  {
    var db' := db.(ads := db.ads + [ad], photos := db.photos + rows, nextId := next);
    assert forall a :: a in db'.ads <==> a in db.ads || a == ad;
    assert forall p :: p in db'.photos <==> p in db.photos || p in rows;
    assert HasAd(db'.ads, ad.id) by { assert ad in db'.ads; }
    forall p | p in db'.photos ensures HasAd(db'.ads, p.adId) {
      if p in db.photos {
        var a :| a in db.ads && a.id == p.adId;
        assert a in db'.ads;
      }
    }
    forall f | f in db'.favourites ensures HasAd(db'.ads, f.product) {
      var a :| a in db.ads && a.id == f.product;
      assert a in db'.ads;
    }
  }

  /** A new Ad with its photo rows, under fresh keys and a free slug, keeps
      every schema constraint. */
  lemma AppendAdValid(db: Db, ad: Ad, rows: seq<AdPhoto>, next: Id)
    requires Valid(db)
    requires !SlugTaken(db.ads, ad.slug, None)
    requires HasCategory(db.categories, ad.categoryId) && HasAddress(db.addresses, ad.addressId)
    requires forall p :: p in rows ==> p.adId == ad.id && p.id < next
    requires db.nextId <= ad.id < next
    ensures Valid(db.(ads := db.ads + [ad], photos := db.photos + rows, nextId := next))
  {
    AppendAdUnique(db.ads, ad, db.nextId);
    AppendAdReferences(db, ad, rows, next);
  }

  /** Creating an Ad keeps every schema constraint, given that the seller's
      address is a stored address. */
  lemma CreateAdValid(db: Db, seller: Id, sellerAddress: Option<Id>, d: AdDraft,
                      slugify: string -> string, now: int, status: string)
    requires Valid(db)
    requires sellerAddress.Some? ==> HasAddress(db.addresses, sellerAddress.value)
    ensures var r := CreateAd(db, seller, sellerAddress, d, slugify, now, status);
      r.Ok? ==> Valid(r.value.0)
  {
    var r := CreateAd(db, seller, sellerAddress, d, slugify, now, status);
    if r.Ok? {
      var ad := r.value.1;
      var rows := PhotoRows(ad.id, d.photos.value, db.nextId + 1, now);
      AppendAdValid(db, ad, rows, db.nextId + 1 + |d.photos.value|);
    }
  }

  /** The new Ad is reachable at its slug. */
  lemma CreatedAdFoundBySlug(db: Db, seller: Id, sellerAddress: Option<Id>, d: AdDraft,
                             slugify: string -> string, now: int, status: string)
    requires Valid(db)
    requires sellerAddress.Some? ==> HasAddress(db.addresses, sellerAddress.value)
    ensures var r := CreateAd(db, seller, sellerAddress, d, slugify, now, status);
      r.Ok? ==> AdBySlug(r.value.0, r.value.1.slug) == Ok(r.value.1)
  {
    var r := CreateAd(db, seller, sellerAddress, d, slugify, now, status);
    if r.Ok? {
      CreateAdValid(db, seller, sellerAddress, d, slugify, now, status);
      assert r.value.1 in r.value.0.ads;
      AdBySlugFinds(r.value.0, r.value.1);
    }
  }

  /** Slugs are unique, so a second Ad with the same Uzbek name is refused. */
  lemma SameNameTwiceConflicts(db: Db, seller: Id, address: Id, d: AdDraft, d2: AdDraft,
                               slugify: string -> string, now: int, later: int, status: string)
    requires DraftSlug(d2, slugify) == DraftSlug(d, slugify)
    requires CreateAd(db, seller, Some(address), d, slugify, now, status).Ok?
    requires DraftValid(CreateAd(db, seller, Some(address), d, slugify, now, status).value.0, d2)
    ensures CreateAd(CreateAd(db, seller, Some(address), d, slugify, now, status).value.0,
                     seller, Some(address), d2, slugify, later, status)
      == Err(IntegrityError("slug"))
  {
    var (db', ad) := CreateAd(db, seller, Some(address), d, slugify, now, status).value;
    assert ad in db'.ads;
    assert SlugTaken(db'.ads, DraftSlug(d2, slugify), None);
  }

  // ---------------------------------------------------------------------------
  // MyAdsDetailSerializer.update
  // ---------------------------------------------------------------------------

  /** The writable fields of the owner's detail serializer: `name`,
      `description`, `category`, `price` and `new_photos`. */
  datatype AdPatch = AdPatch(
    name: Option<string>,
    description: Option<string>,
    category: Option<Id>,
    price: Option<int>,
    newPhotos: Option<seq<string>>)

  /** The patch passes field validation; a full update (PUT) must send every
      required field, a partial one (PATCH) only validates what it sends. */
  predicate PatchValid(db: Db, p: AdPatch, partial: bool) {
    && (!partial ==> p.name.Some? && p.description.Some? && p.category.Some? && p.price.Some?)
    && (p.name.Some? ==> Strip(p.name.value) != "" && |Strip(p.name.value)| <= NameMaxLength)
    && (p.name.Some? ==> !HoldsNul(p.name.value))
    && (p.description.Some? ==> Strip(p.description.value) != "" && !HoldsNul(p.description.value))
    && (p.category.Some? ==> HasCategory(db.categories, p.category.value))
    && (p.price.Some? ==> p.price.value >= 0)
  }

  /** The first failing field, in the serializer's field order. */
  function PatchError(db: Db, p: AdPatch, partial: bool): (r: Option<string>)
    ensures r.None? <==> PatchValid(db, p, partial)
  {
    if p.name.None? && !partial then Some(FieldRequired)
    else if p.name.Some? && Strip(p.name.value) == "" then Some(FieldBlank)
    else if p.name.Some? && |Strip(p.name.value)| > NameMaxLength then Some(NameTooLong)
    else if p.name.Some? && HoldsNul(p.name.value) then Some(NullCharacters)
    else if p.description.None? && !partial then Some(FieldRequired)
    else if p.description.Some? && Strip(p.description.value) == "" then Some(FieldBlank)
    else if p.description.Some? && HoldsNul(p.description.value) then Some(NullCharacters)
    else if p.category.None? && !partial then Some(FieldRequired)
    else if p.category.Some? && !HasCategory(db.categories, p.category.value) then Some(InvalidPk(p.category.value))
    else if p.price.None? && !partial then Some(FieldRequired)
    else if p.price.Some? && p.price.value < 0 then Some(PriceNegative)
    else None
  }

  /** `new_photos` is present and not empty, so the photos are replaced. */
  predicate ReplacesPhotos(p: AdPatch) {
    p.newPhotos.Some? && |p.newPhotos.value| > 0
  }

  /** The fields the serializer declares read-only, together with the ones it
      does not expose, are those of `prior`. */
  predicate ReadOnlyKept(prior: Ad, ad: Ad) {
    && ad.id == prior.id && ad.sellerId == prior.sellerId && ad.addressId == prior.addressId
    && ad.publishedAt == prior.publishedAt && ad.status == prior.status
    && ad.viewCount == prior.viewCount && ad.isPublished == prior.isPublished
    && ad.nameTr == prior.nameTr && ad.descriptionTr == prior.descriptionTr
  }

  /** The updated Ad: the sent fields, the slug of the sent name run through
      `save`, and the new modification time. */
  function Patched(prior: Ad, p: AdPatch, slugify: string -> string, now: int): (ad: Ad)
    requires p.price.Some? ==> p.price.value >= 0
    ensures ReadOnlyKept(prior, ad) && ad.updatedTime == now
    ensures ad.name == (if p.name.Some? then Strip(p.name.value) else prior.name)
    ensures ad.description == (if p.description.Some? then Strip(p.description.value) else prior.description)
    ensures ad.categoryId == p.category.GetOr(prior.categoryId)
    ensures ad.price == (if p.price.Some? then p.price.value else prior.price)
    ensures p.name.Some? && slugify(Strip(p.name.value)) != "" ==> ad.slug == slugify(Strip(p.name.value))
    ensures p.name.Some? && slugify(Strip(p.name.value)) == "" ==> ad.slug == slugify(prior.nameTr.uz)
    ensures p.name.None? && prior.slug != "" ==> ad.slug == prior.slug
  {
    var name := if p.name.Some? then Strip(p.name.value) else prior.name;
    var slug := if p.name.Some? then slugify(name) else prior.slug;
    prior.(name := name,
         description := if p.description.Some? then Strip(p.description.value) else prior.description,
         categoryId := p.category.GetOr(prior.categoryId),
         price := if p.price.Some? then p.price.value else prior.price,
         slug := SlugOnSave(slug, prior.nameTr.uz, slugify),
         updatedTime := now)
  }

  /** The table with `prior` replaced by `ad`. */
  function ReplaceAd(ads: seq<Ad>, prior: Ad, ad: Ad): (r: seq<Ad>)
    ensures |r| == |ads|
    ensures forall k :: 0 <= k < |ads| ==> r[k] == (if ads[k] == prior then ad else ads[k])
  {
    seq(|ads|, k requires 0 <= k < |ads| => if ads[k] == prior then ad else ads[k])
  }

  lemma ReplaceAdMembers(ads: seq<Ad>, prior: Ad, ad: Ad)
    requires prior in ads
    ensures forall a :: a in ReplaceAd(ads, prior, ad) <==> (a in ads && a != prior) || a == ad
  {
    var r := ReplaceAd(ads, prior, ad);
    forall a ensures a in r <==> (a in ads && a != prior) || a == ad {
      if a in r {
        var k :| 0 <= k < |r| && r[k] == a;
      }
      if a in ads && a != prior {
        var k :| 0 <= k < |ads| && ads[k] == a;
        assert r[k] == a;
      }
      if a == ad {
        var k :| 0 <= k < |ads| && ads[k] == prior;
        assert r[k] == a;
      }
    }
  }

  /** `instance.photos.all().delete()` followed by one `AdPhoto.objects.create`
      per URL, when the patch replaces the photos. */
  function PhotosAfter(db: Db, ad: Id, p: AdPatch, now: int): (r: (seq<AdPhoto>, Id))
    ensures !ReplacesPhotos(p) ==> r == (db.photos, db.nextId)
    ensures ReplacesPhotos(p) ==>
      && r.0 == Filter(db.photos, (q: AdPhoto) => q.adId != ad) + PhotoRows(ad, p.newPhotos.value, db.nextId, now)
      && r.1 == db.nextId + |p.newPhotos.value|
  {
    if ReplacesPhotos(p) then
      var urls := p.newPhotos.value;
      (Filter(db.photos, (q: AdPhoto) => q.adId != ad) + PhotoRows(ad, urls, db.nextId, now), db.nextId + |urls|)
    else (db.photos, db.nextId)
  }

  /** `PUT`/`PATCH /my-ads/<pk>/`: find the requester's Ad, validate, derive the
      slug, replace the photos, save. A slug another Ad holds makes the save fail;
      the failed request leaves the database as it was. */
  function UpdateAd(db: Db, seller: Id, pk: Id, p: AdPatch, partial: bool,
                    slugify: string -> string, now: int): (r: Result<(Db, Ad)>)
    ensures GetOwned(db, seller, pk).Err? ==> r == Err(GetOwned(db, seller, pk).error)
    ensures GetOwned(db, seller, pk).Ok? ==>
      ((r.Err? && r.error.ValidationError?) <==> !PatchValid(db, p, partial))
    ensures r.Ok? ==> GetOwned(db, seller, pk).Ok? && PatchValid(db, p, partial)
    ensures r.Ok? ==>
      var prior := GetOwned(db, seller, pk).value;
      var (db', ad) := r.value;
      && ad == Patched(prior, p, slugify, now)
      && !SlugTaken(db.ads, ad.slug, Some(pk))
      && db'.ads == ReplaceAd(db.ads, prior, ad)
      && (db'.photos, db'.nextId) == PhotosAfter(db, pk, p, now)
      && db'.categories == db.categories && db'.addresses == db.addresses
      && db'.favourites == db.favourites
    ensures (r.Err? && r.error.IntegrityError?) ==>
      && GetOwned(db, seller, pk).Ok? && PatchValid(db, p, partial)
      && SlugTaken(db.ads, Patched(GetOwned(db, seller, pk).value, p, slugify, now).slug, Some(pk))
  {
    match GetOwned(db, seller, pk)
    case Err(e) => Err(e)
    case Ok(prior) =>
      match PatchError(db, p, partial)
      case Some(message) => Err(ValidationError(message))
      case None =>
        var ad := Patched(prior, p, slugify, now);
        if SlugTaken(db.ads, ad.slug, Some(pk)) then Err(IntegrityError("slug"))
        else
          var (photos, nextId) := PhotosAfter(db, pk, p, now);
          Ok((db.(ads := ReplaceAd(db.ads, prior, ad), photos := photos, nextId := nextId), ad))
  }

  /** Nobody but the seller can change an Ad: for anybody else the update is
      `NotFound` and the database is untouched. */
  lemma UpdateByOtherIsNotFound(db: Db, a: Ad, other: Id, p: AdPatch, partial: bool,
                                slugify: string -> string, now: int)
    requires Valid(db) && a in db.ads && a.sellerId != other
    ensures UpdateAd(db, other, a.id, p, partial, slugify, now) == Err(NotFound)
  {
    GetOwnedScope(db, a, other);
  }

  /** An update keeps every schema constraint. */
  lemma UpdateAdValid(db: Db, seller: Id, pk: Id, p: AdPatch, partial: bool,
                      slugify: string -> string, now: int)
    requires Valid(db)
    ensures var r := UpdateAd(db, seller, pk, p, partial, slugify, now);
      r.Ok? ==> Valid(r.value.0)
  {
    var r := UpdateAd(db, seller, pk, p, partial, slugify, now);
    if r.Ok? {
      var prior := GetOwned(db, seller, pk).value;
      var (db', ad) := r.value;
      ReplaceAdMembers(db.ads, prior, ad);
      UpdateKeepsAds(db, prior, ad, db');
      UpdateKeepsPhotos(db, prior, ad, p, now, db');
    }
  }

  /** The Ad table after an update keeps ids and slugs unique. */
  lemma UpdateKeepsAds(db: Db, prior: Ad, ad: Ad, db': Db)
    requires Valid(db) && prior in db.ads && ad.id == prior.id
    requires !SlugTaken(db.ads, ad.slug, Some(prior.id))
    requires HasCategory(db.categories, ad.categoryId) && ad.addressId == prior.addressId
    requires db'.ads == ReplaceAd(db.ads, prior, ad) && db'.categories == db.categories
    requires db'.addresses == db.addresses
    ensures Distinct(db'.ads) && UniqueAdIds(db'.ads) && UniqueSlugs(db'.ads)
    ensures forall a :: a in db'.ads ==> HasCategory(db'.categories, a.categoryId)
    ensures forall a :: a in db'.ads ==> HasAddress(db'.addresses, a.addressId)
    ensures forall a :: a in db'.ads ==> a.id < db.nextId
    ensures forall i :: HasAd(db.ads, i) ==> HasAd(db'.ads, i)
  {
    ReplaceAdMembers(db.ads, prior, ad);
    forall i, j | 0 <= i < j < |db'.ads| ensures db'.ads[i] != db'.ads[j] {
      if db.ads[i] == prior || db.ads[j] == prior {
        assert db.ads[i] != db.ads[j];
      }
    }
    forall i | HasAd(db.ads, i) ensures HasAd(db'.ads, i) {
      var a :| a in db.ads && a.id == i;
      if a == prior { assert ad in db'.ads; } else { assert a in db'.ads; }
    }
  }

  /** The photo table after an update refers to stored Ads only, with fresh ids
      below the new counter, and the favourites still refer to stored Ads. */
  lemma UpdateKeepsPhotos(db: Db, prior: Ad, ad: Ad, p: AdPatch, now: int, db': Db)
    requires Valid(db) && prior in db.ads && ad.id == prior.id
    requires forall i :: HasAd(db.ads, i) ==> HasAd(db'.ads, i)
    requires HasAd(db'.ads, prior.id)
    requires (db'.photos, db'.nextId) == PhotosAfter(db, prior.id, p, now)
    requires db'.favourites == db.favourites && db'.categories == db.categories
    requires forall a :: a in db'.ads ==> a.id < db.nextId
    requires Distinct(db'.ads) && UniqueAdIds(db'.ads) && UniqueSlugs(db'.ads)
    requires forall a :: a in db'.ads ==> HasCategory(db'.categories, a.categoryId)
    requires forall a :: a in db'.ads ==> HasAddress(db'.addresses, a.addressId)
    ensures Valid(db')
  {
    if ReplacesPhotos(p) {
      var rows := PhotoRows(prior.id, p.newPhotos.value, db.nextId, now);
      forall q | q in db'.photos ensures HasAd(db'.ads, q.adId) && q.id < db'.nextId {
        if q !in rows {
          assert q in db.photos;
        }
      }
    }
  }

  /** Applying a patch to its own result changes only the modification time. */
  lemma PatchedAgain(prior: Ad, p: AdPatch, slugify: string -> string, now: int, later: int)
    requires p.price.Some? ==> p.price.value >= 0
    ensures Patched(Patched(prior, p, slugify, now), p, slugify, later)
      == Patched(prior, p, slugify, now).(updatedTime := later)
  {
  }

  /** Sending the same patch again only moves the modification time: the slug,
      the fields and the photos stay as the first update left them. */
  lemma UpdateAdAgain(db: Db, seller: Id, pk: Id, p: AdPatch, partial: bool,
                      slugify: string -> string, now: int, later: int)
    requires Valid(db) && !ReplacesPhotos(p)
    requires UpdateAd(db, seller, pk, p, partial, slugify, now).Ok?
    ensures var (db', ad) := UpdateAd(db, seller, pk, p, partial, slugify, now).value;
      && UpdateAd(db', seller, pk, p, partial, slugify, later).Ok?
      && UpdateAd(db', seller, pk, p, partial, slugify, later).value.1 == ad.(updatedTime := later)
      && UpdateAd(db', seller, pk, p, partial, slugify, later).value.0.photos == db.photos
  {
    var prior := GetOwned(db, seller, pk).value;
    var (db', ad) := UpdateAd(db, seller, pk, p, partial, slugify, now).value;
    UpdateAdValid(db, seller, pk, p, partial, slugify, now);
    ReplaceAdMembers(db.ads, prior, ad);
    assert ad in db'.ads;
    GetOwnedScope(db', ad, seller);
    assert GetOwned(db', seller, pk) == Ok(ad);
    assert PatchValid(db', p, partial);
    PatchedAgain(prior, p, slugify, now, later);
    var again := Patched(ad, p, slugify, later);
    assert !SlugTaken(db'.ads, again.slug, Some(pk));
  }

  // ---------------------------------------------------------------------------
  // The owner's list and delete
  // ---------------------------------------------------------------------------

  /** `Ad.objects.filter(seller=user).order_by("-published_at")`. */
  function MyAds(db: Db, seller: Id): (r: seq<Ad>)
    ensures forall a :: a in r <==> a in db.ads && a.sellerId == seller
    ensures forall i, j :: 0 <= i < j < |r| ==> r[i].publishedAt >= r[j].publishedAt
  {
    var own := Filter(db.ads, (a: Ad) => a.sellerId == seller);
    var r := SortBy(own, (a: Ad) => [-a.publishedAt]);
    SortByMembers(own, (a: Ad) => [-a.publishedAt]);
    assert forall i, j :: 0 <= i < j < |r| ==> LexLe([-r[i].publishedAt], [-r[j].publishedAt]);
    r
  }

  /** Two sellers never see each other's Ads. */
  lemma MyAdsAreIsolated(db: Db, s1: Id, s2: Id)
    requires s1 != s2
    ensures forall a :: a in MyAds(db, s1) ==> a !in MyAds(db, s2)
  {
  }

  /** `DELETE /my-ads/<pk>/`: the requester's Ad and, by cascade, its photos and
      favourite rows. */
  function DeleteMyAd(db: Db, seller: Id, pk: Id): (r: Result<Db>)
    ensures GetOwned(db, seller, pk).Err? ==> r == Err(GetOwned(db, seller, pk).error)
    ensures GetOwned(db, seller, pk).Ok? ==> r == Ok(DeleteAdCascade(db, pk))
  {
    match GetOwned(db, seller, pk)
    case Err(e) => Err(e)
    case Ok(_) => Ok(DeleteAdCascade(db, pk))
  }

  /** A seller's delete removes exactly their Ad with that id: every other Ad,
      and in particular every other seller's, is still there, and the deleted
      one is no longer found. */
  lemma DeleteMyAdOnlyOwn(db: Db, seller: Id, pk: Id)
    requires Valid(db)
    ensures var r := DeleteMyAd(db, seller, pk);
      r.Ok? ==>
        && Valid(r.value)
        && (forall a :: a in db.ads && a.id != pk ==> a in r.value.ads)
        && (forall a :: a in db.ads && a.sellerId != seller ==> a in r.value.ads)
        && GetOwned(r.value, seller, pk) == Err(NotFound)
  {
    var r := DeleteMyAd(db, seller, pk);
    if r.Ok? {
      DeleteAdCascadeValid(db, pk);
      var prior := GetOwned(db, seller, pk).value;
      forall a | a in db.ads && a.sellerId != seller ensures a in r.value.ads {
        assert a != prior;
      }
    }
  }

  // ---------------------------------------------------------------------------
  // Representations
  // ---------------------------------------------------------------------------

  /** What `AdCreateSerializer` renders for a created Ad (the seller and the
      user-likes flag apart). `description` is `None` when the key is dropped. */
  datatype AdCreateData = AdCreateData(
    id: Id,
    name: string,
    description: Option<string>,
    slug: string,
    price: nat,
    photo: Option<string>,
    publishedAt: int,
    address: Option<string>,
    updatedTime: int)

  /** `AdCreateSerializer.to_representation`: the name and description in the
      request language, the first photo's URL, the seller's address name, and
      the `description` key dropped when its value is empty. */
  function RepresentCreated(db: Db, ad: Ad, lang: string, sellerAddress: Option<Address>,
                            url: string -> string): (r: Result<AdCreateData>)
    ensures r.Ok? <==> Mixins.GetPhoto(db.photos, ad.id, false, url).Ok?
    ensures r.Ok? ==> r.value.name == Mixins.Localized(ad.nameTr, lang)
    ensures r.Ok? ==> (r.value.description.None? <==> Mixins.Localized(ad.descriptionTr, lang) == "")
    ensures r.Ok? && r.value.description.Some? ==> r.value.description.value == Mixins.Localized(ad.descriptionTr, lang)
    ensures r.Ok? ==> r.value.address == (if sellerAddress.Some? then Some(sellerAddress.value.name) else None)
    ensures r.Ok? ==> r.value.photo == Mixins.GetPhoto(db.photos, ad.id, false, url).value
    ensures r.Ok? ==> r.value.id == ad.id && r.value.slug == ad.slug && r.value.price == ad.price
    ensures r.Ok? ==> r.value.publishedAt == ad.publishedAt && r.value.updatedTime == ad.updatedTime
  {
    match Mixins.GetPhoto(db.photos, ad.id, false, url)
    case Err(e) => Err(e)
    case Ok(photo) =>
      var description := Mixins.Localized(ad.descriptionTr, lang);
      Ok(AdCreateData(
        ad.id, Mixins.Localized(ad.nameTr, lang),
        if description == "" then None else Some(description),
        ad.slug, ad.price, photo, ad.publishedAt,
        if sellerAddress.Some? then Some(sellerAddress.value.name) else None,
        ad.updatedTime))
  }

  /** A photo as `AdPhotoSerializer` renders it; an image without a file is
      rendered as `None`. */
  datatype PhotoData = PhotoData(id: Id, ad: Id, image: Option<string>, isMain: bool, createdAt: int)

  /** What `AdDetailSerializer` renders (the seller, the category's name and the
      user-likes flag apart). */
  datatype AdDetailData = AdDetailData(
    id: Id,
    name: string,
    slug: string,
    description: string,
    price: nat,
    photos: seq<PhotoData>,
    publishedAt: int,
    address: Option<string>,
    category: Id,
    viewCount: nat,
    updatedTime: int)

  function RenderPhoto(p: AdPhoto, url: string -> string): (d: PhotoData)
    ensures d.id == p.id && d.ad == p.adId && d.isMain == p.isMain && d.createdAt == p.createdAt
    ensures d.image.None? <==> p.image == ""
    ensures d.image.Some? ==> d.image.value == url(p.image)
  {
    PhotoData(p.id, p.adId, if p.image == "" then None else Some(url(p.image)), p.isMain, p.createdAt)
  }

  /** `AdDetailSerializer.to_representation`: every photo of the Ad in table
      order, and `name` and `description` replaced by their columns in the
      request language; unlike the create serializer, an empty description is
      kept. */
  function RepresentDetail(db: Db, ad: Ad, lang: string, sellerAddress: Option<Address>,
                           url: string -> string): (d: AdDetailData)
    ensures d.name == Mixins.Localized(ad.nameTr, lang)
    ensures d.description == Mixins.Localized(ad.descriptionTr, lang)
    ensures |d.photos| == |Mixins.PhotosOf(db.photos, ad.id)|
    ensures forall k :: 0 <= k < |d.photos| ==>
      d.photos[k] == RenderPhoto(Mixins.PhotosOf(db.photos, ad.id)[k], url)
    ensures forall k :: 0 <= k < |d.photos| ==> d.photos[k].ad == ad.id
    ensures d.id == ad.id && d.slug == ad.slug && d.price == ad.price && d.viewCount == ad.viewCount
  {
    var own := Mixins.PhotosOf(db.photos, ad.id);
    assert forall k :: 0 <= k < |own| ==> own[k] in own;
    AdDetailData(
      ad.id, Mixins.Localized(ad.nameTr, lang), ad.slug, Mixins.Localized(ad.descriptionTr, lang),
      ad.price, seq(|own|, k requires 0 <= k < |own| => RenderPhoto(own[k], url)),
      ad.publishedAt,
      if sellerAddress.Some? then Some(sellerAddress.value.name) else None,
      ad.categoryId, ad.viewCount, ad.updatedTime)
  }

  /** The two serializers agree on the name; on an empty description the create
      serializer drops the key while the detail serializer sends the empty text. */
  lemma RepresentationsOnEmptyDescription(db: Db, ad: Ad, lang: string, sellerAddress: Option<Address>,
                                          url: string -> string)
    requires Mixins.Localized(ad.descriptionTr, lang) == ""
    requires RepresentCreated(db, ad, lang, sellerAddress, url).Ok?
    ensures RepresentCreated(db, ad, lang, sellerAddress, url).value.description.None?
    ensures RepresentDetail(db, ad, lang, sellerAddress, url).description == ""
    ensures RepresentCreated(db, ad, lang, sellerAddress, url).value.name
      == RepresentDetail(db, ad, lang, sellerAddress, url).name
  {
  }

  /** The photo the create serializer renders is one of the photos the detail
      serializer renders for the same Ad: the one of least key. */
  lemma CreatedPhotoAmongDetailPhotos(db: Db, ad: Ad, lang: string, sellerAddress: Option<Address>,
                                      url: string -> string)
    requires RepresentCreated(db, ad, lang, sellerAddress, url).Ok?
    requires RepresentCreated(db, ad, lang, sellerAddress, url).value.photo.Some?
    ensures var d := RepresentDetail(db, ad, lang, sellerAddress, url);
      exists k :: 0 <= k < |d.photos| && d.photos[k].image == RepresentCreated(db, ad, lang, sellerAddress, url).value.photo
  {
    var own := Mixins.PhotosOf(db.photos, ad.id);
    var first := Mixins.First(Mixins.Candidates(db.photos, ad.id, false)).value;
    assert first in own;
    var k :| 0 <= k < |own| && own[k] == first;
    var d := RepresentDetail(db, ad, lang, sellerAddress, url);
    assert d.photos[k] == RenderPhoto(first, url);
  }
}

=== FILE: categories.dfy ===
/** `CategoryListView`: every category with the number of Ads filed directly
    under it (`annotate(product_count=Count("ad"))`), rendered by
    `CategorySerializer` as the count in decimal with a comma between groups of
    three digits (`"{:,}".format(n)`), or "0" when the object carries no count. */
module Categories {
  import opened Results
  import opened Ordering
  import opened Text
  import opened StoreModels

  // ---------------------------------------------------------------------------
  // "{:,}".format(n)
  // ---------------------------------------------------------------------------

  /** The three digits of `m`, with leading zeros. */
  function Pad3(m: nat): (s: string)
    requires m < 1000
    ensures |s| == 3 && IsDigits(s) && ',' !in s
  {
    [DigitChar(m / 100), DigitChar((m / 10) % 10), DigitChar(m % 10)]
  }

  /** `n` in decimal, a comma before each group of three digits counted from the
      right. */
  function Grouped(n: nat): (s: string)
    decreases n
  {
    if n < 1000 then NatToString(n) else Grouped(n / 1000) + [','] + Pad3(n % 1000)
  }

  predicate NotComma(c: char) {
    c != ','
  }

  /** The text with its commas removed. */
  function Ungroup(s: string): string {
    Filter(s, NotComma)
  }

  lemma {:induction false} GroupedChars(n: nat)
    ensures forall k :: 0 <= k < |Grouped(n)| ==> IsDigit(Grouped(n)[k]) || Grouped(n)[k] == ','
    decreases n
  {
    if n >= 1000 {
      GroupedChars(n / 1000);
      var a := Grouped(n / 1000);
      var b := Pad3(n % 1000);
      assert Grouped(n) == a + [','] + b;
      forall k | 0 <= k < |Grouped(n)| ensures IsDigit(Grouped(n)[k]) || Grouped(n)[k] == ',' {
        if k < |a| { assert Grouped(n)[k] == a[k]; }
        else if k > |a| { assert Grouped(n)[k] == b[k - |a| - 1]; }
      }
    }
  }

  lemma {:induction false} UngroupDigits(n: nat)
    ensures forall k :: 0 <= k < |Ungroup(Grouped(n))| ==> IsDigit(Ungroup(Grouped(n))[k])
  {
    GroupedChars(n);
    var u := Ungroup(Grouped(n));
    forall k | 0 <= k < |u| ensures IsDigit(u[k]) {
      assert u[k] in u;
      var j :| 0 <= j < |Grouped(n)| && Grouped(n)[j] == u[k];
    }
  }

  /** Three more digits multiply by a thousand. */
  lemma ParseNatPad3(s: string, m: nat)
    requires m < 1000 && forall k :: 0 <= k < |s| ==> IsDigit(s[k])
    ensures forall k :: 0 <= k < |s + Pad3(m)| ==> IsDigit((s + Pad3(m))[k])
    ensures ParseNat(s + Pad3(m)) == ParseNat(s) * 1000 + m
  {
    var p := Pad3(m);
    ParseNatSnoc(s, p[0]);
    ParseNatSnoc(s + [p[0]], p[1]);
    ParseNatSnoc(s + [p[0]] + [p[1]], p[2]);
    assert s + p == s + [p[0]] + [p[1]] + [p[2]];
    assert m == (m / 100) * 100 + ((m / 10) % 10) * 10 + m % 10;
  }

  /** Dropping the comma before a trailing group. */
  lemma UngroupStep(a: string, b: string)
    requires ',' !in b
    ensures Ungroup(a + [','] + b) == Ungroup(a) + b
  {
    var x := a + [','];
    FilterConcat(a, [','], NotComma);
    assert [','][1..] == [];
    assert Filter([','], NotComma) == [];
    assert Filter(x, NotComma) == Filter(a, NotComma);
    FilterConcat(x, b, NotComma);
    assert forall k :: 0 <= k < |b| ==> NotComma(b[k]);
    FilterAll(b, NotComma);
  }

  /** A label read back: the commas dropped, the digits parsed; `None` when
      something other than digits is left. */
  function ReadGrouped(s: string): Option<nat> {
    var u := Ungroup(s);
    if forall k :: 0 <= k < |u| ==> IsDigit(u[k]) then Some(ParseNat(u)) else None
  }

  /** Dropping the commas and reading the digits gives the number back. */
  lemma {:induction false} GroupedRoundTrip(n: nat)
    ensures ReadGrouped(Grouped(n)) == Some(n)
    decreases n
  {
    UngroupDigits(n);
    if n < 1000 {
      var s := NatToString(n);
      assert forall k :: 0 <= k < |s| ==> s[k] != ',';
      FilterAll(s, NotComma);
      ParseNatToString(n);
    } else {
      GroupedRoundTrip(n / 1000);
      var a := Grouped(n / 1000);
      UngroupStep(a, Pad3(n % 1000));
      ParseNatPad3(Ungroup(a), n % 1000);
    }
  }

  /** The digits below one thousand: one to three, no leading zero. */
  lemma SmallNatToString(n: nat)
    requires n < 1000
    ensures 1 <= |NatToString(n)| <= 3
  {
    if n >= 10 {
      assert NatToString(n) == NatToString(n / 10) + [DigitChar(n % 10)];
      if n / 10 >= 10 {
        assert NatToString(n / 10) == NatToString(n / 100) + [DigitChar((n / 10) % 10)];
      }
    }
  }

  /** The comma-separated groups: the leading one has one to three digits and no
      leading zero, each later one exactly three digits. */
  lemma {:induction false} GroupedShape(n: nat)
    ensures var g := Split(Grouped(n), ',');
      && IsDigits(g[0]) && |g[0]| <= 3 && (|g[0]| > 1 ==> g[0][0] != '0')
      && forall k :: 1 <= k < |g| ==> |g[k]| == 3 && IsDigits(g[k])
    decreases n
  {
    if n < 1000 {
      SmallNatToString(n);
      SplitWithoutSeparator(NatToString(n), ',');
    } else {
      GroupedShape(n / 1000);
      SplitBeforePiece(Grouped(n / 1000), Pad3(n % 1000), ',');
    }
  }

  /** `"{:,}".format(obj.product_count) if hasattr(obj, "product_count") else "0"`. */
  function ProductCountLabel(count: Option<nat>): (s: string)
    ensures count.None? ==> s == "0"
    ensures count.Some? ==> ReadGrouped(s) == count
  {
    GroupedRoundTrip(count.GetOr(0));
    if count.Some? then Grouped(count.value) else "0"
  }

  /** Below one thousand there is no comma. */
  lemma SmallCountsHaveNoComma(n: nat)
    requires n < 1000
    ensures ProductCountLabel(Some(n)) == NatToString(n)
    ensures ',' !in ProductCountLabel(Some(n))
  {
  }

  // ---------------------------------------------------------------------------
  // The list
  // ---------------------------------------------------------------------------

  /** A category as `CategorySerializer` renders it; a missing icon file is
      `None`. */
  datatype CategoryData = CategoryData(id: Id, name: string, icon: Option<string>, productCount: string)

  /** `Count("ad")`: the Ads whose category is `c` itself. */
  function AdCount(ads: seq<Ad>, c: Id): (n: nat)
    ensures n == 0 <==> forall a :: a in ads ==> a.categoryId != c
  {
    Count(ads, (a: Ad) => a.categoryId == c)
  }

  /** One annotated category. */
  function RenderCategory(c: Category, ads: seq<Ad>, url: string -> string): (d: CategoryData)
    ensures d.id == c.id && d.name == c.name
    ensures d.icon.None? <==> c.icon == ""
    ensures ReadGrouped(d.productCount) == Some(AdCount(ads, c.id))
  {
    CategoryData(c.id, c.name, if c.icon == "" then None else Some(url(c.icon)),
                 ProductCountLabel(Some(AdCount(ads, c.id))))
  }

  /** Every category, in table order, with its count of Ads. */
  function ListCategories(db: Db, url: string -> string): (r: seq<CategoryData>)
    ensures |r| == |db.categories|
    ensures forall k :: 0 <= k < |r| ==> r[k] == RenderCategory(db.categories[k], db.ads, url)
  {
    seq(|db.categories|, k requires 0 <= k < |db.categories| => RenderCategory(db.categories[k], db.ads, url))
  }

  /** The count is flat: a parent whose Ads all sit in its child categories
      shows "0". */
  lemma ParentCountsOnlyItsOwnAds(db: Db, url: string -> string, k: int)
    requires 0 <= k < |db.categories|
    requires forall a :: a in db.ads ==> a.categoryId != db.categories[k].id
    ensures ListCategories(db, url)[k].productCount == "0"
  {
    assert Grouped(0) == "0";
  }
}

=== FILE: favourites.dfy ===
/** The favourites ledger: the `FavouriteProduct` rows behind the add, delete and
    list endpoints. A row is found through the requesting actor's own key, so the
    user endpoints only ever see rows with that user and the device endpoints only
    rows with that device id. Adding goes through `get_or_create` on that key, which
    makes it idempotent, and deleting goes through `.get()`, which fails when no row
    matches. */
module Favourites {
  import opened Results
  import opened Ordering
  import opened Text
  import opened StoreModels

  /** Who a favourite belongs to: the authenticated user or a device id. */
  datatype Actor = UserActor(userId: Id) | DeviceActor(deviceId: string)

  /** The requesting account as the view sees it. */
  datatype Requester = Anonymous | Authenticated(userId: Id)

  /** `filter(user=...)` or `filter(device_id=...)`: the row carries the actor's key. */
  predicate KeyedBy(f: Favourite, a: Actor) {
    match a
    case UserActor(u) => f.user == Some(u)
    case DeviceActor(d) => f.deviceId == Some(d)
  }

  /** The row of `a` for `product`. */
  predicate Matches(f: Favourite, a: Actor, product: Id) {
    KeyedBy(f, a) && f.product == product
  }

  /** `FavouriteProduct.objects.get(<actor key>, product=product)`: the one matching
      row, `NotFound` when there is none, `MultipleObjectsReturned` when there are
      several. */
  function Lookup(favs: seq<Favourite>, a: Actor, product: Id): (r: Result<Favourite>)
    ensures r.Ok? ==> r.value in favs && Matches(r.value, a, product)
    ensures r == Err(NotFound) <==> forall f :: f in favs ==> !Matches(f, a, product)
    ensures r == Err(MultipleObjectsReturned) <==> Count(favs, f => Matches(f, a, product)) >= 2
    ensures r.Err? ==> r.error == NotFound || r.error == MultipleObjectsReturned
  {
    var m := Filter(favs, f => Matches(f, a, product));
    if |m| == 0 then Err(NotFound)
    else if |m| == 1 then
      assert m[0] in m;
      Ok(m[0])
    else Err(MultipleObjectsReturned)
  }

  /** In a valid ledger an actor has at most one row per product, so the lookup
      never finds several. */
  lemma ValidLookupIsUnique(db: Db, a: Actor, product: Id)
    requires Valid(db)
    ensures Lookup(db.favourites, a, product) != Err(MultipleObjectsReturned)
    ensures forall f, g ::
      (f in db.favourites && g in db.favourites && Matches(f, a, product) && Matches(g, a, product))
      ==> f == g
  {
    var p := (f: Favourite) => Matches(f, a, product);
    if Count(db.favourites, p) >= 2 {
      TwoInFilter(db.favourites, p);
      assert false;
    }
  }

  /** The row `get_or_create` inserts: only the actor's own key is set. */
  function NewRow(a: Actor, product: Id, id: Id, now: int): (f: Favourite)
    ensures Matches(f, a, product)
    ensures a.UserActor? ==> f.deviceId.None?
    ensures a.DeviceActor? ==> f.user.None?
  {
    match a
    case UserActor(u) => Favourite(id, Some(u), None, product, now)
    case DeviceActor(d) => Favourite(id, None, Some(d), product, now)
  }

  /** `FavouriteProduct.objects.get_or_create(<actor key>, product=product)`: the
      existing row is returned unchanged; otherwise one row is appended. Nothing
      else in the database changes. */
  function GetOrCreate(db: Db, a: Actor, product: Id, now: int): (r: Result<(Db, Favourite)>)
    ensures r.Ok? ==> Matches(r.value.1, a, product) && r.value.1 in r.value.0.favourites
    ensures r.Ok? ==> r.value.0.(favourites := db.favourites, nextId := db.nextId) == db
    ensures r.Ok? ==> forall f :: f in db.favourites ==> f in r.value.0.favourites
    ensures r.Ok? ==> forall f :: f in r.value.0.favourites && f !in db.favourites ==> f == r.value.1
    ensures r.Ok? && r.value.1 in db.favourites ==> r.value.0 == db
    ensures r.Err? <==> Lookup(db.favourites, a, product) == Err(MultipleObjectsReturned)
  {
    match Lookup(db.favourites, a, product)
    case Ok(f) => Ok((db, f))
    case Err(e) =>
      if e == NotFound then
        var f := NewRow(a, product, db.nextId, now);
        Ok((db.(favourites := db.favourites + [f], nextId := db.nextId + 1), f))
      else Err(e)
  }

  /** A new row for an actor that has none for the product keeps the ledger's
      uniqueness constraints. */
  lemma AppendFavouriteUnique(favs: seq<Favourite>, a: Actor, product: Id, f: Favourite, next: Id)
    requires Distinct(favs) && UniqueFavouriteIds(favs)
    requires UniqueUserProduct(favs) && UniqueDeviceProduct(favs)
    requires forall g :: g in favs ==> g.id < next && !Matches(g, a, product)
    requires f == NewRow(a, product, next, f.createdAt)
    ensures var favs' := favs + [f];
      && Distinct(favs') && UniqueFavouriteIds(favs')
      && UniqueUserProduct(favs') && UniqueDeviceProduct(favs')
  {
    var favs' := favs + [f];
    assert forall g :: g in favs' <==> g in favs || g == f;
    assert f !in favs;
    forall i, j | 0 <= i < j < |favs'| ensures favs'[i] != favs'[j] {
      if j == |favs| { assert favs'[i] in favs; }
      else { assert favs'[i] == favs[i] && favs'[j] == favs[j]; }
    }
  }

  /** Adding keeps every schema constraint, provided the product exists. */
  lemma GetOrCreateValid(db: Db, a: Actor, product: Id, now: int)
    requires Valid(db) && HasAd(db.ads, product)
    ensures GetOrCreate(db, a, product, now).Ok?
    ensures Valid(GetOrCreate(db, a, product, now).value.0)
  {
    ValidLookupIsUnique(db, a, product);
    var look := Lookup(db.favourites, a, product);
    if look.Err? {
      var f := NewRow(a, product, db.nextId, now);
      AppendFavouriteUnique(db.favourites, a, product, f, db.nextId);
      var db' := db.(favourites := db.favourites + [f], nextId := db.nextId + 1);
      assert forall g :: g in db'.favourites ==> HasAd(db'.ads, g.product);
    }
  }

  /** The second of two identical adds finds the row the first one returned and
      changes nothing. */
  lemma GetOrCreateIdempotent(db: Db, a: Actor, product: Id, now: int, later: int)
    requires Valid(db) && HasAd(db.ads, product)
    ensures GetOrCreate(db, a, product, now).Ok?
    ensures GetOrCreate(db, a, product, now).Ok? ==>
      var first := GetOrCreate(db, a, product, now).value;
      GetOrCreate(first.0, a, product, later) == Ok(first)
  {
    GetOrCreateValid(db, a, product, now);
    var first := GetOrCreate(db, a, product, now).value;
    var (db', row) := first;
    ValidLookupIsUnique(db', a, product);
    var second := Lookup(db'.favourites, a, product);
    assert second != Err(NotFound) by {
      assert row in db'.favourites && Matches(row, a, product);
    }
    assert second.value == row;
  }

  // ---------------------------------------------------------------------------
  // Creation endpoints
  // ---------------------------------------------------------------------------

  const DeviceIdMaxLength := 255
  const AnonymousNeedsDevice := "Anonymous users must provide a device_id."
  const DeviceFieldRequired := "This field is required."
  const DeviceQueryRequired := "This field is required in query parameters."
  const ProductRequired := "This field is required."
  const DeviceIdTooLong := "Ensure this field has no more than 255 characters."

  /** The request body of a favourite: `product` (a primary key) and the optional
      `device_id`, both as sent. */
  datatype Payload = Payload(product: Option<Id>, deviceId: Option<string>)

  /** The serializer's validated data. */
  datatype Validated = Validated(product: Id, deviceId: Option<string>)

  /** `FavouriteProductSerializer.is_valid()`: `product` must name an existing Ad,
      `device_id` is trimmed, at most 255 characters long and free of NUL
      characters, and an anonymous requester must supply a non-empty one. */
  function Validate(db: Db, requester: Requester, payload: Payload): (r: Result<Validated>)
    ensures r.Ok? ==> payload.product == Some(r.value.product) && HasAd(db.ads, r.value.product)
    ensures r.Ok? ==> (r.value.deviceId.Some? <==> payload.deviceId.Some?)
    ensures r.Ok? && r.value.deviceId.Some? ==>
      r.value.deviceId.value == Strip(payload.deviceId.value) && |r.value.deviceId.value| <= DeviceIdMaxLength
    ensures r.Ok? && payload.deviceId.Some? ==> !HoldsNul(payload.deviceId.value)
    ensures r.Ok? && requester == Anonymous ==> Truthy(r.value.deviceId)
    ensures r.Err? ==> r.error.ValidationError?
    ensures payload.product.Some? && !HasAd(db.ads, payload.product.value) ==>
      r == Err(ValidationError(InvalidPk(payload.product.value)))
    ensures payload.product.Some? && HasAd(db.ads, payload.product.value)
      && (payload.deviceId.Some? ==> |Strip(payload.deviceId.value)| <= DeviceIdMaxLength)
      && (payload.deviceId.Some? ==> !HoldsNul(payload.deviceId.value))
      ==> (r.Err? <==> requester == Anonymous && !(payload.deviceId.Some? && Strip(payload.deviceId.value) != ""))
  {
    var deviceId := if payload.deviceId.Some? then Some(Strip(payload.deviceId.value)) else None;
    if payload.product.None? then Err(ValidationError(ProductRequired))
    else if !HasAd(db.ads, payload.product.value) then Err(ValidationError(InvalidPk(payload.product.value)))
    else if deviceId.Some? && |deviceId.value| > DeviceIdMaxLength then Err(ValidationError(DeviceIdTooLong))
    else if payload.deviceId.Some? && HoldsNul(payload.deviceId.value) then Err(ValidationError(NullCharacters))
    else if requester == Anonymous && !Truthy(deviceId) then Err(ValidationError(AnonymousNeedsDevice))
    else Ok(Validated(payload.product.value, deviceId))
  }

  /** The create endpoint for signed-in sellers: the row is keyed on the user and
      a `device_id` in the body plays no part. */
  function CreateForUser(db: Db, userId: Id, payload: Payload, now: int): (r: Result<(Db, Favourite)>)
    ensures r.Ok? ==> payload.product.Some? && Matches(r.value.1, UserActor(userId), payload.product.value)
    ensures r.Ok? <==>
      (Validate(db, Authenticated(userId), payload).Ok?
       && GetOrCreate(db, UserActor(userId), payload.product.value, now).Ok?)
    ensures r.Ok? && r.value.1 !in db.favourites ==> r.value.1.deviceId.None?
    ensures Validate(db, Authenticated(userId), payload).Err? ==>
      r == Err(Validate(db, Authenticated(userId), payload).error)
    ensures Validate(db, Authenticated(userId), payload).Ok? ==>
      r == GetOrCreate(db, UserActor(userId), Validate(db, Authenticated(userId), payload).value.product, now)
  {
    match Validate(db, Authenticated(userId), payload)
    case Err(e) => Err(e)
    case Ok(v) => GetOrCreate(db, UserActor(userId), v.product, now)
  }

  /** The create endpoint that takes a device id: the body must carry a non-empty
      `device_id`. An anonymous requester's row is keyed on that id exactly as
      sent; a signed-in requester's row is still keyed on the user. */
  function CreateByDevice(db: Db, requester: Requester, payload: Payload, now: int): (r: Result<(Db, Favourite)>)
    ensures !Truthy(payload.deviceId) ==> r.Err? && r.error.ValidationError?
    ensures r.Ok? ==> payload.product.Some? && payload.deviceId.Some?
    ensures r.Ok? && requester.Authenticated? ==>
      Matches(r.value.1, UserActor(requester.userId), payload.product.value)
    ensures r.Ok? && requester == Anonymous ==>
      Matches(r.value.1, DeviceActor(payload.deviceId.value), payload.product.value)
    ensures Validate(db, requester, payload).Err? ==> r == Err(Validate(db, requester, payload).error)
    ensures Validate(db, requester, payload).Ok? && Truthy(payload.deviceId) ==>
      r == GetOrCreate(db, DeviceEndpointActor(requester, payload.deviceId.value),
                       Validate(db, requester, payload).value.product, now)
  {
    match Validate(db, requester, payload)
    case Err(e) => Err(e)
    case Ok(v) =>
      if !Truthy(payload.deviceId) then Err(ValidationError(DeviceFieldRequired))
      else GetOrCreate(db, DeviceEndpointActor(requester, payload.deviceId.value), v.product, now)
  }

  /** Whom the device endpoint keys a row on: the user when signed in, else the
      device id as sent. */
  function DeviceEndpointActor(requester: Requester, deviceId: string): Actor {
    match requester
    case Authenticated(u) => UserActor(u)
    case Anonymous => DeviceActor(deviceId)
  }

  /** Repeating a favourite request for the same product returns the same row and
      leaves the ledger as the first request left it. */
  lemma CreateForUserIdempotent(db: Db, userId: Id, payload: Payload, now: int, later: int)
    requires Valid(db)
    requires CreateForUser(db, userId, payload, now).Ok?
    ensures var first := CreateForUser(db, userId, payload, now).value;
      CreateForUser(first.0, userId, payload, later) == Ok(first)
  {
    var v := Validate(db, Authenticated(userId), payload).value;
    GetOrCreateIdempotent(db, UserActor(userId), v.product, now, later);
    var first := CreateForUser(db, userId, payload, now).value;
    assert first.0.ads == db.ads;
  }

  /** The signed-in create endpoint keeps the ledger valid; a row it creates is
      keyed on the user alone. */
  lemma CreateForUserValid(db: Db, userId: Id, payload: Payload, now: int)
    requires Valid(db)
    requires CreateForUser(db, userId, payload, now).Ok?
    ensures Valid(CreateForUser(db, userId, payload, now).value.0)
    ensures var (db', f) := CreateForUser(db, userId, payload, now).value;
      f !in db.favourites ==> f.user == Some(userId) && f.deviceId.None?
  {
    var v := Validate(db, Authenticated(userId), payload).value;
    GetOrCreateValid(db, UserActor(userId), v.product, now);
  }

  /** Repeating a request on the device endpoint, signed in or not, returns the
      same row and leaves the ledger as the first request left it. */
  lemma CreateByDeviceIdempotent(db: Db, requester: Requester, payload: Payload, now: int, later: int)
    requires Valid(db)
    requires CreateByDevice(db, requester, payload, now).Ok?
    ensures var first := CreateByDevice(db, requester, payload, now).value;
      CreateByDevice(first.0, requester, payload, later) == Ok(first)
  {
    var v := Validate(db, requester, payload).value;
    var a := DeviceEndpointActor(requester, payload.deviceId.value);
    GetOrCreateIdempotent(db, a, v.product, now, later);
    var first := CreateByDevice(db, requester, payload, now).value;
    assert first.0.ads == db.ads;
  }

  /** An anonymous request with no usable device id is refused at validation, and
      the ledger is untouched. */
  lemma AnonymousWithoutDeviceRejected(db: Db, payload: Payload, now: int)
    requires payload.deviceId.None? || Strip(payload.deviceId.value) == ""
    ensures CreateByDevice(db, Anonymous, payload, now).Err?
    ensures CreateByDevice(db, Anonymous, payload, now).error.ValidationError?
  {
  }

  /** A signed-in requester on the device endpoint gets a row keyed on the user
      whatever device id is sent, and a row it creates carries no device id. */
  lemma AuthenticatedIgnoresDeviceId(db: Db, userId: Id, product: Id, d1: string, d2: string, now: int)
    requires Valid(db) && HasAd(db.ads, product)
    requires d1 != "" && d2 != "" && |Strip(d1)| <= DeviceIdMaxLength && |Strip(d2)| <= DeviceIdMaxLength
    requires !HoldsNul(d1) && !HoldsNul(d2)
    ensures CreateByDevice(db, Authenticated(userId), Payload(Some(product), Some(d1)), now)
      == CreateByDevice(db, Authenticated(userId), Payload(Some(product), Some(d2)), now)
      == GetOrCreate(db, UserActor(userId), product, now)
  {
  }

  /** Adding keeps the ledger valid; a row that is created carries exactly one
      actor key. */
  lemma CreateByDeviceValid(db: Db, requester: Requester, payload: Payload, now: int)
    requires Valid(db)
    requires CreateByDevice(db, requester, payload, now).Ok?
    ensures Valid(CreateByDevice(db, requester, payload, now).value.0)
    ensures var (db', f) := CreateByDevice(db, requester, payload, now).value;
      f !in db.favourites ==> (f.user.Some? != f.deviceId.Some?)
  {
    var v := Validate(db, requester, payload).value;
    GetOrCreateValid(db, DeviceEndpointActor(requester, payload.deviceId.value), v.product, now);
  }

  // ---------------------------------------------------------------------------
  // Deletion endpoints
  // ---------------------------------------------------------------------------

  /** `get_object()` then `destroy`: the actor's row for `product` is deleted by
      primary key. A favourite has no dependants, so nothing else changes. The
      signed-in user's delete endpoint is this with the user as the actor. */
  function Remove(db: Db, a: Actor, product: Id): (r: Result<Db>)
    ensures r == Err(NotFound) <==> forall f :: f in db.favourites ==> !Matches(f, a, product)
    ensures r.Err? ==> Lookup(db.favourites, a, product).Err?
    ensures r.Ok? ==> r.value.(favourites := db.favourites) == db
    ensures r.Ok? ==> Lookup(db.favourites, a, product).Ok?
    ensures r.Ok? ==>
      var row := Lookup(db.favourites, a, product).value;
      forall f :: f in r.value.favourites <==> f in db.favourites && f.id != row.id
  {
    var look := Lookup(db.favourites, a, product);
    if look.Err? then Err(look.error)
    else
      var rest := Filter(db.favourites, (f: Favourite) => f.id != look.value.id);
      assert forall f :: f in rest <==> f in db.favourites && f.id != look.value.id;
      Ok(db.(favourites := rest))
  }

  /** In a valid ledger a delete removes exactly the actor's row for the product:
      every row of another actor, and every row of the same actor for another
      product, stays. The ledger stays valid. */
  lemma RemoveTouchesOnlyOwnRow(db: Db, a: Actor, product: Id)
    requires Valid(db)
    ensures Remove(db, a, product).Ok? ==>
      && Valid(Remove(db, a, product).value)
      && forall f :: f in Remove(db, a, product).value.favourites <==>
        f in db.favourites && !Matches(f, a, product)
  {
    ValidLookupIsUnique(db, a, product);
    var look := Lookup(db.favourites, a, product);
    if look.Ok? {
      var row := look.value;
      var r := Remove(db, a, product).value;
      FilterDistinct(db.favourites, (f: Favourite) => f.id != row.id);
      forall f | f in db.favourites
        ensures f.id != row.id <==> !Matches(f, a, product)
      {
        if Matches(f, a, product) { assert f == row; }
      }
    }
  }

  /** A user cannot delete a device's favourite: with only a device row for the
      Ad, the user's delete finds nothing. */
  lemma UserCannotDeleteDeviceRow(db: Db, userId: Id, device: string, product: Id)
    requires forall f :: f in db.favourites && f.product == product ==> f.user.None? && f.deviceId == Some(device)
    ensures Remove(db, UserActor(userId), product) == Err(NotFound)
  {
  }

  /** The device delete endpoint: `?device_id=` must be non-empty; the row is then
      looked up among that device's rows. */
  function RemoveForDevice(db: Db, deviceId: Option<string>, product: Id): (r: Result<Db>)
    ensures !Truthy(deviceId) <==> r == Err(ValidationError(DeviceQueryRequired))
    ensures Truthy(deviceId) ==> r == Remove(db, DeviceActor(deviceId.value), product)
  {
    if !Truthy(deviceId) then Err(ValidationError(DeviceQueryRequired))
    else Remove(db, DeviceActor(deviceId.value), product)
  }

  // ---------------------------------------------------------------------------
  // List endpoints
  // ---------------------------------------------------------------------------

  /** The favourited Ad belongs to `category`. */
  predicate InCategory(ads: seq<Ad>, product: Id, category: Id) {
    exists a :: a in ads && a.id == product && a.categoryId == category
  }

  /** `order_by("-id")`. */
  function NewestFirst(f: Favourite): seq<int> {
    [-(f.id as int)]
  }

  /** The actor's rows, optionally narrowed to one category, newest id first. */
  function ListRows(db: Db, a: Actor, category: Option<Id>): (r: seq<Favourite>)
    ensures forall f :: f in r <==>
      (f in db.favourites && KeyedBy(f, a)
       && (category.Some? ==> InCategory(db.ads, f.product, category.value)))
    ensures forall i, j :: 0 <= i < j < |r| ==> r[i].id >= r[j].id
    ensures multiset(r) <= multiset(db.favourites)
  {
    var rows := Filter(db.favourites, (f: Favourite) => KeyedBy(f, a)
      && (category.Some? ==> InCategory(db.ads, f.product, category.value)));
    var sorted := SortBy(rows, NewestFirst);
    SortByMembers(rows, NewestFirst);
    forall i, j | 0 <= i < j < |sorted| ensures sorted[i].id >= sorted[j].id {
      assert LexLe(NewestFirst(sorted[i]), NewestFirst(sorted[j]));
    }
    sorted
  }

  /** The user's favourites list. A non-empty `?category=` narrows it; the value
      goes to the integer column as sent, so one that is not a number makes the
      query raise `ValueError`. */
  function ListForUser(db: Db, userId: Id, category: Option<string>): (r: Result<seq<Favourite>>)
    ensures r.Err? <==> Truthy(category) && !IsDigits(category.value)
    ensures r.Err? ==> r.error.ValueError?
    ensures r.Ok? ==> forall f :: f in r.value <==>
      (f in db.favourites && f.user == Some(userId)
       && (Truthy(category) ==> InCategory(db.ads, f.product, ParseNat(category.value))))
    ensures r.Ok? ==> forall i, j :: 0 <= i < j < |r.value| ==> r.value[i].id >= r.value[j].id
    ensures r.Ok? ==> multiset(r.value) <= multiset(db.favourites)
  {
    if !Truthy(category) then Ok(ListRows(db, UserActor(userId), None))
    else if !IsDigits(category.value) then Err(ValueError("Field 'id' expected a number but got '" + category.value + "'."))
    else Ok(ListRows(db, UserActor(userId), Some(ParseNat(category.value))))
  }

  /** A category id written in decimal narrows the user's list to exactly the
      rows `ListRows` gives for that category. */
  lemma CategoryQueryNarrows(db: Db, userId: Id, category: Id)
    ensures ListForUser(db, userId, Some(NatToString(category)))
      == Ok(ListRows(db, UserActor(userId), Some(category)))
  {
    ParseNatToString(category);
  }

  /** The device's favourites list: `?device_id=` must be non-empty. */
  function ListForDevice(db: Db, deviceId: Option<string>): (r: Result<seq<Favourite>>)
    ensures !Truthy(deviceId) <==> r == Err(ValidationError(DeviceQueryRequired))
    ensures r.Ok? ==> forall f :: f in r.value <==> f in db.favourites && f.deviceId == deviceId
    ensures r.Ok? ==> forall i, j :: 0 <= i < j < |r.value| ==> r.value[i].id >= r.value[j].id
    ensures r.Ok? ==> multiset(r.value) <= multiset(db.favourites)
  {
    if !Truthy(deviceId) then Err(ValidationError(DeviceQueryRequired))
    else Ok(ListRows(db, DeviceActor(deviceId.value), None))
  }

  /** A user's list and a device's list never share a row unless the row carries
      both keys, which the endpoints never create. */
  lemma ListsAreIsolated(db: Db, userId: Id, deviceId: string)
    requires forall f :: f in db.favourites ==> f.user.Some? != f.deviceId.Some?
    ensures forall f :: f in ListForUser(db, userId, None).value ==> f !in ListRows(db, DeviceActor(deviceId), None)
  {
  }

  /** Deleting an Ad takes it off every actor's list. */
  lemma DeletedAdLeavesEveryList(db: Db, adId: Id, a: Actor, category: Option<Id>)
    ensures forall f :: f in ListRows(DeleteAdCascade(db, adId), a, category) ==> f.product != adId
  {
  }

  // ---------------------------------------------------------------------------
  // Response body
  // ---------------------------------------------------------------------------

  /** The serialized favourite. `deviceId` is `None` when the key is absent from
      the body and `Some(None)` when it is present as `null`. */
  datatype FavouriteData = FavouriteData(id: Id, product: Id, deviceId: Option<Option<string>>, createdAt: int)

  /** `to_representation`: `device_id` is dropped for a signed-in requester. */
  function Represent(f: Favourite, requester: Option<Requester>): (d: FavouriteData)
    ensures d.id == f.id && d.product == f.product && d.createdAt == f.createdAt
    ensures d.deviceId.None? <==> requester.Some? && requester.value.Authenticated?
    ensures d.deviceId.Some? ==> d.deviceId.value == f.deviceId
  {
    var data := FavouriteData(f.id, f.product, Some(f.deviceId), f.createdAt);
    if requester.Some? && requester.value.Authenticated? then data.(deviceId := None) else data
  }
}

=== FILE: filters.dfy ===
/** `AdFilter`, the filter set of the public Ad list: inclusive price bounds, the
    seller, the region and district of the Ad's address, and `category_ids`, a
    comma-separated list of category ids of which only the all-digit pieces
    count. `category_ids` is a character filter, so its value is trimmed first.
    Every supplied filter narrows the query set; a value that is empty (after
    trimming) leaves it alone. Category membership is flat: a parent's id does not select the Ads of
    its children.

    The region and district filters name `address__region_id` and
    `address__district_id`, but the `Address` model (apps/accounts/models.py)
    declares only a name and coordinates, so as written either filter makes the
    query raise `FieldError`. `FilterAdsAsWritten` models that; `FilterAds` is the
    evident intent, matching on the address's region and district. */
module AdFilters {
  import opened Results
  import opened Ordering
  import opened Text
  import opened StoreModels

  // ---------------------------------------------------------------------------
  // category_ids
  // ---------------------------------------------------------------------------

  /** `[int(pk) for pk in tokens if pk.isdigit()]`. */
  function DigitTokens(tokens: seq<string>): (ids: seq<nat>)
    ensures |ids| <= |tokens|
    ensures forall k :: 0 <= k < |tokens| && IsDigits(tokens[k]) ==> ParseNat(tokens[k]) in ids
    ensures forall i :: i in ids ==> exists k :: 0 <= k < |tokens| && IsDigits(tokens[k]) && ParseNat(tokens[k]) == i
    ensures (forall k :: 0 <= k < |tokens| ==> !IsDigits(tokens[k])) ==> ids == []
  {
    if |tokens| == 0 then []
    else
      var rest := DigitTokens(tokens[1..]);
      assert forall k :: 1 <= k < |tokens| ==> tokens[k] == tokens[1..][k - 1];
      if IsDigits(tokens[0]) then [ParseNat(tokens[0])] + rest else rest
  }

  /** The ids `filter_categories` filters on, given the value as sent: the
      character filter's form field trims it before the method sees it. */
  function CategoryIdList(value: string): seq<nat> {
    DigitTokens(Split(Strip(value), ','))
  }

  /** Each id in decimal. */
  function Rendered(ids: seq<nat>): (ts: seq<string>)
    ensures |ts| == |ids|
    ensures forall k :: 0 <= k < |ids| ==> ts[k] == NatToString(ids[k])
  {
    seq(|ids|, k requires 0 <= k < |ids| => NatToString(ids[k]))
  }

  /** A list of ids written out with commas. */
  function RenderIds(ids: seq<nat>): string
    requires |ids| >= 1
  {
    Join(Rendered(ids), ',')
  }

  /** An all-digit piece in front contributes its value in front. */
  lemma DigitTokensCons(t: string, rest: seq<string>)
    requires IsDigits(t)
    ensures DigitTokens([t] + rest) == [ParseNat(t)] + DigitTokens(rest)
  {
    assert ([t] + rest)[1..] == rest;
  }

  lemma {:induction false} DigitTokensOfRendered(ids: seq<nat>)
    ensures DigitTokens(Rendered(ids)) == ids
  {
    if |ids| > 0 {
      var t0 := NatToString(ids[0]);
      var tail := Rendered(ids[1..]);
      assert Rendered(ids) == [t0] + tail by {
        assert forall k :: 1 <= k < |ids| ==> ids[k] == ids[1..][k - 1];
      }
      assert ParseNat(t0) == ids[0] by { ParseNatToString(ids[0]); }
      DigitTokensOfRendered(ids[1..]);
      DigitTokensCons(t0, tail);
      assert [ids[0]] + ids[1..] == ids;
    }
  }

  /** Parsing inverts rendering: `category_ids` written out from a list of ids
      reads back as that list. */
  lemma CategoryIdListRoundTrip(ids: seq<nat>)
    requires |ids| >= 1
    ensures CategoryIdList(RenderIds(ids)) == ids
  {
    var tokens := Rendered(ids);
    forall k | 0 <= k < |tokens| ensures ',' !in tokens[k] {
      assert IsDigits(tokens[k]);
    }
    RenderedIdsUnpadded(ids);
    SplitJoin(tokens, ',');
    DigitTokensOfRendered(ids);
  }

  /** Rendered ids start and end with a digit, so trimming leaves them alone. */
  lemma RenderedIdsUnpadded(ids: seq<nat>)
    requires |ids| >= 1
    ensures Strip(RenderIds(ids)) == RenderIds(ids) != ""
  {
    var tokens := Rendered(ids);
    JoinEnds(tokens, ',');
    var s := RenderIds(ids);
    var last := tokens[|tokens| - 1];
    assert IsDigit(tokens[0][0]) && IsDigit(last[|last| - 1]);
    StripUnpadded(s);
  }

  /** Whitespace around the value is ignored: `"1,2 "` asks for 1 and 2. */
  lemma CategoryIdListTrims(value: string)
    ensures CategoryIdList(value) == CategoryIdList(Strip(value))
  {
    StripIdempotent(value);
  }

  /** A single id reads back as itself. */
  lemma SingleIdParses(n: nat)
    ensures CategoryIdList(NatToString(n)) == [n]
  {
    CategoryIdListRoundTrip([n]);
    assert RenderIds([n]) == NatToString(n);
  }

  // ---------------------------------------------------------------------------
  // The filter set
  // ---------------------------------------------------------------------------

  /** The query parameters `AdFilter` reads; `None` is a parameter not sent. */
  datatype AdQuery = AdQuery(
    priceGte: Option<int>,
    priceLte: Option<int>,
    seller: Option<Id>,
    regionId: Option<Id>,
    districtId: Option<Id>,
    categoryIds: Option<string>)

  const NoFilters := AdQuery(None, None, None, None, None, None)

  /** The Ad's address is in region `r`. */
  predicate InRegion(addresses: seq<Address>, a: Ad, r: Id) {
    exists addr :: addr in addresses && addr.id == a.addressId && addr.regionId == Some(r)
  }

  /** The Ad's address is in district `d`. */
  predicate InDistrict(addresses: seq<Address>, a: Ad, d: Id) {
    exists addr :: addr in addresses && addr.id == a.addressId && addr.districtId == Some(d)
  }

  /** `category_ids` is applied: sent, and not empty once trimmed. */
  predicate CategoryFilterApplies(q: AdQuery) {
    q.categoryIds.Some? && Strip(q.categoryIds.value) != ""
  }

  predicate PriceFrom(q: AdQuery, a: Ad) { q.priceGte.Some? ==> a.price >= q.priceGte.value }
  predicate PriceUpTo(q: AdQuery, a: Ad) { q.priceLte.Some? ==> a.price <= q.priceLte.value }
  predicate SoldBy(q: AdQuery, a: Ad) { q.seller.Some? ==> a.sellerId == q.seller.value }
  predicate RegionMatches(db: Db, q: AdQuery, a: Ad) { q.regionId.Some? ==> InRegion(db.addresses, a, q.regionId.value) }
  predicate DistrictMatches(db: Db, q: AdQuery, a: Ad) { q.districtId.Some? ==> InDistrict(db.addresses, a, q.districtId.value) }
  predicate CategoryMatches(q: AdQuery, a: Ad) { CategoryFilterApplies(q) ==> a.categoryId in CategoryIdList(q.categoryIds.value) }

  /** Every supplied condition holds of `a`. */
  predicate Satisfies(db: Db, q: AdQuery, a: Ad) {
    && PriceFrom(q, a)
    && PriceUpTo(q, a)
    && SoldBy(q, a)
    && RegionMatches(db, q, a)
    && DistrictMatches(db, q, a)
    && CategoryMatches(q, a)
  }

  /** One filter of the set: applied when its parameter was supplied. */
  function Narrow(xs: seq<Ad>, applies: bool, p: Ad -> bool): (r: seq<Ad>)
    ensures forall a :: a in r <==> a in xs && (applies ==> p(a))
    ensures multiset(r) <= multiset(xs)
    ensures !applies ==> r == xs
  {
    if applies then Filter(xs, p) else xs
  }

  /** `AdFilter(query).qs`: each supplied filter in turn narrows the query set. */
  function FilterAds(db: Db, q: AdQuery, ads: seq<Ad>): (r: seq<Ad>)
    ensures multiset(r) <= multiset(ads)
  {
    var s1 := Narrow(ads, q.priceGte.Some?, a => PriceFrom(q, a));
    var s2 := Narrow(s1, q.priceLte.Some?, a => PriceUpTo(q, a));
    var s3 := Narrow(s2, q.regionId.Some?, a => RegionMatches(db, q, a));
    var s4 := Narrow(s3, q.districtId.Some?, a => DistrictMatches(db, q, a));
    var s5 := Narrow(s4, CategoryFilterApplies(q), a => CategoryMatches(q, a));
    Narrow(s5, q.seller.Some?, a => SoldBy(q, a))
  }

  /** An Ad is in the filtered list exactly when it was in the list given and
      meets every supplied condition. */
  lemma FilterAdsMember(db: Db, q: AdQuery, ads: seq<Ad>, a: Ad)
    ensures a in FilterAds(db, q, ads) <==> a in ads && Satisfies(db, q, a)
  {
  }

  lemma FilterAdsMembers(db: Db, q: AdQuery, ads: seq<Ad>)
    ensures forall a :: a in FilterAds(db, q, ads) <==> a in ads && Satisfies(db, q, a)
  {
    forall a ensures a in FilterAds(db, q, ads) <==> a in ads && Satisfies(db, q, a) {
      FilterAdsMember(db, q, ads, a);
    }
  }

  /** With no parameters the query set is untouched. */
  lemma NoFiltersKeepsEverything(db: Db, ads: seq<Ad>)
    ensures FilterAds(db, NoFilters, ads) == ads
  {
  }

  /** Filtering a second time with the same parameters changes nothing more. */
  lemma FilterAdsIdempotent(db: Db, q: AdQuery, ads: seq<Ad>)
    ensures forall a :: a in FilterAds(db, q, FilterAds(db, q, ads)) <==> a in FilterAds(db, q, ads)
  {
  }

  /** Both price bounds are inclusive. */
  lemma PriceBoundsInclusive(db: Db, a: Ad, ads: seq<Ad>)
    requires a in ads
    ensures a in FilterAds(db, NoFilters.(priceGte := Some(a.price as int), priceLte := Some(a.price as int)), ads)
    ensures a !in FilterAds(db, NoFilters.(priceGte := Some(a.price as int + 1)), ads)
  {
  }

  /** A `category_ids` value that is not blank but holds no all-digit piece
      (such as "abc" or ",") selects nothing. */
  lemma NoDigitTokensSelectsNothing(db: Db, q: AdQuery, ads: seq<Ad>)
    requires CategoryFilterApplies(q)
    requires forall k :: 0 <= k < |Split(Strip(q.categoryIds.value), ',')| ==>
      !IsDigits(Split(Strip(q.categoryIds.value), ',')[k])
    ensures FilterAds(db, q, ads) == []
  {
    var r := FilterAds(db, q, ads);
    assert |r| == 0 by {
      if |r| > 0 {
        FilterAdsMember(db, q, ads, r[0]);
        NoIdsNoMatch(q, r[0]);
      }
    }
  }

  lemma NoIdsNoMatch(q: AdQuery, a: Ad)
    requires CategoryFilterApplies(q)
    requires forall k :: 0 <= k < |Split(Strip(q.categoryIds.value), ',')| ==>
      !IsDigits(Split(Strip(q.categoryIds.value), ',')[k])
    ensures !CategoryMatches(q, a)
  {
    var pieces := Split(Strip(q.categoryIds.value), ',');
    assert forall k :: 0 <= k < |pieces| ==> !IsDigits(pieces[k]);
    assert CategoryIdList(q.categoryIds.value) == DigitTokens(pieces) == [];
  }

  /** A blank `category_ids` (such as " ") is an empty value: the filter is
      skipped and every Ad is kept. */
  lemma BlankCategoryIdsKeepsEverything(db: Db, value: string, ads: seq<Ad>)
    requires Strip(value) == ""
    ensures FilterAds(db, NoFilters.(categoryIds := Some(value)), ads) == ads
  {
  }

  /** Asking for one category selects exactly the Ads filed directly under it. */
  lemma SingleCategorySelects(db: Db, ad: Ad, c: Id)
    requires ad in db.ads
    ensures ad in FilterAds(db, NoFilters.(categoryIds := Some(NatToString(c))), db.ads) <==> ad.categoryId == c
  {
    var q := NoFilters.(categoryIds := Some(NatToString(c)));
    SingleIdMatches(c, ad);
    OnlyCategorySent(db, q, ad);
    FilterAdsMember(db, q, db.ads, ad);
  }

  /** One id in decimal is a non-blank `category_ids` that matches exactly the
      Ads of that category. */
  lemma SingleIdMatches(c: Id, ad: Ad)
    ensures var q := NoFilters.(categoryIds := Some(NatToString(c)));
      CategoryFilterApplies(q) && (CategoryMatches(q, ad) <==> ad.categoryId == c)
  {
    SingleIdParses(c);
    NatStringUnpadded(c);
  }

  /** An id in decimal is not blank and has nothing to trim. */
  lemma NatStringUnpadded(n: nat)
    ensures Strip(NatToString(n)) == NatToString(n) != ""
  {
    var s := NatToString(n);
    assert IsDigit(s[0]) && IsDigit(s[|s| - 1]);
    StripUnpadded(s);
  }

  /** With only `category_ids` sent, the category is the only condition. */
  lemma OnlyCategorySent(db: Db, q: AdQuery, a: Ad)
    requires q == NoFilters.(categoryIds := q.categoryIds)
    ensures Satisfies(db, q, a) <==> CategoryMatches(q, a)
  {
  }

  /** Category matching is flat: asking for a parent does not return the Ads of
      its child; asking for the child does. */
  lemma CategoryFilterIsFlat(db: Db, ad: Ad, parent: Category, child: Category)
    requires ad in db.ads && ad.categoryId == child.id && child.parent == Some(parent.id)
    requires parent.id != child.id
    ensures ad !in FilterAds(db, NoFilters.(categoryIds := Some(NatToString(parent.id))), db.ads)
    ensures ad in FilterAds(db, NoFilters.(categoryIds := Some(NatToString(child.id))), db.ads)
  {
    SingleCategorySelects(db, ad, parent.id);
    SingleCategorySelects(db, ad, child.id);
  }

  /** Listing several ids selects the Ads of any of them. */
  lemma CategoryListSelectsAny(db: Db, ad: Ad, ids: seq<nat>)
    requires ad in db.ads && |ids| >= 1
    ensures ad in FilterAds(db, NoFilters.(categoryIds := Some(RenderIds(ids))), db.ads) <==> ad.categoryId in ids
  {
    var q := NoFilters.(categoryIds := Some(RenderIds(ids)));
    CategoryIdListRoundTrip(ids);
    RenderedIdsUnpadded(ids);
    assert CategoryFilterApplies(q);
    FilterAdsMember(db, q, db.ads, ad);
  }

  /** `region_id` and `district_id` look at the Ad's address, so two Ads at the
      same address agree on them. */
  lemma RegionFollowsAddress(db: Db, q: AdQuery, a: Ad, b: Ad)
    requires a.addressId == b.addressId
    requires q == NoFilters.(regionId := q.regionId, districtId := q.districtId)
    ensures Satisfies(db, q, a) <==> Satisfies(db, q, b)
  {
  }

  // ---------------------------------------------------------------------------
  // The filter set as written
  // ---------------------------------------------------------------------------

  /** The filter set as written: the region and district filters name a field the
      address does not have, and the query raises. */
  function FilterAdsAsWritten(db: Db, q: AdQuery, ads: seq<Ad>): (r: Result<seq<Ad>>)
    ensures r.Err? <==> q.regionId.Some? || q.districtId.Some?
    ensures r.Ok? ==> r.value == FilterAds(db, q, ads)
  {
    if q.regionId.Some? then Err(FieldError("region_id"))
    else if q.districtId.Some? then Err(FieldError("district_id"))
    else Ok(FilterAds(db, q, ads))
  }

  /** The discrepancy: `?region_id=1` makes the public list fail, however many
      Ads are in that region. */
  lemma RegionFilterRaises(db: Db, ads: seq<Ad>)
    ensures FilterAdsAsWritten(db, NoFilters.(regionId := Some(1)), ads) == Err(FieldError("region_id"))
    ensures FilterAdsAsWritten(db, NoFilters.(districtId := Some(1)), ads) == Err(FieldError("district_id"))
  {
  }
}

=== FILE: managers.dfy ===
/** The custom user manager: `create_user`, `create_superuser` and `create_admin`.
    Each fills in defaults for the role, staff and superuser flags, the active flag
    and the approval status (a caller-supplied value always wins), validates the
    outcome, sets either a usable or an unusable password and saves the user.
    `phone_number` is unique, so the save fails when the number is already
    taken; `taken` is the set of phone numbers the user table holds. */
module Managers {
  import opened Results

  datatype Role = SuperAdmin | Admin | Seller
  datatype Status = Pending | Approved | Rejected

  /** The keyword arguments a caller may pass; `None` means "not supplied". */
  datatype ExtraFields = ExtraFields(
    role: Option<Role>,
    isStaff: Option<bool>,
    isSuperuser: Option<bool>,
    isActive: Option<bool>,
    status: Option<Status>)

  /** `set_password(raw)` stores a hash of `raw`; hashing is not modelled, so the
      usable password records the raw text it was set from. */
  datatype Password = Usable(raw: string) | Unusable

  datatype User = User(
    phoneNumber: string,
    role: Role,
    isStaff: bool,
    isSuperuser: bool,
    isActive: bool,
    status: Status,
    password: Password)

  /** The defaults one creation path applies. */
  datatype Defaults = Defaults(role: Role, isStaff: bool, isSuperuser: bool, isActive: bool, status: Status)

  const UserDefaults := Defaults(Seller, false, false, false, Pending)
  const SuperuserDefaults := Defaults(SuperAdmin, true, true, true, Approved)
  const AdminDefaults := Defaults(Admin, true, false, true, Approved)

  const PhoneRequired := "Phone number is required"
  const SuperuserRoleMessage := "Superuser must have role=super_admin."
  const SuperuserStaffMessage := "Superuser must have is_staff=True."
  const SuperuserFlagMessage := "Superuser must have is_superuser=True."
  const AdminRoleMessage := "Admin must have role=admin."

  /** `extra_fields.setdefault(...)` for every defaulted key. */
  function SetDefaults(extra: ExtraFields, d: Defaults): (r: Defaults)
    ensures r.role == extra.role.GetOr(d.role)
    ensures r.isStaff == extra.isStaff.GetOr(d.isStaff)
    ensures r.isSuperuser == extra.isSuperuser.GetOr(d.isSuperuser)
    ensures r.isActive == extra.isActive.GetOr(d.isActive)
    ensures r.status == extra.status.GetOr(d.status)
  {
    Defaults(
      extra.role.GetOr(d.role),
      extra.isStaff.GetOr(d.isStaff),
      extra.isSuperuser.GetOr(d.isSuperuser),
      extra.isActive.GetOr(d.isActive),
      extra.status.GetOr(d.status))
  }

  /** A truthy password is set; a missing or empty one leaves the account with an
      unusable password. */
  function PasswordFor(password: Option<string>): (p: Password)
    ensures p.Usable? <==> Truthy(password)
    ensures p.Usable? ==> p.raw == password.value
  {
    if Truthy(password) then Usable(password.value) else Unusable
  }

  function Build(phone: string, f: Defaults, password: Option<string>): User {
    User(phone, f.role, f.isStaff, f.isSuperuser, f.isActive, f.status, PasswordFor(password))
  }

  const PhoneConstraint := "phone_number"

  /** `user.save()`: refused when another user already has the phone number. */
  function Save(taken: set<string>, u: User): (r: Result<User>)
    ensures r.Ok? <==> u.phoneNumber !in taken
    ensures r.Ok? ==> r.value == u
    ensures r.Err? ==> r.error == IntegrityError(PhoneConstraint)
  {
    if u.phoneNumber in taken then Err(IntegrityError(PhoneConstraint)) else Ok(u)
  }

  /** `create_user(phone_number, password, **extra_fields)`. */
  function CreateUser(taken: set<string>, phone: string, password: Option<string>, extra: ExtraFields): (r: Result<User>)
    ensures phone == "" <==> r == Err(ValueError(PhoneRequired))
    ensures phone != "" ==> (r.Ok? <==> phone !in taken)
    ensures r.Err? && phone != "" ==> r.error == IntegrityError(PhoneConstraint)
    ensures r.Ok? ==> r.value.phoneNumber == phone
    ensures r.Ok? ==> (r.value.password.Usable? <==> Truthy(password))
  {
    if phone == "" then Err(ValueError(PhoneRequired))
    else Save(taken, Build(phone, SetDefaults(extra, UserDefaults), password))
  }

  /** `create_superuser(phone_number, password, **extra_fields)`: the role is checked
      first, then the staff flag, then the superuser flag. There is no phone check
      before the save. */
  function CreateSuperuser(taken: set<string>, phone: string, password: Option<string>, extra: ExtraFields): (r: Result<User>)
    ensures r.Ok? ==> r.value.role == SuperAdmin && r.value.isStaff && r.value.isSuperuser
    ensures r.Ok? ==> r.value.phoneNumber == phone && phone !in taken
  {
    var f := SetDefaults(extra, SuperuserDefaults);
    if f.role != SuperAdmin then Err(ValueError(SuperuserRoleMessage))
    else if !f.isStaff then Err(ValueError(SuperuserStaffMessage))
    else if !f.isSuperuser then Err(ValueError(SuperuserFlagMessage))
    else Save(taken, Build(phone, f, password))
  }

  /** `create_admin(phone_number, password, **extra_fields)`: only the role is
      checked. There is no phone check before the save. */
  function CreateAdmin(taken: set<string>, phone: string, password: Option<string>, extra: ExtraFields): (r: Result<User>)
    ensures r.Ok? ==> r.value.role == Admin
    ensures r.Ok? ==> r.value.phoneNumber == phone && phone !in taken
  {
    var f := SetDefaults(extra, AdminDefaults);
    if f.role != Admin then Err(ValueError(AdminRoleMessage))
    else Save(taken, Build(phone, f, password))
  }

  /** Whatever the caller passes is kept; whatever it leaves out takes the
      `create_user` default: a pending, inactive seller without staff rights. */
  lemma CreateUserDefaultsAndOverrides(taken: set<string>, phone: string, password: Option<string>, extra: ExtraFields)
    requires phone != "" && phone !in taken
    ensures var u := CreateUser(taken, phone, password, extra).value;
      && (extra.role.Some? ==> u.role == extra.role.value)
      && (extra.role.None? ==> u.role == Seller)
      && (extra.isStaff.Some? ==> u.isStaff == extra.isStaff.value)
      && (extra.isStaff.None? ==> !u.isStaff)
      && (extra.isSuperuser.Some? ==> u.isSuperuser == extra.isSuperuser.value)
      && (extra.isSuperuser.None? ==> !u.isSuperuser)
      && (extra.isActive.Some? ==> u.isActive == extra.isActive.value)
      && (extra.isActive.None? ==> !u.isActive)
      && (extra.status.Some? ==> u.status == extra.status.value)
      && (extra.status.None? ==> u.status == Pending)
  {
  }

  /** `create_superuser` succeeds exactly when, after defaulting, the role is
      super admin and both flags are set, and the phone number is free; its
      remaining defaults make the account active and approved. A taken number
      passes the checks and fails at the save. */
  lemma CreateSuperuserAcceptance(taken: set<string>, phone: string, password: Option<string>, extra: ExtraFields)
    ensures CreateSuperuser(taken, phone, password, extra).Ok? <==>
      && extra.role.GetOr(SuperAdmin) == SuperAdmin
      && extra.isStaff.GetOr(true)
      && extra.isSuperuser.GetOr(true)
      && phone !in taken
    ensures CreateSuperuser(taken, phone, password, extra).Ok? ==>
      var u := CreateSuperuser(taken, phone, password, extra).value;
      && u.isActive == extra.isActive.GetOr(true)
      && u.status == extra.status.GetOr(Approved)
    ensures extra.role.Some? && extra.role.value != SuperAdmin ==>
      CreateSuperuser(taken, phone, password, extra) == Err(ValueError(SuperuserRoleMessage))
    ensures CreateSuperuser({}, phone, password, extra).Ok? && phone in taken ==>
      CreateSuperuser(taken, phone, password, extra) == Err(IntegrityError(PhoneConstraint))
  {
  }

  /** `create_admin` succeeds exactly when, after defaulting, the role is admin
      and the phone number is free; the other defaults are staff, not superuser,
      active and approved. */
  lemma CreateAdminAcceptance(taken: set<string>, phone: string, password: Option<string>, extra: ExtraFields)
    ensures CreateAdmin(taken, phone, password, extra).Ok? <==>
      extra.role.GetOr(Admin) == Admin && phone !in taken
    ensures CreateAdmin({}, phone, password, extra).Ok? && phone in taken ==>
      CreateAdmin(taken, phone, password, extra) == Err(IntegrityError(PhoneConstraint))
    ensures CreateAdmin(taken, phone, password, extra).Ok? ==>
      var u := CreateAdmin(taken, phone, password, extra).value;
      && u.isStaff == extra.isStaff.GetOr(true)
      && u.isSuperuser == extra.isSuperuser.GetOr(false)
      && u.isActive == extra.isActive.GetOr(true)
      && u.status == extra.status.GetOr(Approved)
  {
  }

  /** Unlike `create_user`, the superuser and admin paths accept an empty phone
      while no user has one; once a user has it, a second one fails at the save. */
  lemma EmptyPhoneOnlyRejectedByCreateUser(taken: set<string>, password: Option<string>)
    ensures CreateUser(taken, "", password, ExtraFields(None, None, None, None, None)).Err?
    ensures "" !in taken ==> CreateSuperuser(taken, "", password, ExtraFields(None, None, None, None, None)).Ok?
    ensures "" !in taken ==> CreateAdmin(taken, "", password, ExtraFields(None, None, None, None, None)).Ok?
    ensures var none := ExtraFields(None, None, None, None, None);
      var first := CreateSuperuser(taken, "", password, none);
      first.Ok? ==> CreateAdmin(taken + {first.value.phoneNumber}, "", password, none) == Err(IntegrityError(PhoneConstraint))
  {
  }
}

=== FILE: middleware.dfy ===
/** The API language middleware. `process_request` picks the request language from
    the first non-empty source among the `Accept-Language` header (taken verbatim),
    the `?lang` query parameter, the `lang` form field of a POST and the `lang` key
    of a JSON body, falls back to the default language, and replaces any value that
    is not a supported language code by the default. `process_response` copies the
    chosen language into the `Content-Language` header.

    The active-locale side channel (`translation.activate`) is replaced by the
    returned language, which callers pass on explicitly. */
module LanguageMiddleware {
  import opened Results

  datatype Method = Get | Post | OtherMethod

  /** The outcome of `json.loads(request.body)`: a document that does not parse
      (or does not decode as UTF-8), an object together with its `lang` entry, or
      some other JSON value (a list, a number, a string, `null`). */
  datatype JsonBody = Malformed | Object(lang: Option<string>) | NonObject

  datatype Request = Request(
    acceptLanguage: Option<string>,
    queryLang: Option<string>,
    verb: Method,
    postLang: Option<string>,
    isJson: bool,
    body: JsonBody)

  /** The language settings: the supported codes and the default code. */
  datatype Settings = Settings(languages: seq<string>, languageCode: string)

  /** The final clamp to the supported set. */
  function Clamp(language: string, s: Settings): (r: string)
    ensures r in s.languages || r == s.languageCode
    ensures language in s.languages ==> r == language
    ensures language !in s.languages ==> r == s.languageCode
  {
    if language in s.languages then language else s.languageCode
  }

  // ---------------------------------------------------------------------------
  // The code as written: a JSON body that parses to something other than an
  // object makes `data.get` raise, and the exception escapes the middleware.
  // ---------------------------------------------------------------------------

  /** The first four steps as written; `None` is a still-empty language. */
  function SourcesAsWritten(req: Request): Result<Option<string>> {
    if Truthy(req.acceptLanguage) then Ok(req.acceptLanguage)
    else if Truthy(req.queryLang) then Ok(req.queryLang)
    else if req.verb == Post && Truthy(req.postLang) then Ok(req.postLang)
    else if req.isJson then
      match req.body
      case Malformed => Ok(None)
      case Object(lang) => Ok(lang)
      case NonObject => Err(AttributeError("get"))
    else Ok(None)
  }

  /** `process_request` exactly as written. */
  function ProcessRequestAsWritten(req: Request, s: Settings): (r: Result<string>)
    ensures r.Err? <==>
      && !Truthy(req.acceptLanguage) && !Truthy(req.queryLang)
      && !(req.verb == Post && Truthy(req.postLang))
      && req.isJson && req.body == NonObject
  {
    match SourcesAsWritten(req)
    case Err(e) => Err(e)
    case Ok(language) =>
      Ok(Clamp(if Truthy(language) then language.value else s.languageCode, s))
  }

  /** The discrepancy: a JSON request whose body is a JSON list (`[]`) and that
      carries no other language makes the middleware raise instead of falling back
      to the default language. */
  lemma NonObjectJsonBodyRaises(s: Settings)
    ensures ProcessRequestAsWritten(
      Request(None, None, Post, None, true, NonObject), s).Err?
  {
  }

  // ---------------------------------------------------------------------------
  // The intended behaviour: a body that is not a JSON object contributes no
  // language, like a malformed one.
  // ---------------------------------------------------------------------------

  /** The JSON body's `lang`, when the request is JSON and the body is an object. */
  function JsonLang(req: Request): Option<string> {
    if req.isJson && req.body.Object? then req.body.lang else None
  }

  /** The raw language after the first five steps, before clamping. */
  function RawLanguage(req: Request, s: Settings): string {
    if Truthy(req.acceptLanguage) then req.acceptLanguage.value
    else if Truthy(req.queryLang) then req.queryLang.value
    else if req.verb == Post && Truthy(req.postLang) then req.postLang.value
    else if Truthy(JsonLang(req)) then JsonLang(req).value
    else s.languageCode
  }

  /** `process_request`, returning the value it stores in `request.LANGUAGE_CODE`. */
  function ProcessRequest(req: Request, s: Settings): (language: string)
    ensures s.languageCode in s.languages ==> language in s.languages
    ensures language == s.languageCode || language in s.languages
  {
    Clamp(RawLanguage(req, s), s)
  }

  /** The candidate sources in priority order; a source that does not apply to
      this request (a form field outside a POST, a body outside JSON) is `None`. */
  function Candidates(req: Request): seq<Option<string>> {
    [ req.acceptLanguage,
      req.queryLang,
      if req.verb == Post then req.postLang else None,
      JsonLang(req) ]
  }

  /** The first truthy candidate, else the default: an independent reading of the
      priority chain. */
  function FirstTruthy(cs: seq<Option<string>>, default: string): (r: string)
    ensures r == default || exists k :: 0 <= k < |cs| && Truthy(cs[k]) && r == cs[k].value
  {
    if |cs| == 0 then default
    else if Truthy(cs[0]) then cs[0].value
    else FirstTruthy(cs[1..], default)
  }

  /** The nested fall-through of the middleware is "first truthy source wins":
      a source is used exactly when it is non-empty and every source above it is
      empty or absent. */
  lemma {:induction false} PriorityChain(req: Request, s: Settings)
    ensures ProcessRequest(req, s) == Clamp(FirstTruthy(Candidates(req), s.languageCode), s)
    ensures forall k :: (0 <= k < 4 && Truthy(Candidates(req)[k])
      && forall m :: 0 <= m < k ==> !Truthy(Candidates(req)[m])) ==>
      ProcessRequest(req, s) == Clamp(Candidates(req)[k].value, s)
  {
    var cs := Candidates(req);
    var d := s.languageCode;
    assert cs[1..][1..][1..][1..] == [];
    assert FirstTruthy(cs[3..], d) == if Truthy(cs[3]) then cs[3].value else d by {
      assert cs[3..][1..] == [];
    }
    assert FirstTruthy(cs[2..], d) == if Truthy(cs[2]) then cs[2].value else FirstTruthy(cs[3..], d) by {
      assert cs[2..][1..] == cs[3..];
    }
    assert FirstTruthy(cs[1..], d) == if Truthy(cs[1]) then cs[1].value else FirstTruthy(cs[2..], d) by {
      assert cs[1..][1..] == cs[2..];
    }
    assert RawLanguage(req, s) == FirstTruthy(cs, d);
  }

  /** A non-empty header that is not a supported code, such as
      "ru-RU,ru;q=0.9", gives the default even when a supported `?lang` is also
      present: the lower-priority sources are never consulted. */
  lemma UnsupportedHeaderGivesDefault(req: Request, s: Settings)
    requires Truthy(req.acceptLanguage) && req.acceptLanguage.value !in s.languages
    ensures ProcessRequest(req, s) == s.languageCode
  {
  }

  /** A malformed JSON body does not raise; with no other source the default is
      used. */
  lemma MalformedBodyFallsBackToDefault(s: Settings, m: Method)
    ensures ProcessRequestAsWritten(Request(None, None, m, None, true, Malformed), s)
      == Ok(s.languageCode)
    ensures ProcessRequest(Request(None, None, m, None, true, Malformed), s) == s.languageCode
  {
  }

  /** Wherever the code as written does not raise, it agrees with the intended
      behaviour. */
  lemma AsWrittenAgreesWhenItSucceeds(req: Request, s: Settings)
    ensures ProcessRequestAsWritten(req, s).Ok? ==>
      ProcessRequestAsWritten(req, s).value == ProcessRequest(req, s)
  {
  }

  /** Response headers as a map from header name to value. */
  type Headers = map<string, string>

  const ContentLanguage := "Content-Language"

  /** `process_response`: when the request carries a language code, the response
      states it in `Content-Language`; other headers are kept. */
  function ProcessResponse(languageCode: Option<string>, headers: Headers): (r: Headers)
    ensures languageCode.Some? ==> ContentLanguage in r && r[ContentLanguage] == languageCode.value
    ensures languageCode.None? ==> r == headers
    ensures forall h :: h in headers && h != ContentLanguage ==> h in r && r[h] == headers[h]
    ensures r.Keys <= headers.Keys + {ContentLanguage}
  {
    if languageCode.Some? then headers[ContentLanguage := languageCode.value] else headers
  }

  /** Round trip through both hooks: the response announces the language the
      request resolved to, and that language is supported. */
  lemma ResponseAnnouncesResolvedLanguage(req: Request, s: Settings, headers: Headers)
    requires s.languageCode in s.languages
    ensures var out := ProcessResponse(Some(ProcessRequest(req, s)), headers);
      ContentLanguage in out && out[ContentLanguage] == ProcessRequest(req, s)
      && out[ContentLanguage] in s.languages
  {
  }
}

=== FILE: mixins.dfy ===
/** The read-side helpers the serializers share: whether the requesting actor has
    favourited an Ad, which photo stands for an Ad, which image stands for an Ad
    or a category, and the language column a translated field is read from.

    File URLs are produced by the storage backend; here `url` is a parameter that
    maps a stored file name to its URL. */
module Mixins {
  import opened Results
  import opened Ordering
  import opened Text
  import opened StoreModels
  import opened Favourites

  // ---------------------------------------------------------------------------
  // LikedMixin
  // ---------------------------------------------------------------------------

  /** The request as `get_is_liked` reads it: who is asking and the `device_id`
      query parameter. */
  datatype LikeRequest = LikeRequest(requester: Requester, queryDeviceId: Option<string>)

  /** The serializer context: the request, if any, and a `device_id` entry. */
  datatype LikeContext = LikeContext(request: Option<LikeRequest>, deviceId: Option<string>)

  /** `LikedMixin.get_is_liked(obj)` for the Ad `ad`, over the favourites table.
      A signed-in requester is answered from its user rows alone; an anonymous
      one from the rows of the query's device id, else the context's. */
  function IsLiked(favs: seq<Favourite>, ad: Id, ctx: LikeContext): bool {
    var deviceId :=
      if ctx.request.Some? && ctx.request.value.requester == Anonymous then
        (if Truthy(ctx.request.value.queryDeviceId) then ctx.request.value.queryDeviceId else ctx.deviceId)
      else None;
    var rows := Filter(favs, (f: Favourite) => f.product == ad);
    if ctx.request.Some? && ctx.request.value.requester.Authenticated? then
      exists f :: f in rows && f.user == Some(ctx.request.value.requester.userId)
    else if Truthy(deviceId) then
      exists f :: f in rows && f.deviceId == deviceId
    else false
  }

  /** The actor a like is checked for, in priority order: the signed-in user,
      then the query's device id, then the context's; none without a request. */
  function LikeActor(ctx: LikeContext): (a: Option<Actor>)
    ensures a.Some? ==> ctx.request.Some?
    ensures a.Some? && a.value.DeviceActor? ==> a.value.deviceId != ""
  {
    match ctx.request
    case None => None
    case Some(req) =>
      match req.requester
      case Authenticated(u) => Some(UserActor(u))
      case Anonymous =>
        if Truthy(req.queryDeviceId) then Some(DeviceActor(req.queryDeviceId.value))
        else if Truthy(ctx.deviceId) then Some(DeviceActor(ctx.deviceId.value))
        else None
  }

  /** `is_liked` holds exactly when the resolved actor has a row for the Ad, the
      same row the actor's delete endpoint would find. */
  lemma IsLikedByResolvedActor(favs: seq<Favourite>, ad: Id, ctx: LikeContext)
    ensures IsLiked(favs, ad, ctx) <==>
      LikeActor(ctx).Some? && exists f :: f in favs && Matches(f, LikeActor(ctx).value, ad)
    ensures LikeActor(ctx).Some? ==>
      (IsLiked(favs, ad, ctx) <==> Lookup(favs, LikeActor(ctx).value, ad) != Err(NotFound))
  {
  }

  /** A signed-in requester's answer does not depend on any device id. */
  lemma AuthenticatedLikeIgnoresDevice(favs: seq<Favourite>, ad: Id, userId: Id,
                                        q1: Option<string>, q2: Option<string>, c1: Option<string>, c2: Option<string>)
    ensures IsLiked(favs, ad, LikeContext(Some(LikeRequest(Authenticated(userId), q1)), c1))
      == IsLiked(favs, ad, LikeContext(Some(LikeRequest(Authenticated(userId), q2)), c2))
  {
  }

  /** Without a request, or anonymous without any device id, nothing is liked. */
  lemma NoActorNothingLiked(favs: seq<Favourite>, ad: Id, c: Option<string>, q: Option<string>)
    ensures !IsLiked(favs, ad, LikeContext(None, c))
    ensures !Truthy(q) && !Truthy(c) ==> !IsLiked(favs, ad, LikeContext(Some(LikeRequest(Anonymous, q)), c))
  {
  }

  /** A device that favourites an Ad sees it liked afterwards; another device that
      had not favourited it still does not. */
  lemma DeviceLikeScenario(db: Db, ad: Id, d1: string, d2: string, now: int)
    requires Valid(db) && HasAd(db.ads, ad)
    requires |d1| > 0 && !IsSpace(d1[0]) && !IsSpace(d1[|d1| - 1]) && |d1| <= DeviceIdMaxLength
    requires !HoldsNul(d1)
    requires d1 != d2
    requires forall f :: f in db.favourites ==> !Matches(f, DeviceActor(d2), ad)
    ensures CreateByDevice(db, Anonymous, Payload(Some(ad), Some(d1)), now).Ok?
    ensures var db' := CreateByDevice(db, Anonymous, Payload(Some(ad), Some(d1)), now).value.0;
      && IsLiked(db'.favourites, ad, LikeContext(Some(LikeRequest(Anonymous, Some(d1))), None))
      && !IsLiked(db'.favourites, ad, LikeContext(Some(LikeRequest(Anonymous, Some(d2))), None))
  {
    StripUnpadded(d1);
    var payload := Payload(Some(ad), Some(d1));
    assert Validate(db, Anonymous, payload) == Ok(Validated(ad, Some(d1)));
    assert CreateByDevice(db, Anonymous, payload, now) == GetOrCreate(db, DeviceActor(d1), ad, now);
    GetOrCreateValid(db, DeviceActor(d1), ad, now);
    var (db', row) := GetOrCreate(db, DeviceActor(d1), ad, now).value;
    var liked := LikeContext(Some(LikeRequest(Anonymous, Some(d1))), None);
    var other := LikeContext(Some(LikeRequest(Anonymous, Some(d2))), None);
    IsLikedByResolvedActor(db'.favourites, ad, liked);
    IsLikedByResolvedActor(db'.favourites, ad, other);
    assert row in db'.favourites && Matches(row, DeviceActor(d1), ad);
    forall f | f in db'.favourites ensures !Matches(f, DeviceActor(d2), ad) {
      if f !in db.favourites { assert f == row; }
    }
  }

  // ---------------------------------------------------------------------------
  // PhotoMixin and the first photo
  // ---------------------------------------------------------------------------

  const NoFileMessage := "The 'image' attribute has no file associated with it."

  /** `field_file.url`: fails for an empty file field. */
  function FileUrl(name: string, url: string -> string): (r: Result<string>)
    ensures r.Ok? <==> name != ""
    ensures r.Ok? ==> r.value == url(name)
  {
    if name == "" then Err(ValueError(NoFileMessage)) else Ok(url(name))
  }

  /** `ad.photos.all()`. */
  function PhotosOf(photos: seq<AdPhoto>, ad: Id): (r: seq<AdPhoto>)
    ensures forall p :: p in r <==> p in photos && p.adId == ad
  {
    Filter(photos, (p: AdPhoto) => p.adId == ad)
  }

  /** `.first()` on an unordered query set: the row of least primary key. */
  function First(photos: seq<AdPhoto>): (r: Option<AdPhoto>)
    ensures r.None? <==> |photos| == 0
    ensures r.Some? ==> r.value in photos && forall p :: p in photos ==> r.value.id <= p.id
  {
    if |photos| == 0 then None else Some(MinBy(photos, (p: AdPhoto) => p.id))
  }

  function MainPhotos(photos: seq<AdPhoto>): (r: seq<AdPhoto>)
    ensures forall p :: p in r <==> p in photos && p.isMain
  {
    Filter(photos, (p: AdPhoto) => p.isMain)
  }

  /** The photos `get_photo` picks from: the Ad's main photos when `mainOnly`,
      else all of its photos. */
  function Candidates(photos: seq<AdPhoto>, ad: Id, mainOnly: bool): (r: seq<AdPhoto>)
    ensures forall p :: p in r <==> p in photos && p.adId == ad && (mainOnly ==> p.isMain)
  {
    var own := PhotosOf(photos, ad);
    if mainOnly then MainPhotos(own) else own
  }

  /** `PhotoMixin.get_photo(obj, main_only)`: the URL of the Ad's first main photo
      when `mainOnly` (no fallback to other photos), else of its first photo;
      `None` when there is no such photo. Asking a photo without a file for its
      URL raises, and nothing catches it. */
  function GetPhoto(photos: seq<AdPhoto>, ad: Id, mainOnly: bool, url: string -> string): (r: Result<Option<string>>)
    ensures r == Ok(None) <==> forall p :: p in photos && p.adId == ad ==> (mainOnly && !p.isMain)
    ensures r.Ok? && r.value.Some? ==>
      exists p :: (p in photos && p.adId == ad && (mainOnly ==> p.isMain)
        && p.image != "" && r.value.value == url(p.image)
        && forall q :: q in photos && q.adId == ad && (mainOnly ==> q.isMain) ==> p.id <= q.id)
    ensures var first := First(Candidates(photos, ad, mainOnly));
      && (r.Err? <==> first.Some? && first.value.image == "")
      && (r.Ok? && r.value.Some? ==> first.Some? && r.value.value == url(first.value.image))
    ensures r.Err? ==> r.error == ValueError(NoFileMessage)
  {
    match First(Candidates(photos, ad, mainOnly))
    case None => Ok(None)
    case Some(p) =>
      match FileUrl(p.image, url)
      case Err(e) => Err(e)
      case Ok(u) => Ok(Some(u))
  }

  /** With `main_only`, an Ad whose photos are all non-main has no photo, however
      many photos it has. */
  lemma MainOnlyHasNoFallback(photos: seq<AdPhoto>, ad: Id, url: string -> string)
    requires forall p :: p in photos && p.adId == ad ==> !p.isMain
    ensures GetPhoto(photos, ad, true, url) == Ok(None)
  {
  }

  // ---------------------------------------------------------------------------
  // IconMixin
  // ---------------------------------------------------------------------------

  /** What `get_icon` finds on its object: the photos, when the object has a
      `photos` relation (an Ad), and the icon file name, when it has an `icon`
      field (a category). */
  datatype IconObject = IconObject(photos: Option<seq<AdPhoto>>, icon: Option<string>)

  /** `obj.photos.filter(is_main=True).first() or obj.photos.first()`: the main
      photo of least key, else the photo of least key; nothing for an object
      without photos. */
  function ChosenPhoto(obj: IconObject): (r: Option<AdPhoto>)
    ensures r.None? <==> obj.photos.None? || |obj.photos.value| == 0
    ensures r.Some? && |MainPhotos(obj.photos.value)| > 0 ==> r == First(MainPhotos(obj.photos.value))
    ensures r.Some? && |MainPhotos(obj.photos.value)| == 0 ==> r == First(obj.photos.value)
  {
    if obj.photos.None? then None
    else
      var main := First(MainPhotos(obj.photos.value));
      if main.Some? then main
      else First(obj.photos.value)
  }

  /** `IconMixin.get_icon(obj)`: the first main photo, or failing that the first
      photo; if the chosen photo has no file, the object's icon; else nothing. */
  function GetIcon(obj: IconObject, url: string -> string): (r: Option<string>)
    ensures obj.photos.Some? && |MainPhotos(obj.photos.value)| > 0
      && First(MainPhotos(obj.photos.value)).value.image != ""
      ==> r == Some(url(First(MainPhotos(obj.photos.value)).value.image))
    ensures obj.photos.Some? && |MainPhotos(obj.photos.value)| == 0 && |obj.photos.value| > 0
      && First(obj.photos.value).value.image != ""
      ==> r == Some(url(First(obj.photos.value).value.image))
    ensures var c := ChosenPhoto(obj);
      (c.None? || c.value.image == "") && obj.icon.Some? && obj.icon.value != ""
      ==> r == Some(url(obj.icon.value))
    ensures var c := ChosenPhoto(obj);
      r.None? <==> (c.None? || c.value.image == "") && (obj.icon.None? || obj.icon.value == "")
    ensures r.None? ==> obj.icon.None? || obj.icon.value == ""
    ensures r.Some? ==>
      (|| (exists p :: p in obj.photos.GetOr([]) && p.image != "" && r.value == url(p.image))
       || (obj.icon.Some? && obj.icon.value != "" && r.value == url(obj.icon.value)))
  {
    var chosen := ChosenPhoto(obj);
    if chosen.Some? && chosen.value.image != "" then Some(url(chosen.value.image))
    else if obj.icon.Some? && obj.icon.value != "" then Some(url(obj.icon.value))
    else None
  }

  /** A main photo without a file hides the other photos: the icon is used, not
      the next photo. */
  lemma EmptyMainPhotoFallsToIcon(url: string -> string)
    ensures var photos := [AdPhoto(1, 9, "", true, 0), AdPhoto(2, 9, "b.png", false, 0)];
      GetIcon(IconObject(Some(photos), Some("c.svg")), url) == Some(url("c.svg"))
      && GetIcon(IconObject(Some(photos), None), url) == None
  {
    var photos := [AdPhoto(1, 9, "", true, 0), AdPhoto(2, 9, "b.png", false, 0)];
    assert MainPhotos(photos) == [photos[0]] by {
      assert MainPhotos(photos)[0] == photos[0];
    }
  }

  // ---------------------------------------------------------------------------
  // LocalizedNameDescriptionMixin
  // ---------------------------------------------------------------------------

  /** `getattr(obj, f"{field}_{lang}", getattr(obj, f"{field}_uz"))`: the column of
      the language when it exists, even when it is empty; the Uzbek column only
      when the language has no column. */
  function Localized(t: Translations, lang: string): (r: string)
    ensures lang == "uz" ==> r == t.uz
    ensures lang != "uz" && lang in t.other ==> r == t.other[lang]
    ensures lang != "uz" && lang !in t.other ==> r == t.uz
  {
    Column(t, lang).GetOr(t.uz)
  }

  /** The fallback is to a missing column, not to an empty value. */
  lemma EmptyColumnIsNotReplaced(uz: string)
    requires uz != ""
    ensures Localized(Translations(uz, map["ru" := ""]), "ru") == ""
    ensures Localized(Translations(uz, map[]), "ru") == uz
  {
  }
}

=== FILE: ordering.dfy ===
/** Sequence helpers for query sets: filtering that keeps table order, the row
    with the smallest primary key (what `.first()` returns on an unordered query
    set), and a stable sort on lexicographic integer keys (what `.order_by(...)`
    returns). A descending field contributes its negated value to the key. */
module Ordering {

  // ---------------------------------------------------------------------------
  // filter()
  // ---------------------------------------------------------------------------

  /** The rows satisfying `p`, in their original order. */
  function Filter<T(!new)>(xs: seq<T>, p: T -> bool): (r: seq<T>)
    ensures |r| <= |xs|
    ensures forall x :: x in r <==> x in xs && p(x)
    ensures forall k :: 0 <= k < |r| ==> p(r[k])
    ensures multiset(r) <= multiset(xs)
  {
    if |xs| == 0 then []
    else
      var rest := Filter(xs[1..], p);
      assert xs == [xs[0]] + xs[1..];
      if p(xs[0]) then [xs[0]] + rest else rest
  }

  /** Filtering twice is filtering once by both conditions. */
  lemma {:induction false} FilterFilter<T(!new)>(xs: seq<T>, p: T -> bool, q: T -> bool)
    ensures Filter(Filter(xs, p), q) == Filter(xs, x => p(x) && q(x))
  {
    if |xs| > 0 {
      FilterFilter(xs[1..], p, q);
      var rest := Filter(xs[1..], p);
      if p(xs[0]) {
        assert ([xs[0]] + rest)[1..] == rest;
      }
    }
  }

  /** Filtering a concatenation filters each part. */
  lemma {:induction false} FilterConcat<T(!new)>(xs: seq<T>, ys: seq<T>, p: T -> bool)
    ensures Filter(xs + ys, p) == Filter(xs, p) + Filter(ys, p)
  {
    var zs := xs + ys;
    if |xs| > 0 {
      assert zs[0] == xs[0];
      assert zs[1..] == xs[1..] + ys;
      FilterConcat(xs[1..], ys, p);
      var tail := Filter(xs[1..], p);
      if p(xs[0]) {
        assert Filter(zs, p) == [xs[0]] + (tail + Filter(ys, p));
        assert Filter(xs, p) == [xs[0]] + tail;
      } else {
        assert Filter(zs, p) == tail + Filter(ys, p);
        assert Filter(xs, p) == tail;
      }
    } else {
      assert zs == ys;
    }
  }

  /** What `f` gives for each element, concatenated in the elements' order. */
  function Collect<T, U>(xs: seq<T>, f: T -> seq<U>): seq<U>
    decreases |xs|
  {
    if |xs| == 0 then [] else f(xs[0]) + Collect(xs[1..], f)
  }

  /** Collecting over a concatenation collects over each part, in order. */
  lemma {:induction false} CollectConcat<T, U>(xs: seq<T>, ys: seq<T>, f: T -> seq<U>)
    ensures Collect(xs + ys, f) == Collect(xs, f) + Collect(ys, f)
    decreases |xs|
  {
    var zs := xs + ys;
    if |xs| == 0 {
      assert zs == ys;
    } else {
      CollectConcat(xs[1..], ys, f);
      assert zs[0] == xs[0];
      assert zs[1..] == xs[1..] + ys;
    }
  }

  /** An element of the result comes from some element, and every piece an
      element gives is in the result. */
  lemma {:induction false} CollectMembers<T, U>(xs: seq<T>, f: T -> seq<U>)
    ensures forall u :: u in Collect(xs, f) ==> exists k :: 0 <= k < |xs| && u in f(xs[k])
    ensures forall u, k :: 0 <= k < |xs| && u in f(xs[k]) ==> u in Collect(xs, f)
    decreases |xs|
  {
    if |xs| > 0 {
      CollectMembers(xs[1..], f);
      forall u | u in Collect(xs, f) ensures exists k :: 0 <= k < |xs| && u in f(xs[k]) {
        if u !in f(xs[0]) {
          var rest := xs[1..];
          assert u in Collect(rest, f);
          var k :| 0 <= k < |rest| && u in f(rest[k]);
          assert rest[k] == xs[k + 1];
        }
      }
      forall u, k | 0 <= k < |xs| && u in f(xs[k]) ensures u in Collect(xs, f) {
        if k > 0 {
          assert xs[k] == xs[1..][k - 1];
        }
      }
    }
  }

  /** When every element gives at most one piece, the result is no longer than
      the input. */
  lemma {:induction false} CollectShort<T, U>(xs: seq<T>, f: T -> seq<U>)
    requires forall k :: 0 <= k < |xs| ==> |f(xs[k])| <= 1
    ensures |Collect(xs, f)| <= |xs|
    decreases |xs|
  {
    if |xs| > 0 {
      assert forall k :: 1 <= k < |xs| ==> xs[k] == xs[1..][k - 1];
      CollectShort(xs[1..], f);
    }
  }

  /** Filtering rows that all pass keeps them all. */
  lemma {:induction false} FilterAll<T(!new)>(xs: seq<T>, p: T -> bool)
    requires forall k :: 0 <= k < |xs| ==> p(xs[k])
    ensures Filter(xs, p) == xs
  {
    if |xs| > 0 {
      FilterAll(xs[1..], p);
      assert [xs[0]] + xs[1..] == xs;
    }
  }

  /** How many rows satisfy `p`. */
  function Count<T(!new)>(xs: seq<T>, p: T -> bool): (n: nat)
    ensures n == |Filter(xs, p)|
    ensures n == 0 <==> forall x :: x in xs ==> !p(x)
  {
    if |xs| == 0 then 0
    else (if p(xs[0]) then 1 else 0) + Count(xs[1..], p)
  }

  /** No row occurs twice. */
  predicate Distinct<T(==)>(xs: seq<T>) {
    forall i, j :: 0 <= i < j < |xs| ==> xs[i] != xs[j]
  }

  /** A row in front of distinct rows it is not among keeps them distinct. */
  lemma DistinctCons<T>(x: T, ys: seq<T>)
    ensures Distinct([x] + ys) <==> x !in ys && Distinct(ys)
  {
    var r := [x] + ys;
    if x !in ys && Distinct(ys) {
      forall i, j | 0 <= i < j < |r| ensures r[i] != r[j] {
        assert r[j] == ys[j - 1];
        if i > 0 { assert r[i] == ys[i - 1]; }
      }
    }
    if Distinct(r) {
      forall i, j | 0 <= i < j < |ys| ensures ys[i] != ys[j] {
        assert ys[i] == r[i + 1] && ys[j] == r[j + 1];
      }
      forall j | 0 <= j < |ys| ensures ys[j] != x {
        assert r[0] == x && ys[j] == r[j + 1];
      }
    }
  }

  lemma {:induction false} FilterDistinct<T(!new)>(xs: seq<T>, p: T -> bool)
    requires Distinct(xs)
    ensures Distinct(Filter(xs, p))
  {
    if |xs| > 0 {
      assert xs == [xs[0]] + xs[1..];
      DistinctCons(xs[0], xs[1..]);
      FilterDistinct(xs[1..], p);
      if p(xs[0]) {
        DistinctCons(xs[0], Filter(xs[1..], p));
      }
    }
  }

  /** Two different positions of a distinct filtered sequence hold two different
      rows that both pass the filter. */
  lemma TwoInFilter<T(!new)>(xs: seq<T>, p: T -> bool)
    requires Distinct(xs) && Count(xs, p) >= 2
    ensures exists x, y :: x in xs && y in xs && x != y && p(x) && p(y)
  {
    FilterDistinct(xs, p);
    var r := Filter(xs, p);
    assert r[0] in r && r[1] in r && r[0] != r[1];
  }

  // ---------------------------------------------------------------------------
  // first() by primary key
  // ---------------------------------------------------------------------------

  /** The row of least key; on ties, the earliest one. */
  function MinBy<T(!new)>(xs: seq<T>, id: T -> int): (r: T)
    requires |xs| > 0
    ensures r in xs
    ensures forall x :: x in xs ==> id(r) <= id(x)
  {
    if |xs| == 1 then xs[0]
    else
      var m := MinBy(xs[1..], id);
      assert xs == [xs[0]] + xs[1..];
      if id(xs[0]) <= id(m) then xs[0] else m
  }

  // ---------------------------------------------------------------------------
  // order_by() on integer keys
  // ---------------------------------------------------------------------------

  /** Lexicographic order on keys; a proper prefix comes first. */
  predicate LexLe(a: seq<int>, b: seq<int>)
    decreases |a|
  {
    if |a| == 0 then true
    else if |b| == 0 then false
    else if a[0] != b[0] then a[0] < b[0]
    else LexLe(a[1..], b[1..])
  }

  lemma {:induction false} LexLeTotal(a: seq<int>, b: seq<int>)
    ensures LexLe(a, b) || LexLe(b, a)
    decreases |a|
  {
    if |a| > 0 && |b| > 0 && a[0] == b[0] {
      LexLeTotal(a[1..], b[1..]);
    }
  }

  lemma {:induction false} LexLeTransitive(a: seq<int>, b: seq<int>, c: seq<int>)
    requires LexLe(a, b) && LexLe(b, c)
    ensures LexLe(a, c)
    decreases |a|
  {
    if |a| > 0 && |b| > 0 && |c| > 0 && a[0] == b[0] && b[0] == c[0] {
      LexLeTransitive(a[1..], b[1..], c[1..]);
    }
  }

  ghost predicate SortedBy<T>(xs: seq<T>, key: T -> seq<int>) {
    forall i, j :: 0 <= i < j < |xs| ==> LexLe(key(xs[i]), key(xs[j]))
  }

  /** Puts `x` in front of the first row it does not follow. */
  function Insert<T>(x: T, xs: seq<T>, key: T -> seq<int>): (r: seq<T>)
    ensures multiset(r) == multiset(xs) + multiset{x}
    ensures |r| == |xs| + 1
  {
    if |xs| == 0 then [x]
    else if LexLe(key(x), key(xs[0])) then [x] + xs
    else
      assert xs == [xs[0]] + xs[1..];
      [xs[0]] + Insert(x, xs[1..], key)
  }

  lemma {:induction false} InsertSorted<T>(x: T, xs: seq<T>, key: T -> seq<int>)
    requires SortedBy(xs, key)
    ensures SortedBy(Insert(x, xs, key), key)
    decreases |xs|
  {
    if |xs| == 0 {
    } else if LexLe(key(x), key(xs[0])) {
      var r := [x] + xs;
      forall i, j | 0 <= i < j < |r| ensures LexLe(key(r[i]), key(r[j])) {
        if i == 0 && j > 1 {
          LexLeTransitive(key(x), key(xs[0]), key(xs[j - 1]));
        }
      }
    } else {
      LexLeTotal(key(x), key(xs[0]));
      InsertSorted(x, xs[1..], key);
      var tail := Insert(x, xs[1..], key);
      var r := [xs[0]] + tail;
      forall j | 0 <= j < |tail| ensures LexLe(key(xs[0]), key(tail[j])) {
        assert tail[j] in multiset(xs[1..]) + multiset{x};
        if tail[j] != x {
          assert tail[j] in xs[1..];
          var m :| 0 <= m < |xs[1..]| && xs[1..][m] == tail[j];
          assert xs[m + 1] == tail[j];
        }
      }
      forall i, j | 0 <= i < j < |r| ensures LexLe(key(r[i]), key(r[j])) {
        if i > 0 {
          assert r[i] == tail[i - 1] && r[j] == tail[j - 1];
        }
      }
    }
  }

  /** Insertion sort: a permutation of `xs`, ordered by `key`. */
  function SortBy<T>(xs: seq<T>, key: T -> seq<int>): (r: seq<T>)
    ensures multiset(r) == multiset(xs)
    ensures |r| == |xs|
    ensures SortedBy(r, key)
  {
    if |xs| == 0 then []
    else
      var rest := SortBy(xs[1..], key);
      InsertSorted(xs[0], rest, key);
      assert multiset(xs) == multiset(xs[1..]) + multiset{xs[0]} by {
        assert xs == [xs[0]] + xs[1..];
      }
      Insert(xs[0], rest, key)
  }

  /** Sorting keeps exactly the rows it was given. */
  lemma SortByMembers<T(!new)>(xs: seq<T>, key: T -> seq<int>)
    ensures forall x :: x in SortBy(xs, key) <==> x in xs
  {
    var r := SortBy(xs, key);
    forall x ensures x in r <==> x in xs {
      assert x in r <==> x in multiset(r);
      assert x in xs <==> x in multiset(xs);
    }
  }
}

=== FILE: results.dfy ===
/** Error kinds and the Option/Result wrappers shared by every module.
    The error constructors mirror the exceptions the application raises or lets
    escape: DRF `ValidationError`, a lookup that finds no row (`DoesNotExist`,
    `Http404`), a lookup that finds several (`MultipleObjectsReturned`), a database
    constraint violation (`IntegrityError`), a query on a field the model does not
    have (`FieldError`), Python's `ValueError` and `AttributeError`. */
module Results {

  datatype Option<+T> = None | Some(value: T) {
    function GetOr(default: T): T {
      match this
      case Some(v) => v
      case None => default
    }
  }

  datatype Error =
    | ValidationError(message: string)
    | NotFound
    | MultipleObjectsReturned
    | IntegrityError(constraint: string)
    | ValueError(message: string)
    | AttributeError(name: string)
    | FieldError(name: string)

  datatype Result<+T> = Ok(value: T) | Err(error: Error)

  /** Python truthiness of an optional string: present and non-empty. */
  predicate Truthy(s: Option<string>) {
    s.Some? && s.value != ""
  }
}

=== FILE: searches.dfy ===
/** Saved searches (`MySearch`): created under the requesting user, listed and
    deleted only by that user, listed newest first.

    The `MySearch` model is not part of this model; its fields are the ones the
    serializers name (`category`, `search_query`, `price_min`, `price_max`,
    `region`, `created_at`) and the `user` the views key on. The related keys
    the create serializer checks are checked here; the checks a model field
    would make on the other values are left to that model. */
module Searches {
  import opened Results
  import opened Ordering
  import opened StoreModels

  datatype MySearch = MySearch(
    id: Id,
    user: Id,
    category: Option<Id>,
    searchQuery: string,
    priceMin: Option<int>,
    priceMax: Option<int>,
    region: Option<Id>,
    createdAt: int)

  /** The saved searches in insertion order, and the next primary key. */
  datatype SearchTable = SearchTable(rows: seq<MySearch>, nextId: Id)

  /** Primary keys are unique and below the counter. */
  ghost predicate Valid(t: SearchTable) {
    && Distinct(t.rows)
    && (forall s, u :: s in t.rows && u in t.rows && s.id == u.id ==> s == u)
    && (forall s :: s in t.rows ==> s.id < t.nextId)
  }

  /** What the create serializer accepts. */
  datatype SearchDraft = SearchDraft(
    category: Option<Id>,
    searchQuery: string,
    priceMin: Option<int>,
    priceMax: Option<int>,
    region: Option<Id>)

  /** The create serializer's related-key checks: `category` must name a
      category and `region_id` a region, when sent. `regions` are the keys of
      the region table. */
  function SearchDraftError(categories: seq<Category>, regions: set<Id>, d: SearchDraft): (r: Option<string>)
    ensures r.None? <==>
      (d.category.Some? ==> HasCategory(categories, d.category.value))
      && (d.region.Some? ==> d.region.value in regions)
    ensures d.category.Some? && !HasCategory(categories, d.category.value) ==>
      r == Some(InvalidPk(d.category.value))
    ensures (d.category.None? || HasCategory(categories, d.category.value))
      && d.region.Some? && d.region.value !in regions
      ==> r == Some(InvalidPk(d.region.value))
  {
    if d.category.Some? && !HasCategory(categories, d.category.value) then Some(InvalidPk(d.category.value))
    else if d.region.Some? && d.region.value !in regions then Some(InvalidPk(d.region.value))
    else None
  }

  /** `MySearchCreateView`: the draft is validated, then the row is saved under
      the requester. */
  function CreateSearch(t: SearchTable, categories: seq<Category>, regions: set<Id>,
                        user: Id, d: SearchDraft, now: int): (r: Result<(SearchTable, MySearch)>)
    ensures r.Err? <==>
      (d.category.Some? && !HasCategory(categories, d.category.value))
      || (d.region.Some? && d.region.value !in regions)
    ensures r.Err? ==> r.error.ValidationError?
    ensures r.Ok? ==> r.value.1.user == user && r.value.1.id == t.nextId && r.value.1.createdAt == now
    ensures r.Ok? ==> r.value.1.searchQuery == d.searchQuery
    ensures r.Ok? ==> r.value.1.category == d.category && r.value.1.region == d.region
    ensures r.Ok? ==> r.value.1.priceMin == d.priceMin && r.value.1.priceMax == d.priceMax
    ensures r.Ok? ==> forall s :: s in r.value.0.rows <==> s in t.rows || s == r.value.1
    ensures r.Ok? ==> r.value.0.nextId > t.nextId
  {
    match SearchDraftError(categories, regions, d)
    case Some(msg) => Err(ValidationError(msg))
    case None =>
      var row := MySearch(t.nextId, user, d.category, d.searchQuery, d.priceMin, d.priceMax, d.region, now);
      Ok((SearchTable(t.rows + [row], t.nextId + 1), row))
  }

  lemma CreateSearchValid(t: SearchTable, categories: seq<Category>, regions: set<Id>,
                          user: Id, d: SearchDraft, now: int)
    requires Valid(t)
    requires CreateSearch(t, categories, regions, user, d, now).Ok?
    ensures Valid(CreateSearch(t, categories, regions, user, d, now).value.0)
  {
    var (t', row) := CreateSearch(t, categories, regions, user, d, now).value;
    assert row !in t.rows;
    forall i, j | 0 <= i < j < |t'.rows| ensures t'.rows[i] != t'.rows[j] {
      if j == |t.rows| { assert t'.rows[i] in t.rows; }
    }
  }

  /** `MySearch.objects.filter(user=user).order_by("-created_at")`. */
  function ListSearches(t: SearchTable, user: Id): (r: seq<MySearch>)
    ensures forall s :: s in r <==> s in t.rows && s.user == user
    ensures forall i, j :: 0 <= i < j < |r| ==> r[i].createdAt >= r[j].createdAt
  {
    var own := Filter(t.rows, (s: MySearch) => s.user == user);
    var r := SortBy(own, (s: MySearch) => [-s.createdAt]);
    SortByMembers(own, (s: MySearch) => [-s.createdAt]);
    assert forall i, j :: 0 <= i < j < |r| ==> LexLe([-r[i].createdAt], [-r[j].createdAt]);
    r
  }

  /** A saved search shows up in its owner's list and in nobody else's. */
  lemma CreatedSearchListedForOwnerOnly(t: SearchTable, categories: seq<Category>, regions: set<Id>,
                                        user: Id, other: Id, d: SearchDraft, now: int)
    requires other != user
    requires CreateSearch(t, categories, regions, user, d, now).Ok?
    ensures var (t', row) := CreateSearch(t, categories, regions, user, d, now).value;
      row in ListSearches(t', user) && row !in ListSearches(t', other)
  {
  }

  /** `MySearch.objects.filter(user=user).get(pk=pk)`. */
  function GetOwnSearch(t: SearchTable, user: Id, pk: Id): (r: Result<MySearch>)
    ensures r.Ok? ==> r.value in t.rows && r.value.user == user && r.value.id == pk
    ensures r == Err(NotFound) <==> forall s :: s in t.rows ==> !(s.user == user && s.id == pk)
    ensures r.Err? ==> r.error == NotFound || r.error == MultipleObjectsReturned
  {
    var m := Filter(t.rows, (s: MySearch) => s.user == user && s.id == pk);
    if |m| == 0 then Err(NotFound)
    else if |m| == 1 then
      assert m[0] in m;
      Ok(m[0])
    else Err(MultipleObjectsReturned)
  }

  /** `MySearchDeleteView`: the requester's saved search `pk` is removed;
      anybody else's is `NotFound`. */
  function DeleteSearch(t: SearchTable, user: Id, pk: Id): (r: Result<SearchTable>)
    ensures GetOwnSearch(t, user, pk).Err? ==> r == Err(GetOwnSearch(t, user, pk).error)
    ensures r.Ok? ==> GetOwnSearch(t, user, pk).Ok?
    ensures r.Ok? ==> forall s :: s in r.value.rows <==> s in t.rows && s.id != pk
    ensures r.Ok? ==> r.value.nextId == t.nextId
  {
    match GetOwnSearch(t, user, pk)
    case Err(e) => Err(e)
    case Ok(found) => Ok(t.(rows := Filter(t.rows, (s: MySearch) => s.id != found.id)))
  }

  /** Deleting keeps the table valid, never touches another user's searches,
      and the deleted search is gone from the owner's list. */
  lemma DeleteSearchScoped(t: SearchTable, user: Id, pk: Id)
    requires Valid(t)
    ensures var r := DeleteSearch(t, user, pk);
      r.Ok? ==>
        && Valid(r.value)
        && (forall s :: s in t.rows && s.user != user ==> s in r.value.rows)
        && (forall s :: s in ListSearches(r.value, user) ==> s.id != pk)
  {
    var r := DeleteSearch(t, user, pk);
    if r.Ok? {
      FilterDistinct(t.rows, (s: MySearch) => s.id != pk);
      var found := GetOwnSearch(t, user, pk).value;
      forall s | s in t.rows && s.user != user ensures s in r.value.rows {
        assert s != found;
      }
    }
  }

  /** Another user's delete finds nothing and changes nothing. */
  lemma DeleteByOtherIsNotFound(t: SearchTable, s: MySearch, other: Id)
    requires Valid(t) && s in t.rows && s.user != other
    ensures DeleteSearch(t, other, s.id) == Err(NotFound)
  {
  }
}

=== FILE: store_models.dfy ===
/** The store's tables and the rules the models themselves enforce: the slug an Ad
    gets when it is saved with none, the schema constraints (unique slug, one
    favourite per user and product among rows with a user, one per device and
    product among rows with a device id, every foreign key pointing at an existing
    row) and the cascades that deleting an Ad or a Category triggers.

    `status` on Ad, `is_main` on AdPhoto and the region and district of an Address
    are plain fields here: the code reads them but their declarations are not part
    of this model. */
module StoreModels {
  import opened Results
  import opened Ordering
  import opened Text

  type Id = nat

  /** A translated text field: the `<field>_uz` column always exists, and `other`
      holds the columns of the remaining languages. A null column is "". */
  datatype Translations = Translations(uz: string, other: map<string, string>)

  /** `getattr(obj, f"{field}_{lang}")`, or `None` when there is no such column. */
  function Column(t: Translations, lang: string): (r: Option<string>)
    ensures lang == "uz" ==> r == Some(t.uz)
    ensures lang != "uz" ==> (r.Some? <==> lang in t.other)
    ensures lang != "uz" && lang in t.other ==> r == Some(t.other[lang])
  {
    if lang == "uz" then Some(t.uz)
    else if lang in t.other then Some(t.other[lang])
    else None
  }

  /** A category; `icon` is the stored file name, "" when no file is attached. */
  datatype Category = Category(id: Id, parent: Option<Id>, name: string, icon: string)

  datatype Address = Address(id: Id, name: string, regionId: Option<Id>, districtId: Option<Id>)

  datatype Ad = Ad(
    id: Id,
    name: string,
    nameTr: Translations,
    description: string,
    descriptionTr: Translations,
    slug: string,
    price: nat,
    categoryId: Id,
    sellerId: Id,
    addressId: Id,
    publishedAt: int,
    updatedTime: int,
    isPublished: bool,
    viewCount: nat,
    status: string)

  /** A photo; `image` is the stored file name, "" when empty. */
  /** A photo of an Ad; `createdAt` is the time the row was stored. */
  datatype AdPhoto = AdPhoto(id: Id, adId: Id, image: string, isMain: bool, createdAt: int)

  datatype Favourite = Favourite(
    id: Id,
    user: Option<Id>,
    deviceId: Option<string>,
    product: Id,
    createdAt: int)

  /** The database. Every table is kept in insertion order; `nextId` is the next
      primary key to hand out. */
  datatype Db = Db(
    categories: seq<Category>,
    addresses: seq<Address>,
    ads: seq<Ad>,
    photos: seq<AdPhoto>,
    favourites: seq<Favourite>,
    nextId: Id)

  // ---------------------------------------------------------------------------
  // Field messages
  // ---------------------------------------------------------------------------

  /** DRF's refusal of a text value holding a NUL character. */
  const NullCharacters := "Null characters are not allowed."

  const PkPrefix := "Invalid pk \""
  const PkSuffix := "\" - object does not exist."

  /** DRF's refusal of a primary key that names no row, the key written in decimal. */
  function InvalidPk(pk: Id): string {
    PkPrefix + NatToString(pk) + PkSuffix
  }

  /** The message names the key: two keys give the same message only when they
      are the same key. */
  lemma {:induction false} InvalidPkNamesKey(a: Id, b: Id)
    ensures InvalidPk(a) == InvalidPk(b) <==> a == b
  {
    if InvalidPk(a) == InvalidPk(b) {
      var m := InvalidPk(a);
      assert NatToString(a) == m[|PkPrefix|..|m| - |PkSuffix|];
      assert NatToString(b) == m[|PkPrefix|..|m| - |PkSuffix|];
      ParseNatToString(a);
      ParseNatToString(b);
    }
  }

  // ---------------------------------------------------------------------------
  // Ad.save()
  // ---------------------------------------------------------------------------

  /** `str()` of a nullable text column, as `slugify` receives it: null is "None". */
  function NullableText(v: Option<string>): string {
    if v.Some? then v.value else "None"
  }

  /** The slug `Ad.save` stores: an empty slug is derived from `name_uz`, any
      other slug is kept. */
  function SlugOnSave(slug: string, nameUz: string, slugify: string -> string): string {
    if slug == "" then slugify(nameUz) else slug
  }

  /** A slug that is already set survives every later save, and saving twice is
      the same as saving once. */
  lemma SlugOnSaveKeepsExisting(slug: string, nameUz: string, nameUz': string, slugify: string -> string)
    ensures slug != "" ==> SlugOnSave(slug, nameUz', slugify) == slug
    ensures slug == "" ==> SlugOnSave(slug, nameUz, slugify) == slugify(nameUz)
    ensures SlugOnSave(SlugOnSave(slug, nameUz, slugify), nameUz, slugify)
      == SlugOnSave(slug, nameUz, slugify)
  {
  }

  // ---------------------------------------------------------------------------
  // Schema constraints
  // ---------------------------------------------------------------------------

  /** `unique_user_product`: among rows with a user, one row per user and product. */
  ghost predicate UniqueUserProduct(favs: seq<Favourite>) {
    forall f, g :: f in favs && g in favs && f.user.Some? && f.user == g.user
      && f.product == g.product
      ==> f == g
  }

  /** `unique_device_product`: among rows with a device id, one row per device id
      and product. */
  ghost predicate UniqueDeviceProduct(favs: seq<Favourite>) {
    forall f, g :: f in favs && g in favs && f.deviceId.Some? && f.deviceId == g.deviceId
      && f.product == g.product
      ==> f == g
  }

  /** The favourites' primary keys are unique. */
  ghost predicate UniqueFavouriteIds(favs: seq<Favourite>) {
    forall f, g :: f in favs && g in favs && f.id == g.id ==> f == g
  }

  ghost predicate UniqueSlugs(ads: seq<Ad>) {
    forall a, b :: a in ads && b in ads && a.slug == b.slug ==> a == b
  }

  ghost predicate UniqueAdIds(ads: seq<Ad>) {
    forall a, b :: a in ads && b in ads && a.id == b.id ==> a == b
  }

  predicate HasAd(ads: seq<Ad>, id: Id) {
    exists a :: a in ads && a.id == id
  }

  predicate HasCategory(cats: seq<Category>, id: Id) {
    exists c :: c in cats && c.id == id
  }

  predicate HasAddress(addresses: seq<Address>, id: Id) {
    exists a :: a in addresses && a.id == id
  }

  /** Every foreign key points at an existing row. */
  ghost predicate References(db: Db) {
    && (forall c :: c in db.categories && c.parent.Some? ==> HasCategory(db.categories, c.parent.value))
    && (forall a :: a in db.ads ==> HasCategory(db.categories, a.categoryId))
    && (forall a :: a in db.ads ==> HasAddress(db.addresses, a.addressId))
    && (forall p :: p in db.photos ==> HasAd(db.ads, p.adId))
    && (forall f :: f in db.favourites ==> HasAd(db.ads, f.product))
  }

  /** Every primary key handed out so far is below `nextId`. */
  ghost predicate Fresh(db: Db) {
    && (forall c :: c in db.categories ==> c.id < db.nextId)
    && (forall a :: a in db.ads ==> a.id < db.nextId)
    && (forall p :: p in db.photos ==> p.id < db.nextId)
    && (forall f :: f in db.favourites ==> f.id < db.nextId)
  }

  /** What the database guarantees of every state it is in. */
  ghost predicate Valid(db: Db) {
    && Distinct(db.ads)
    && UniqueAdIds(db.ads)
    && UniqueSlugs(db.ads)
    && Distinct(db.favourites)
    && UniqueFavouriteIds(db.favourites)
    && UniqueUserProduct(db.favourites)
    && UniqueDeviceProduct(db.favourites)
    && References(db)
    && Fresh(db)
  }

  /** The schema itself lets a row carry both a user and a device id, or
      neither: the constraints only compare rows whose key is non-null. */
  lemma SchemaAllowsNullActors()
    ensures var orphan := Favourite(0, None, None, 7, 0);
      UniqueUserProduct([orphan, orphan.(id := 1)])
      && UniqueDeviceProduct([orphan, orphan.(id := 1)])
  {
  }

  // ---------------------------------------------------------------------------
  // Cascades
  // ---------------------------------------------------------------------------

  /** Deleting an Ad deletes its photos and its favourite rows (both foreign keys
      are `CASCADE`); nothing else changes. */
  function DeleteAdCascade(db: Db, adId: Id): (r: Db)
    ensures r.categories == db.categories && r.addresses == db.addresses && r.nextId == db.nextId
    ensures forall a :: a in r.ads <==> a in db.ads && a.id != adId
    ensures forall p :: p in r.photos <==> p in db.photos && p.adId != adId
    ensures forall f :: f in r.favourites <==> f in db.favourites && f.product != adId
  {
    db.(ads := Filter(db.ads, (a: Ad) => a.id != adId),
        photos := Filter(db.photos, (p: AdPhoto) => p.adId != adId),
        favourites := Filter(db.favourites, (f: Favourite) => f.product != adId))
  }

  lemma DeleteAdCascadeValid(db: Db, adId: Id)
    requires Valid(db)
    ensures Valid(DeleteAdCascade(db, adId))
  {
    var r := DeleteAdCascade(db, adId);
    FilterDistinct(db.ads, (a: Ad) => a.id != adId);
    FilterDistinct(db.favourites, (f: Favourite) => f.product != adId);
    forall p | p in r.photos ensures HasAd(r.ads, p.adId) {
      var a :| a in db.ads && a.id == p.adId;
      assert a in r.ads;
    }
    forall f | f in r.favourites ensures HasAd(r.ads, f.product) {
      var a :| a in db.ads && a.id == f.product;
      assert a in r.ads;
    }
  }

  /** The ids of a table of categories. */
  function CategoryIds(cats: seq<Category>): (r: set<Id>)
    ensures forall c :: c in cats ==> c.id in r
    ensures |r| <= |cats|
  {
    if |cats| == 0 then {}
    else
      var rest := CategoryIds(cats[1..]);
      assert cats == [cats[0]] + cats[1..];
      assert |{cats[0].id} + rest| <= 1 + |rest|;
      {cats[0].id} + rest
  }

  /** The categories whose parent is in `ids`. */
  function ChildrenOf(cats: seq<Category>, ids: set<Id>): set<Id> {
    if |cats| == 0 then {}
    else
      var c := cats[0];
      (if c.parent.Some? && c.parent.value in ids then {c.id} else {}) + ChildrenOf(cats[1..], ids)
  }

  /** Every category whose parent is in `ids` is in `ChildrenOf`. */
  lemma {:induction false} ChildrenOfComplete(cats: seq<Category>, ids: set<Id>)
    ensures forall c :: c in cats && c.parent.Some? && c.parent.value in ids ==> c.id in ChildrenOf(cats, ids)
  {
    if |cats| > 0 {
      ChildrenOfComplete(cats[1..], ids);
      assert cats == [cats[0]] + cats[1..];
    }
  }

  /** Every member of `ChildrenOf` is the id of a category whose parent is in `ids`. */
  lemma {:induction false} ChildrenOfSound(cats: seq<Category>, ids: set<Id>)
    ensures forall i :: i in ChildrenOf(cats, ids) ==>
      exists c :: c in cats && c.parent.Some? && c.parent.value in ids && c.id == i
  {
    if |cats| > 0 {
      ChildrenOfSound(cats[1..], ids);
      assert cats == [cats[0]] + cats[1..];
    }
  }

  /** A set of ids that contains the children of each of its members (by
      `ChildrenOfComplete`, every category whose parent is in the set is in it). */
  predicate ClosedUnderChildren(cats: seq<Category>, ids: set<Id>) {
    ChildrenOf(cats, ids) <= ids
  }

  /** Adds children until nothing new appears (or the fuel runs out). */
  function Closure(cats: seq<Category>, ids: set<Id>, fuel: nat): (r: set<Id>)
    ensures ids <= r
    decreases fuel
  {
    if ClosedUnderChildren(cats, ids) || fuel == 0 then ids
    else Closure(cats, ids + ChildrenOf(cats, ids), fuel - 1)
  }

  /** Growing a set inside a bound leaves less of the bound uncovered. */
  lemma ShrinkingRemainder(all: set<Id>, ids: set<Id>, next: set<Id>, x: Id)
    requires ids <= next && x in next && x !in ids && next - ids <= all
    ensures |all - next| < |all - ids|
  {
    var a, b := all - next, all - ids;
    assert a <= b;
    assert x in b - a;
    assert b == a + (b - a);
    assert a * (b - a) == {};
    assert |b - a| >= 1 by {
      assert b - a == ((b - a) - {x}) + {x};
    }
  }

  /** Children are categories, so they are among the table's ids. */
  lemma ChildrenWithinTable(cats: seq<Category>, ids: set<Id>)
    ensures ChildrenOf(cats, ids) <= CategoryIds(cats)
  {
    ChildrenOfSound(cats, ids);
    forall i | i in ChildrenOf(cats, ids) ensures i in CategoryIds(cats) {
      var c :| c in cats && c.parent.Some? && c.parent.value in ids && c.id == i;
    }
  }

  /** One step of a set that is not yet closed uncovers at least one more id of
      the table. */
  lemma StepShrinksRemainder(cats: seq<Category>, ids: set<Id>)
    requires !ClosedUnderChildren(cats, ids)
    ensures |CategoryIds(cats) - (ids + ChildrenOf(cats, ids))| < |CategoryIds(cats) - ids|
  {
    var x :| x in ChildrenOf(cats, ids) && x !in ids;
    ChildrenWithinTable(cats, ids);
    ShrinkingRemainder(CategoryIds(cats), ids, ids + ChildrenOf(cats, ids), x);
  }

  /** With enough fuel the closure is closed under children. */
  lemma {:induction false} ClosureClosed(cats: seq<Category>, ids: set<Id>, fuel: nat)
    requires fuel >= |CategoryIds(cats) - ids|
    ensures ClosedUnderChildren(cats, Closure(cats, ids, fuel))
    decreases fuel
  {
    if !ClosedUnderChildren(cats, ids) {
      StepShrinksRemainder(cats, ids);
      ClosureClosed(cats, ids + ChildrenOf(cats, ids), fuel - 1);
    }
  }

  /** The closure never leaves a closed set that contains its start. */
  lemma {:induction false} ClosureLeast(cats: seq<Category>, ids: set<Id>, fuel: nat, s: set<Id>)
    requires ids <= s && ClosedUnderChildren(cats, s)
    ensures Closure(cats, ids, fuel) <= s
    decreases fuel
  {
    var kids := ChildrenOf(cats, ids);
    var next := ids + kids;
    ChildrenOfSound(cats, ids);
    ChildrenOfComplete(cats, s);
    if !ClosedUnderChildren(cats, ids) && fuel > 0 {
      assert kids <= s by {
        forall i | i in kids ensures i in s {
          var c :| c in cats && c.parent.Some? && c.parent.value in ids && c.id == i;
        }
      }
      assert Closure(cats, ids, fuel) == Closure(cats, next, fuel - 1);
      ClosureLeast(cats, next, fuel - 1, s);
    } else {
      assert Closure(cats, ids, fuel) == ids;
    }
  }

  /** The category and all its descendants: what `parent` `CASCADE` deletes. */
  function Descendants(cats: seq<Category>, root: Id): set<Id> {
    Closure(cats, {root}, |cats| + 1)
  }

  /** The descendants are the least set that holds the root and is closed under
      children. */
  lemma DescendantsLeastClosed(cats: seq<Category>, root: Id)
    ensures root in Descendants(cats, root)
    ensures ClosedUnderChildren(cats, Descendants(cats, root))
    ensures forall s :: root in s && ClosedUnderChildren(cats, s) ==> Descendants(cats, root) <= s
  {
    assert |CategoryIds(cats) - {root}| <= |CategoryIds(cats)|;
    ClosureClosed(cats, {root}, |cats| + 1);
    forall s | root in s && ClosedUnderChildren(cats, s) ensures Descendants(cats, root) <= s {
      ClosureLeast(cats, {root}, |cats| + 1, s);
    }
  }

  /** The Ads deleted along with the categories in `gone`. */
  function AdsIn(ads: seq<Ad>, gone: set<Id>): set<Id> {
    set a | a in ads && a.categoryId in gone :: a.id
  }

  /** Deleting a category deletes its descendants, the Ads in any of them
      (`Ad.category` is `CASCADE`) and those Ads' photos and favourite rows. */
  function DeleteCategoryCascade(db: Db, categoryId: Id): (r: Db)
    ensures r.addresses == db.addresses && r.nextId == db.nextId
    ensures forall c :: c in r.categories <==>
      c in db.categories && c.id !in Descendants(db.categories, categoryId)
    ensures forall a :: a in r.ads <==>
      a in db.ads && a.categoryId !in Descendants(db.categories, categoryId)
    ensures forall p :: p in r.photos <==>
      p in db.photos && p.adId !in AdsIn(db.ads, Descendants(db.categories, categoryId))
    ensures forall f :: f in r.favourites <==>
      f in db.favourites && f.product !in AdsIn(db.ads, Descendants(db.categories, categoryId))
  {
    var gone := Descendants(db.categories, categoryId);
    var goneAds := AdsIn(db.ads, gone);
    db.(categories := Filter(db.categories, (c: Category) => c.id !in gone),
        ads := Filter(db.ads, (a: Ad) => a.categoryId !in gone),
        photos := Filter(db.photos, (p: AdPhoto) => p.adId !in goneAds),
        favourites := Filter(db.favourites, (f: Favourite) => f.product !in goneAds))
  }

  lemma DeleteCategoryCascadeValid(db: Db, categoryId: Id)
    requires Valid(db)
    ensures Valid(DeleteCategoryCascade(db, categoryId))
  {
    var gone := Descendants(db.categories, categoryId);
    var goneAds := AdsIn(db.ads, gone);
    var r := DeleteCategoryCascade(db, categoryId);
    DescendantsLeastClosed(db.categories, categoryId);
    ChildrenOfComplete(db.categories, gone);
    FilterDistinct(db.ads, (a: Ad) => a.categoryId !in gone);
    FilterDistinct(db.favourites, (f: Favourite) => f.product !in goneAds);
    forall c | c in r.categories && c.parent.Some?
      ensures HasCategory(r.categories, c.parent.value)
    {
      var p :| p in db.categories && p.id == c.parent.value;
      assert p.id !in gone;
      assert p in r.categories;
    }
    forall a | a in r.ads ensures HasCategory(r.categories, a.categoryId) {
      var c :| c in db.categories && c.id == a.categoryId;
      assert c in r.categories;
    }
    forall p | p in r.photos ensures HasAd(r.ads, p.adId) {
      var a :| a in db.ads && a.id == p.adId;
      assert a.categoryId !in gone;
      assert a in r.ads;
    }
    forall f | f in r.favourites ensures HasAd(r.ads, f.product) {
      var a :| a in db.ads && a.id == f.product;
      assert a.categoryId !in gone;
      assert a in r.ads;
    }
  }
}

=== FILE: text.dfy ===
/** The handful of Python `str` operations the application relies on, over ASCII
    text: `split(sep)`, `split()`, `strip()`, `lower()`, `isdigit()`, `int()` on a
    digit string and `str()` of a non-negative integer, plus the substring test of a
    case-insensitive `icontains` lookup. */
module Text {

  // ---------------------------------------------------------------------------
  // split(sep) and its inverse
  // ---------------------------------------------------------------------------

  /** Python `s.split(sep)` for a one-character separator: never empty, and the
      pieces are the maximal separator-free runs, empty ones included. */
  function Split(s: string, sep: char): (parts: seq<string>)
    ensures |parts| >= 1
    ensures forall k :: 0 <= k < |parts| ==> sep !in parts[k]
    decreases |s|
  {
    if |s| == 0 then [""]
    else if s[0] == sep then [""] + Split(s[1..], sep)
    else
      var rest := Split(s[1..], sep);
      [[s[0]] + rest[0]] + rest[1..]
  }

  /** `sep.join(parts)`. */
  function Join(parts: seq<string>, sep: char): string
    requires |parts| >= 1
    decreases |parts|
  {
    if |parts| == 1 then parts[0] else parts[0] + [sep] + Join(parts[1..], sep)
  }

  /** Joining the pieces of a split with the same separator gives the text back. */
  lemma {:induction false} JoinSplit(s: string, sep: char)
    ensures Join(Split(s, sep), sep) == s
    decreases |s|
  {
    if |s| == 0 {
    } else if s[0] == sep {
      JoinSplit(s[1..], sep);
      var rest := Split(s[1..], sep);
      assert Split(s, sep) == [""] + rest;
      assert ([""] + rest)[1..] == rest;
      assert s == [sep] + s[1..];
    } else {
      JoinSplit(s[1..], sep);
      var rest := Split(s[1..], sep);
      assert Split(s, sep) == [[s[0]] + rest[0]] + rest[1..];
      JoinConsHead(s[0], rest, sep);
      assert s == [s[0]] + s[1..];
    }
  }

  /** Putting a character in front of the first piece puts it in front of the
      joined text. */
  lemma JoinConsHead(c: char, parts: seq<string>, sep: char)
    requires |parts| >= 1
    ensures Join([[c] + parts[0]] + parts[1..], sep) == [c] + Join(parts, sep)
  {
    var q := [[c] + parts[0]] + parts[1..];
    if |parts| > 1 {
      assert q[1..] == parts[1..];
      assert Join(q, sep) == ([c] + parts[0]) + [sep] + Join(parts[1..], sep);
    }
  }

  /** Text without the separator splits into itself alone. */
  lemma {:induction false} SplitWithoutSeparator(s: string, sep: char)
    requires sep !in s
    ensures Split(s, sep) == [s]
    decreases |s|
  {
    if |s| > 0 {
      SplitWithoutSeparator(s[1..], sep);
      assert s == [s[0]] + s[1..];
    }
  }

  /** A leading separator-free piece followed by the separator splits off first. */
  lemma {:induction false} SplitAfterPiece(a: string, b: string, sep: char)
    requires sep !in a
    ensures Split(a + [sep] + b, sep) == [a] + Split(b, sep)
    decreases |a|
  {
    var s := a + [sep] + b;
    if |a| == 0 {
      assert s == [sep] + b;
      assert s[1..] == b;
    } else {
      SplitAfterPiece(a[1..], b, sep);
      assert s[1..] == a[1..] + [sep] + b;
      assert s[0] == a[0];
      assert [a[0]] + a[1..] == a;
    }
  }

  /** A trailing separator-free piece after the separator splits off last. */
  lemma {:induction false} SplitBeforePiece(a: string, b: string, sep: char)
    requires sep !in b
    ensures Split(a + [sep] + b, sep) == Split(a, sep) + [b]
    decreases |a|
  {
    var s := a + [sep] + b;
    if |a| == 0 {
      assert s == [sep] + b;
      assert s[1..] == b;
      SplitWithoutSeparator(b, sep);
    } else {
      SplitBeforePiece(a[1..], b, sep);
      assert s[1..] == a[1..] + [sep] + b;
      assert s[0] == a[0];
      if a[0] != sep {
        var rest := Split(a[1..], sep);
        assert (rest + [b])[0] == rest[0];
        assert (rest + [b])[1..] == rest[1..] + [b];
      }
    }
  }

  /** Splitting a join of separator-free pieces gives the pieces back. */
  lemma {:induction false} SplitJoin(parts: seq<string>, sep: char)
    requires |parts| >= 1
    requires forall k :: 0 <= k < |parts| ==> sep !in parts[k]
    ensures Split(Join(parts, sep), sep) == parts
    decreases |parts|
  {
    if |parts| == 1 {
      SplitWithoutSeparator(parts[0], sep);
    } else {
      SplitJoin(parts[1..], sep);
      SplitAfterPiece(parts[0], Join(parts[1..], sep), sep);
      assert [parts[0]] + parts[1..] == parts;
    }
  }

  /** A join of non-empty pieces starts with the first piece's first character
      and ends with the last piece's last character. */
  lemma {:induction false} JoinEnds(parts: seq<string>, sep: char)
    requires |parts| >= 1 && forall k :: 0 <= k < |parts| ==> |parts[k]| > 0
    ensures var s := Join(parts, sep); var last := parts[|parts| - 1];
      |s| > 0 && s[0] == parts[0][0] && s[|s| - 1] == last[|last| - 1]
    decreases |parts|
  {
    if |parts| > 1 {
      JoinEnds(parts[1..], sep);
    }
  }

  /** The last piece of `s.split(sep)`, i.e. `s.split(sep)[-1]`. */
  function LastSegment(s: string, sep: char): string {
    var parts := Split(s, sep);
    parts[|parts| - 1]
  }

  /** The text after a separator that is not followed by another one. */
  lemma LastSegmentAfter(a: string, b: string, sep: char)
    requires sep !in b
    ensures LastSegment(a + [sep] + b, sep) == b
  {
    SplitBeforePiece(a, b, sep);
  }

  /** The last piece is the suffix of `s` after its last separator: it holds no
      separator, and either it is all of `s` (which then has no separator) or the
      character just before it is the separator. */
  lemma {:induction false} LastSegmentIsSuffix(s: string, sep: char)
    ensures var r := LastSegment(s, sep);
      && |r| <= |s|
      && r == s[|s| - |r|..]
      && sep !in r
      && (if sep in s then |r| < |s| && s[|s| - |r| - 1] == sep else r == s)
    decreases |s|
  {
    if |s| == 0 {
    } else {
      LastSegmentIsSuffix(s[1..], sep);
      var rest := Split(s[1..], sep);
      var r' := LastSegment(s[1..], sep);
      assert s == [s[0]] + s[1..];
      if s[0] == sep {
        assert Split(s, sep) == [""] + rest;
        assert LastSegment(s, sep) == r';
      } else if |rest| == 1 {
        assert Split(s, sep) == [[s[0]] + rest[0]];
        assert LastSegment(s, sep) == [s[0]] + r';
        JoinSplit(s[1..], sep);
        assert sep !in s[1..];
      } else {
        assert LastSegment(s, sep) == r';
        if sep !in s[1..] {
          SplitWithoutSeparator(s[1..], sep);
        }
      }
    }
  }

  // ---------------------------------------------------------------------------
  // lower(), strip(), split()
  // ---------------------------------------------------------------------------

  function LowerChar(c: char): (r: char)
    ensures 'A' <= c <= 'Z' ==> r as int == c as int + 32
    ensures !('A' <= c <= 'Z') ==> r == c
  {
    if 'A' <= c <= 'Z' then (c as int + 32) as char else c
  }

  /** `s.lower()` on ASCII letters; every other character is kept. */
  function Lower(s: string): (r: string)
    ensures |r| == |s|
    ensures forall k :: 0 <= k < |s| ==> r[k] == LowerChar(s[k])
  {
    seq(|s|, k requires 0 <= k < |s| => LowerChar(s[k]))
  }

  /** The text holds a NUL character. */
  predicate HoldsNul(s: string) {
    '\0' in s
  }

  /** Python's ASCII whitespace, as `str.strip()` and `str.split()` see it: the
      space, tab through carriage return, and the four separators 0x1C to 0x1F. */
  predicate IsSpace(c: char) {
    c == ' ' || ('\t' <= c <= '\r') || (28 as char <= c <= 31 as char)
  }

  /** `s.lstrip()`: drops leading whitespace only. */
  function StripLeft(s: string): (r: string)
    ensures |r| <= |s| && r == s[|s| - |r|..]
    ensures forall k :: 0 <= k < |s| - |r| ==> IsSpace(s[k])
    ensures |r| == 0 || !IsSpace(r[0])
    decreases |s|
  {
    if |s| > 0 && IsSpace(s[0]) then StripLeft(s[1..]) else s
  }

  /** `s.rstrip()`: drops trailing whitespace only. */
  function StripRight(s: string): (r: string)
    ensures |r| <= |s| && r == s[..|r|]
    ensures forall k :: |r| <= k < |s| ==> IsSpace(s[k])
    ensures |r| == 0 || !IsSpace(r[|r| - 1])
    decreases |s|
  {
    if |s| > 0 && IsSpace(s[|s| - 1]) then StripRight(s[..|s| - 1]) else s
  }

  /** `s.strip()`: the text without leading and trailing whitespace. */
  function Strip(s: string): string {
    StripRight(StripLeft(s))
  }

  /** Text that neither starts nor ends with whitespace is its own strip. */
  lemma StripUnpadded(s: string)
    requires |s| > 0 && !IsSpace(s[0]) && !IsSpace(s[|s| - 1])
    ensures Strip(s) == s
  {
    assert StripLeft(s) == s;
  }

  /** Stripping twice is stripping once. */
  lemma StripIdempotent(s: string)
    ensures Strip(Strip(s)) == Strip(s)
  {
    var l := StripLeft(s);
    var r := StripRight(l);
    assert Strip(s) == r;
    if |r| > 0 {
      assert r[0] == l[0] && !IsSpace(l[0]);
      assert !IsSpace(r[|r| - 1]);
      StripUnpadded(r);
    } else {
      assert StripLeft(r) == r;
      assert StripRight(r) == r;
    }
  }

  /** Every whitespace character replaced by a plain space. */
  function SpacesToBlank(s: string): (r: string)
    ensures |r| == |s|
    ensures forall k :: 0 <= k < |s| ==> r[k] == (if IsSpace(s[k]) then ' ' else s[k])
  {
    seq(|s|, k requires 0 <= k < |s| => if IsSpace(s[k]) then ' ' else s[k])
  }

  /** The non-empty pieces, in order. */
  function NonEmpty(parts: seq<string>): (r: seq<string>)
    ensures forall k :: 0 <= k < |r| ==> |r[k]| > 0
    ensures forall p :: p in r <==> p in parts && |p| > 0
  {
    if |parts| == 0 then []
    else if |parts[0]| == 0 then NonEmpty(parts[1..])
    else [parts[0]] + NonEmpty(parts[1..])
  }

  /** `s.split()` with no argument: the maximal runs of non-whitespace, which are
      the non-empty pieces left when every whitespace character separates. */
  function Words(s: string): (ws: seq<string>)
    ensures forall k :: 0 <= k < |ws| ==> |ws[k]| > 0 && ' ' !in ws[k]
  {
    NonEmpty(Split(SpacesToBlank(s), ' '))
  }

  // ---------------------------------------------------------------------------
  // Decimal digits
  // ---------------------------------------------------------------------------

  predicate IsDigit(c: char) {
    '0' <= c <= '9'
  }

  /** `s.isdigit()`: non-empty and made only of digits. */
  predicate IsDigits(s: string) {
    |s| > 0 && forall k :: 0 <= k < |s| ==> IsDigit(s[k])
  }

  function DigitChar(d: nat): (c: char)
    requires d < 10
    ensures IsDigit(c) && c as int - '0' as int == d
  {
    ('0' as int + d) as char
  }

  function DigitValue(c: char): (d: nat)
    requires IsDigit(c)
    ensures d < 10
  {
    c as int - '0' as int
  }

  /** `int(s)` for a string of digits (leading zeros allowed). */
  function ParseNat(s: string): nat
    requires forall k :: 0 <= k < |s| ==> IsDigit(s[k])
    decreases |s|
  {
    if |s| == 0 then 0
    else ParseNat(s[..|s| - 1]) * 10 + DigitValue(s[|s| - 1])
  }

  /** Appending a digit shifts the value by one decimal place. */
  lemma ParseNatSnoc(s: string, c: char)
    requires forall k :: 0 <= k < |s| ==> IsDigit(s[k])
    requires IsDigit(c)
    ensures forall k :: 0 <= k < |s + [c]| ==> IsDigit((s + [c])[k])
    ensures ParseNat(s + [c]) == ParseNat(s) * 10 + DigitValue(c)
  {
    assert (s + [c])[..|s|] == s;
  }

  /** `str(n)` for a non-negative integer: its decimal digits, no leading zero. */
  function NatToString(n: nat): (s: string)
    ensures IsDigits(s)
    ensures |s| > 1 ==> s[0] != '0'
    decreases n
  {
    if n < 10 then [DigitChar(n)] else NatToString(n / 10) + [DigitChar(n % 10)]
  }

  /** Reading back the decimal rendering of `n` gives `n`. */
  lemma {:induction false} ParseNatToString(n: nat)
    ensures ParseNat(NatToString(n)) == n
    decreases n
  {
    if n >= 10 {
      ParseNatToString(n / 10);
      var s := NatToString(n);
      assert s[..|s| - 1] == NatToString(n / 10);
    }
  }

  // ---------------------------------------------------------------------------
  // Substrings
  // ---------------------------------------------------------------------------

  /** `needle` occurs somewhere in `hay`. */
  predicate Contains(hay: string, needle: string)
    decreases |hay|
  {
    needle <= hay || (|hay| > 0 && Contains(hay[1..], needle))
  }

  /** `Contains` agrees with the positional definition of a substring. */
  lemma {:induction false} ContainsAt(hay: string, needle: string)
    ensures Contains(hay, needle) <==> exists i :: 0 <= i <= |hay| && needle <= hay[i..]
    decreases |hay|
  {
    assert hay[0..] == hay;
    if needle <= hay {
    } else if |hay| == 0 {
    } else {
      ContainsAt(hay[1..], needle);
      if Contains(hay, needle) {
        var i :| 0 <= i <= |hay[1..]| && needle <= hay[1..][i..];
        assert hay[1..][i..] == hay[i + 1..];
      }
      if exists i :: 0 <= i <= |hay| && needle <= hay[i..] {
        var i :| 0 <= i <= |hay| && needle <= hay[i..];
        assert i != 0;
        assert hay[1..][i - 1..] == hay[i..];
      }
    }
  }
}

=== FILE: validators.dfy ===
/** The upload validator for category icons and profile photos: the file name's
    extension, taken after the last dot and lower-cased, must be one of four image
    formats. */
module Validators {
  import opened Results
  import opened Text

  const AllowedIconExtensions: set<string> := {"png", "jpg", "jpeg", "svg"}
  const IconFormatMessage: string := "Ruxsat etilgan formatlar: png, jpg, jpeg, svg."

  /** `name.split('.')[-1].lower()`. */
  function Extension(name: string): string {
    Lower(LastSegment(name, '.'))
  }

  /** Position `k` is where the text after the last dot of `name` starts (0 when
      the name holds no dot at all). */
  ghost predicate AfterLastDot(name: string, k: int) {
    && 0 <= k <= |name|
    && '.' !in name[k..]
    && (if '.' in name then k > 0 && name[k - 1] == '.' else k == 0)
  }

  /** `icon_extensions(file)`: passes, or fails with the validation message. */
  function IconExtensions(name: string): (r: Result<()>)
    ensures r.Err? ==> r.error == ValidationError(IconFormatMessage)
  {
    if Extension(name) in AllowedIconExtensions then Ok(())
    else Err(ValidationError(IconFormatMessage))
  }

  /** A dot-free stretch of the name holds no dot at any of its positions. */
  lemma NoDotWithin(name: string, k: int, j: int)
    requires 0 <= k <= j < |name| && '.' !in name[k..]
    ensures name[j] != '.'
  {
    assert name[k..][j - k] == name[j];
  }

  /** The extension is the lower-cased text after the last dot, and the name is
      accepted exactly when that text, lower-cased, is one of the allowed formats. */
  lemma IconExtensionsByLastDot(name: string)
    ensures exists k :: AfterLastDot(name, k)
    ensures forall k :: AfterLastDot(name, k) ==>
      && Extension(name) == Lower(name[k..])
      && (IconExtensions(name).Ok? <==> Lower(name[k..]) in AllowedIconExtensions)
  {
    LastSegmentIsSuffix(name, '.');
    var r := LastSegment(name, '.');
    var k0 := |name| - |r|;
    assert AfterLastDot(name, k0);
    forall k | AfterLastDot(name, k)
      ensures name[k..] == r
    {
      if '.' in name {
        if k < k0 {
          NoDotWithin(name, k, k0 - 1);
        } else if k > k0 {
          NoDotWithin(name, k0, k - 1);
        }
      }
    }
  }

  /** The acceptance test read at a known position of the last dot. */
  lemma AcceptedIffAt(name: string, k: int)
    requires AfterLastDot(name, k)
    ensures IconExtensions(name).Ok? <==> Lower(name[k..]) in AllowedIconExtensions
  {
    IconExtensionsByLastDot(name);
  }

  /** Upper-case extensions are accepted. */
  lemma UpperCaseAccepted()
    ensures IconExtensions("A.PNG").Ok?
  {
    var name := "A.PNG";
    assert name[2..] == "PNG";
    assert AfterLastDot(name, 2);
    AcceptedIffAt(name, 2);
    var l := Lower("PNG");
    assert l[0] == 'p' && l[1] == 'n' && l[2] == 'g';
    assert l == "png";
  }

  /** Only the last segment counts: whatever precedes the last dot, the name is
      judged as its extension alone would be. */
  lemma LastSegmentDecides(stem: string, ext: string)
    requires '.' !in ext
    ensures IconExtensions(stem + ['.'] + ext) == IconExtensions(ext)
  {
    LastSegmentAfter(stem, ext, '.');
    SplitWithoutSeparator(ext, '.');
  }

  /** A later segment hides an allowed one before it. */
  lemma LastSegmentDecidesReject(stem: string)
    ensures IconExtensions(stem + ".png" + ".exe").Err?
  {
    assert stem + ".png" + ".exe" == (stem + ".png") + ['.'] + "exe";
    LastSegmentDecides(stem + ".png", "exe");
    var l := Lower("exe");
    assert l[0] == 'e';
    assert "png"[0] == 'p' && "jpg"[0] == 'j' && "jpeg"[0] == 'j' && "svg"[0] == 's';
  }

  /** An allowed last segment is enough, whatever precedes it. */
  lemma LastSegmentDecidesAccept(stem: string)
    ensures IconExtensions(stem + ".exe" + ".png").Ok?
  {
    assert stem + ".exe" + ".png" == (stem + ".exe") + ['.'] + "png";
    LastSegmentDecides(stem + ".exe", "png");
    DotlessNameIsItsExtension();
  }

  /** A name without a dot is its own extension. */
  lemma DotlessNameIsItsExtension()
    ensures IconExtensions("png").Ok?
  {
    var name := "png";
    assert name[0..] == name;
    assert '.' !in name;
    assert AfterLastDot(name, 0);
    AcceptedIffAt(name, 0);
    var l := Lower(name);
    assert l[0] == 'p' && l[1] == 'n' && l[2] == 'g';
    assert l == "png";
  }

  /** A trailing dot leaves an empty extension, which is refused. */
  lemma TrailingDotRejected()
    ensures IconExtensions("x.").Err?
  {
    var name := "x.";
    assert name[2..] == "";
    assert name[1] == '.';
    assert AfterLastDot(name, 2);
    AcceptedIffAt(name, 2);
  }
}
